=== FILE: README.md ===
# Warranty Portal (reseller edition): a Dafny model of its core rules

This project models the rules at the heart of a multi-tenant warranty and
asset-tracking portal and proves properties about them. There are four parts.

- **Tenant plans and usage limits.**
  - The built-in plan table (`DEFAULT_PLANS`) and a tenant's effective feature map: plan, then overrides, then the free-plan downgrade for an expired subscription.
  - Feature and limit checks, with the `-1` "unlimited" sentinel and a strict `<`.
  - The usage counters.
- **Tenant onboarding and subscriptions.**
  - `generate_slug` and the `base`, `base-1`, … loop.
  - The subdomain-then-email conflict checks and the three records a signup writes, including the calendar-month billing period.
  - Case-insensitive login and the webhook-driven subscription transitions.
  - Tenant query isolation.
- **Warranty dates and the admin store.**
  - Part expiry, which counts 30 days per month.
  - The inclusive date-only `is_warranty_active` and `days_until_expiry` of `utils/helpers.py`, and the older instant-based `is_warranty_active` of `server.py`.
  - The admin handlers for devices, parts and legacy AMCs (annual maintenance contracts). They keep serial numbers unique, allow one AMC per device, recompute part expiry and cascade device deletes.
  - The dashboard counts.
- **The browser-side helpers that restate these rules.**
  - The CSV import dialog, the duration field and the signup wizard.
  - The days-left banding of the licence, contract, device and public warranty pages.
  - The legacy AMC page and the plan editor.

Everything is a pure function over immutable datatypes:

- The document store is a set of finite maps; `org_users` is a sequence, because a lookup returns the first match.
- Dates are proleptic Gregorian `Date(y, m, d)` values for years 1..9999, with day numbers (`toordinal() - 1`).
- Instants are a date plus microseconds of the day.
- Strings are `seq<char>`.

Ambient inputs become parameters:

- The clock: "today", "now", and the ISO timestamps the admin handlers stamp.
- The fresh `uuid4()` ids.
- The password hash and verify functions.
- The answers of HTTP requests.
- The whole days left, which the pages compute with `Date` arithmetic.

The modules follow the program:

| module | models |
|---|---|
| `Wrappers`, `Text`, `Numerals`, `Calendar` | `Option`/`Result`; lower-casing, trimming with the Python and JavaScript whitespace sets, splitting; decimal rendering and JavaScript `parseInt`; the calendar, `strptime('%Y-%m-%d')`, the `fromisoformat` subset and `strftime('%Y-%m-%d')` |
| `Plans`, `Tenants` | `backend/models/saas.py` |
| `FeatureGate`, `Slugs`, `Onboarding`, `Subscriptions` | `backend/services/saas_service.py` (and `generateSlug` of the signup page) |
| `Warranty`, `AdminStore` | `backend/utils/helpers.py` and the warranty utilities and admin handlers of `backend/server.py` |
| `BulkImport`, `DurationInput`, `Signup`, `ExpiryStatus`, `RecordPages`, `AmcForm`, `PlanForm`, `WarrantyPage` | the React components and pages |

Several places where two parts of the system disagree are stated as lemmas rather than hidden:

- The admin licence table shows day 0 as "Expired" while the organisation pages call it expiring (`ExpiryStatus.AdminAndOrgDisagreeOnDayZero`).
- On the expiry day the two `is_warranty_active` functions disagree (`Warranty.VariantsDisagreeOnExpiryDay`).
- A past date 9999 days back is indistinguishable from a parse failure in `days_until_expiry` (`Warranty.SentinelIsAmbiguous`).
- The back-end and front-end slug functions disagree on the ASCII separator controls `\x1c`–`\x1f`, which only Python calls whitespace (`Slugs.SlugsDisagreeOnSeparator`).

A signup stores and returns the caller's raw `slug` argument, not the slug it chose (`services/saas_service.py` lines 79 and 136). The model keeps this. Two consequences follow:

- A signup with no `slug` argument (`None`) stores no slug, so the `base-1`, `base-2` loop never sees organisations created that way (`Onboarding.AutoSlugNotRecorded`). An empty `slug` argument is falsy too, so the loop picks the slug, but `""` is what gets stored (`Onboarding.EmptySlugStoredAsEmpty`).
- Two signups of the same name with no `slug` argument both store no slug, and the first leaves the second's choice unchanged (`Onboarding.AutoSlugNotRecorded`). So a second "Acme IT & Co." is never stored as `acme-it-co-1`.

## Model

| member | source | states |
|---|---|---|
| Plans.AsNumber | backend/services/saas_service.py:243-249 | a feature value compares as a number exactly when it is a bool or an int, with `True`/`False` as 1/0 (Python's `bool` is an `int`) |
| Plans.Get | backend/services/saas_service.py:222 | `dict.get`: the stored value when the key is present, the default otherwise |
| Plans.FirstPlanWhere | backend/services/saas_service.py:203 | `next(..., DEFAULT_PLANS[0])`: the first matching plan when one matches, otherwise the first plan; always a plan of the list |
| Plans.PlanById | backend/services/saas_service.py:203 | a known plan id gives that plan; any other id gives `DEFAULT_PLANS[0]` |
| Plans.FreePlanByName | backend/services/saas_service.py:213 | the downgrade's lookup by name finds the plan named `free` |
| Plans.FallbacksAgree | backend/models/saas.py:55-57 | `DEFAULT_PLANS[0]` is `plan_free`/`free`, so the unknown-id fallback, the by-name lookup and `plan_free` all give the same plan |
| Plans.DefaultPlansShape | backend/models/saas.py:54-123 | three plans with distinct ids and `sort_order` 1, 2, 3 in list order |
| Plans.PlanCaps | backend/models/saas.py:63-65 | the device/user/company caps are 10/2/1 (free), 100/10/5 (pro) and -1 on all three (enterprise) |
| Plans.PlanByKnownId | backend/models/saas.py:54-123 | each of the three ids finds its own plan |
| Plans.PlanFlags | backend/models/saas.py:62-74 | `osticket_integration` is off on free and on for pro and enterprise; only enterprise has a `white_label` key, which is true |
| Plans.ModelDefaultsVersusFreePlan | backend/models/saas.py:13-26 | `PlanFeatures` defaults to caps 10/2/1 with every flag false, while the free plan turns `qr_codes` on |
| Tenants.ZeroCounters | backend/models/saas.py:280-297 | a fresh usage record has exactly the four counters, all 0 |
| Tenants.AddOrgFilter | backend/services/saas_service.py:343-346 | the query gains `org_id = orgId`, overriding any `org_id` it had; every other key is kept |
| FeatureGate.GetPlanFeatures | backend/services/saas_service.py:194-216 | a missing org gives `{}`; an expired subscription gives exactly the free plan's features with overrides dropped; otherwise the plan's features with every override key winning |
| FeatureGate.CheckFeatureAccess | backend/services/saas_service.py:219-222 | a missing org has no access; an override decides for a non-expired org; without one the org's plan decides; an expired org gets the free plan's answer |
| FeatureGate.ExpiredGetsFreeAccess | backend/services/saas_service.py:211-214 | an expired org gets exactly the free plan's answer, whatever its plan and overrides |
| FeatureGate.TicketingGate | backend/models/saas.py:72 | without an override, ticketing is available exactly on the pro and enterprise plans |
| FeatureGate.LimitKeys | backend/services/saas_service.py:233-239 | only `devices`, `users` and `companies` are limit types |
| FeatureGate.CheckLimit | backend/services/saas_service.py:225-260 | an unknown type is allowed with limit -1; a -1 limit is allowed for any usage; otherwise allowed iff current < limit, a missing record counting 0 and a missing cap 0; a non-numeric cap raises |
| FeatureGate.MissingOrgRefused | backend/services/saas_service.py:243-249 | an org that does not exist has cap 0, so it is refused unless its counter is negative |
| FeatureGate.EnterpriseUnlimited | backend/services/saas_service.py:246-247 | an enterprise tenant without a cap override is always allowed |
| FeatureGate.UnlimitedAllows | backend/services/saas_service.py:246-247 | a -1 cap allows whatever the usage |
| FeatureGate.CapLimits | backend/services/saas_service.py:249-259 | for an integer cap other than -1 the answer reports the cap and the usage, and is allowed iff usage < cap |
| FeatureGate.FreeTenantFeatures | backend/services/saas_service.py:203-208 | a free-plan tenant without overrides has exactly the free plan's features |
| FeatureGate.FreePlanDeviceCap | backend/models/saas.py:63 | a plain free tenant may add devices while it has fewer than 10 |
| FeatureGate.NumericCheck | backend/services/saas_service.py:249 | any successful numeric answer compares the reported usage with the reported cap by strict `<` |
| FeatureGate.AdjustUsage | backend/services/saas_service.py:263-284 | `$inc` plus `$set updated_at`: with a record, only the one counter moves by the delta (starting from 0 when absent) and the other records and counters are untouched; with none, nothing changes |
| FeatureGate.IncrementUsage | backend/services/saas_service.py:263-272 | the `<type>_count` counter goes up by the amount; a missing record is a no-op |
| FeatureGate.DecrementUsage | backend/services/saas_service.py:275-284 | the counter goes down by the amount; a missing record is a no-op |
| FeatureGate.DecrementUndoesIncrement | backend/services/saas_service.py:263-284 | a decrement of the same amount restores the counter; only `updated_at` (and a counter that was absent, now 0) differ |
| FeatureGate.DecrementHasNoFloor | backend/services/saas_service.py:281 | decrementing a zero counter gives -1 |
| FeatureGate.CheckThenIncrementStaysWithinLimit | backend/services/saas_service.py:249-272 | a device add that the limit check allowed leaves the count at most the cap |
| FeatureGate.DeviceCountKey | backend/services/saas_service.py:265 | the usage type `device` updates `device_count` |
| Slugs.GenerateSlug | backend/services/saas_service.py:21-29 | the slug holds only `[a-z0-9-]`, never starts or ends with `-`, and never contains `--`; with its hyphens removed it is exactly the letters and digits of the lower-cased name, in order |
| Slugs.GenerateSlugFixesSlugs | backend/services/saas_service.py:21-29 | a string already in slug form is returned unchanged |
| Slugs.GenerateSlugIdempotent | backend/services/saas_service.py:21-29 | slugging a slug changes nothing |
| Slugs.GenerateSlugJs | frontend/src/pages/public/SignupPage.js:52-60 | the suggested subdomain has the same slug form and keeps exactly the letters and digits of the lower-cased name, in order |
| Slugs.AlnumSlugCore | backend/services/saas_service.py:23-27 | the lower-casing, trimming, filtering and hyphenating steps keep every letter and digit of the lower-cased name, in order |
| Slugs.AcmeSlug | backend/services/saas_service.py:21-29 | `generate_slug("Acme IT & Co.")` is `acme-it-co` |
| Slugs.AcmeSlugJs | frontend/src/pages/public/SignupPage.js:52-60 | the sign-up page suggests `acme-it-co` for "Acme IT & Co." |
| Slugs.SlugsAgree | frontend/src/pages/public/SignupPage.js:52-60 | on names free of the characters only one side calls whitespace, the page's suggestion equals the server's slug |
| Slugs.SlugsDisagreeOnSeparator | backend/services/saas_service.py:24-26 | a letter, a `\x1c`–`\x1f` separator and a letter become `x-y` on the server but `xy` on the page |
| Text.WhitespaceSetsDiffer | backend/services/saas_service.py:24-26 | Python's and JavaScript's whitespace differ exactly on `\x1c`–`\x1f`, U+0085 and U+FEFF |
| Text.Lower | backend/services/saas_service.py:24 | lower-casing maps each ASCII capital to its small letter and keeps every other character |
| Text.LowerIdempotent | frontend/src/pages/public/SignupPage.js:111 | lower-casing twice is lower-casing once |
| Text.Trim | frontend/src/pages/public/SignupPage.js:120 | `trim`/`strip`: the result is no longer than the input and neither starts nor ends with whitespace |
| Text.TrimOccurs | frontend/src/pages/public/SignupPage.js:120 | the trimmed text is a slice of the input with only whitespace cut at each end |
| Text.TrimIdempotent | frontend/src/pages/public/OrgWarrantyPage.js:49-57 | trimming trimmed text changes nothing |
| Text.TrimEmptyIffAllSpace | frontend/src/pages/public/OrgWarrantyPage.js:49 | text trims to nothing exactly when it is all whitespace |
| Text.Split | frontend/src/components/ui/bulk-import.jsx:64 | `split`: at least one part, none containing the separator |
| Text.JoinSplit | frontend/src/components/ui/bulk-import.jsx:64 | joining the parts with the separator gives the text back |
| Text.SplitCount | frontend/src/components/ui/bulk-import.jsx:68 | there is one part more than separators |
| Numerals.ValueOfNatToString | frontend/src/components/ui/date-duration-input.jsx:112-118 | `String(n)` renders digits whose value is `n` |
| Numerals.NatToStringOfValue | frontend/src/components/ui/date-duration-input.jsx:112-118 | a digit string without a leading zero is the rendering of its value |
| Numerals.ParseIntOr | frontend/src/pages/org/OrgLicenses.js:70 | `parseInt(x) \|\| d`: the parsed value unless it is NaN or 0, then `d` |
| Numerals.JsParseInt | frontend/src/pages/admin/PlanManagement.js:137 | `parseInt`: blank text and text whose first non-blank character is neither a sign nor a digit are NaN; a leading digit (not starting a "0x" prefix under the automatic radix) gives a non-negative number |
| Numerals.JsParseIntOfNegativeString | frontend/src/pages/admin/PlanManagement.js:137 | `parseInt` reads back a rendered negative integer |
| Numerals.JsParseIntOfIntString | frontend/src/pages/admin/PlanManagement.js:137 | `parseInt` reads back every rendered integer, negative ones included |
| Numerals.JsParseIntNaN | frontend/src/pages/admin/PlanManagement.js:137 | text with no leading digit reads as NaN |
| Calendar.AddDays | backend/utils/helpers.py:21 | `+ timedelta(days=k)`: defined iff the result stays in years 1..9999, and then exactly `k` days later |
| Calendar.FromDayNumberOfDayNumber | backend/utils/helpers.py:21 | day numbers and dates convert back and forth without loss |
| Calendar.DayNumberOrder | backend/utils/helpers.py:30 | date comparison is day-number comparison |
| Calendar.FormatDate | backend/utils/helpers.py:22 | `strftime('%Y-%m-%d')` has ten characters with dashes at 4 and 7 |
| Calendar.FormatDateOrder | backend/server.py:857-860 | comparing rendered dates as strings is comparing the dates |
| Calendar.ParseYmd | backend/utils/helpers.py:25-32 | a date `strptime('%Y-%m-%d')` accepts is a real date of years 1..9999, read from 8 to 10 characters whose first four are the year's digits, followed by '-' |
| Calendar.ParseYmdOfFormat | backend/utils/helpers.py:18-32 | `strptime('%Y-%m-%d')` reads back every date `strftime` rendered |
| Calendar.ParseYmdRejectsShort | backend/utils/helpers.py:28 | text shorter than 8 characters is not a date |
| Calendar.ParseIsoDateTime | backend/utils/helpers.py:20 | `fromisoformat` accepts a date only when its first ten characters are one |
| Calendar.ParseIsoOfFormat | backend/utils/helpers.py:20 | `fromisoformat` reads back a rendered date |
| Calendar.ParseIsoWithTime | backend/utils/helpers.py:20 | a date followed by a separator and a valid time reads as that date; with an invalid time it does not parse |
| Calendar.Midnight | backend/server.py:269-275 | the `strptime` instant is the first instant of its date |
| Calendar.AddDaysAt | backend/services/saas_service.py:74 | `now + timedelta(days=k)` keeps the time of day and moves the date by `k`, or overflows |
| Calendar.MinusOneSecond | backend/services/saas_service.py:116 | `- timedelta(seconds=1)` is one second earlier on the microsecond time line, or overflows before year 1 |
| Onboarding.UsedSlugs | backend/services/saas_service.py:57 | the slugs `find_one({"slug": ...})` finds: those stored on some organisation |
| Onboarding.CandidatesDistinct | backend/services/saas_service.py:53-59 | `base`, `base-1`, `base-2`, … are pairwise different |
| Onboarding.FirstFreeFrom | backend/services/saas_service.py:56-59 | the loop stops at the first candidate not in use, having passed only candidates in use |
| Onboarding.FirstFreeSlug | backend/services/saas_service.py:53-59 | the chosen candidate of `base`, `base-1`, … is not in use and every earlier one is |
| Onboarding.ChooseSlug | backend/services/saas_service.py:49-59 | a given slug is lower-cased and stripped; otherwise the first free candidate of `base`, `base-1`, … is chosen, and it is not in use |
| Onboarding.PeriodStart | backend/services/saas_service.py:115 | the period starts on the 1st of the current month at 00:00:00, keeping the microseconds |
| Onboarding.PeriodEndIsLastSecondOfMonth | backend/services/saas_service.py:115-116 | the period ends on the last day of that month at 23:59:59 (plus the kept microseconds); it overflows only in December 9999 |
| Onboarding.InitialCounters | backend/services/saas_service.py:118-124 | the owner is counted: `user_count` 1 and the other counters 0 |
| Onboarding.InsertTenant | backend/services/saas_service.py:70-144 | a signup past the conflict checks adds one organisation, one user and one usage record |
| Onboarding.InsertTenantSucceedsIff | backend/services/saas_service.py:74-116 | the signup writes succeed iff the trial end and the period end stay within year 9999 |
| Onboarding.SignupOrgRecord | backend/services/saas_service.py:74-136 | the organisation is on `plan_free`, `trialing`, with `{}` overrides, active, unverified, its trial ending 14 days later at the same time of day, the owner's email lower-cased, and the raw slug argument stored and returned; the other organisations are untouched |
| Onboarding.SignupOwnerRecord | backend/services/saas_service.py:96-111 | the owner is appended with role `owner`, permissions `["*"]`, the lower-cased email and the password's hash; the earlier users are untouched |
| Onboarding.SignupUsageRecord | backend/services/saas_service.py:115-129 | the usage record counts the owner and spans the calendar month of the signup |
| Onboarding.Register | backend/services/saas_service.py:61-68 | the subdomain check comes before the email check, neither error writes anything, and passing both writes the tenant |
| Onboarding.CreateOrganization | backend/services/saas_service.py:49-144 | "Subdomain already taken" iff a given slug, lower-cased and stripped, is in use; "Email already registered" iff not that and the lower-cased email is in use; errors write nothing |
| Onboarding.AutoSlugNeverTaken | backend/services/saas_service.py:53-62 | without a given slug the "taken" error cannot happen |
| Onboarding.AutoSlugNotRecorded | backend/services/saas_service.py:79 | a signup with no slug argument (`None`) stores no slug, so the slugs in use and the next automatic choice are unchanged |
| Onboarding.EmptySlugStoredAsEmpty | backend/services/saas_service.py:79 | an empty slug argument takes the automatic path but is stored as `""`, which then counts as a slug in use |
| Onboarding.NewTenantIsOnFreePlan | backend/services/saas_service.py:85-124 | a new tenant has the free plan's features and may add a second user, with usage 1 of 2 |
| Onboarding.FindActiveUser | backend/services/saas_service.py:167 | the first user with that email who is active, or none |
| Onboarding.SetLastLogin | backend/services/saas_service.py:180-183 | only the first user with that id gets `last_login` |
| Onboarding.AuthenticateOrgUser | backend/services/saas_service.py:165-189 | a session iff an active user has the lower-cased email, the password verifies and the user's org exists and is active; only then is `last_login` written |
| Onboarding.LoginAfterSignup | backend/services/saas_service.py:165-189 | right after a signup the owner can log in with any capitalisation of the email and gets the new user and organisation |
| Subscriptions.UpdateSubscriptionStatus | backend/services/saas_service.py:289-311 | sets the status and `updated_at`; the plan id and subscription id only when truthy; nothing else and no other org changes |
| Subscriptions.ActivatedPlanId | backend/services/saas_service.py:316 | `notes.plan_id`, else `plan_pro` when notes or the key are absent; a `null` notes raises |
| Subscriptions.HandleSubscriptionActivated | backend/services/saas_service.py:314-324 | `null` notes are refused; otherwise the org becomes `active`, on the notes' truthy `plan_id`, on `plan_pro` when the notes or the key are missing, keeping its plan for an empty or `null` id; the subscription id when one is given; every other org unchanged |
| Subscriptions.HandleSubscriptionCancelled | backend/services/saas_service.py:329-331 | the org becomes `cancelled` on `plan_free` with `updated_at` set to now, and keeps its subscription id and every other field; every other org unchanged |
| Subscriptions.HandlePaymentFailed | backend/services/saas_service.py:335-337 | the org becomes `past_due` with `updated_at` set to now, and keeps its plan, subscription id and every other field; every other org unchanged |
| Subscriptions.UpdateIsIdempotent | backend/services/saas_service.py:289-311 | a repeated webhook update changes nothing more |
| Subscriptions.FalsyArgumentsKeepStoredValues | backend/services/saas_service.py:302-306 | empty or missing plan and subscription ids leave the stored ones |
| Subscriptions.CancelledGetsFreePlan | backend/services/saas_service.py:331 | after cancellation the tenant has the free plan's features plus its overrides |
| Subscriptions.ActivationWithoutNotesGetsPro | backend/services/saas_service.py:316 | activation without notes gives the pro plan's features plus the overrides |
| Subscriptions.PaymentFailedKeepsFeatures | backend/services/saas_service.py:337 | a failed payment leaves a non-expired tenant's features unchanged |
| Warranty.ZuluAsOffset | backend/utils/helpers.py:20 | `.replace('Z', '+00:00')` leaves no `Z` and keeps text without one |
| Warranty.CalculateWarrantyExpiry | backend/utils/helpers.py:18-22 | fails exactly when the text is not an ISO date; otherwise the rendered date `30 * months` days after it, which reads back as that date |
| Warranty.ExpiryOfZeroMonths | backend/utils/helpers.py:18-22 | zero months gives the replacement date itself |
| Warranty.ExpiryMonotone | backend/utils/helpers.py:18-22 | more months never gives an earlier expiry |
| Warranty.TimeOfDayIgnored | backend/utils/helpers.py:20-22 | the time of day and a trailing `Z` do not change the expiry |
| Warranty.IsWarrantyActive | backend/utils/helpers.py:25-32 | active iff the text is a `YYYY-MM-DD` date and today is on or before it |
| Warranty.DaysUntilExpiry | backend/utils/helpers.py:35-42 | today plus the result is the expiry date; -9999 on a parse failure |
| Warranty.ActiveIffDaysNotNegative | backend/utils/helpers.py:25-42 | on the same day, active iff the days left are not negative |
| Warranty.MalformedIsInactive | backend/utils/helpers.py:25-42 | `""` and `"not-a-date"` are not active; `""` has -9999 days |
| Warranty.SentinelIsAmbiguous | backend/utils/helpers.py:40-42 | a date 9999 days ago gives the same answer as a parse failure |
| Warranty.ServerIsWarrantyActive | backend/server.py:269-275 | active iff the date parses and now is not after midnight at its start |
| Warranty.ServerActiveImpliesActive | backend/server.py:269-275 | whatever the server variant calls active, the helpers variant does too |
| Warranty.VariantsDisagreeOnExpiryDay | backend/server.py:272-273 | after midnight on the expiry day the helpers variant says active and the server variant does not |
| Warranty.VariantsAgreeOffExpiryDay | backend/server.py:269-275 | on every other day the two agree |
| AdminStore.SearchQuery | backend/server.py:298-301 | a query that strips to fewer than two characters is refused; otherwise it is stripped |
| AdminStore.SearchQueryGuard | backend/server.py:298-301 | an all-whitespace query is refused, and an accepted query is accepted again unchanged |
| AdminStore.CreateDevice | backend/server.py:643-657 | "Company not found" iff the company is missing, then "Serial number already exists" iff the serial is in use; succeeds iff neither holds, adding only the new device, which holds every submitted field, the new id and the creation time |
| AdminStore.ApplyDeviceUpdate | backend/server.py:666-685 | `$set` of the non-None fields: each of the ten fields takes the update's value when it carries one and keeps the stored value otherwise; the id and creation time stay |
| AdminStore.ApplyDeviceUpdateIdempotent | backend/server.py:666-685 | replaying the same `$set` changes nothing further |
| AdminStore.UpdateDevice | backend/server.py:666-685 | an empty update is refused, then a serial held by another device, then a missing device; succeeds iff none holds, and only that device changes |
| AdminStore.DeleteDevice | backend/server.py:687-695 | a missing device is "not found"; otherwise the device and exactly its parts and AMCs go, and nothing else changes |
| AdminStore.CreatePart | backend/server.py:706-721 | a missing device is refused, then an unreadable replacement date with the expiry error; succeeds iff the device exists and the expiry computes; only the new part is added, holding every submitted field, the new id, the creation time and the expiry computed from its date and months |
| AdminStore.UpdatePart | backend/server.py:730-748 | an empty update is refused; the name, notes, date and months take the update's values when given and keep the stored ones otherwise; a change to the date or the months recomputes the expiry from the new-or-stored values and fails iff that recomputation fails; otherwise the expiry stays |
| AdminStore.CreateAmc | backend/server.py:765-779 | a missing device is refused, then a device that already has an AMC; succeeds iff neither holds, adding only the new AMC, which holds the submitted device, dates and notes, the new id and the creation time |
| AdminStore.CreateDeviceKeepsConsistent | backend/server.py:650-656 | with a fresh id, creating a device keeps serials unique, ids matching keys, and every record attached to an existing device |
| AdminStore.UpdateDeviceKeepsConsistent | backend/server.py:672-681 | updating a device keeps the store consistent |
| AdminStore.DeleteDeviceKeepsConsistent | backend/server.py:687-695 | the cascading delete leaves no part or AMC pointing at a missing device |
| AdminStore.PutPartKeepsConsistent | backend/server.py:709-720 | storing a part of an existing device keeps the store consistent |
| AdminStore.CreatePartKeepsConsistent | backend/server.py:706-721 | creating a part keeps the store consistent |
| AdminStore.UpdatePartKeepsConsistent | backend/server.py:730-748 | updating a part keeps the store consistent |
| AdminStore.CreatePartKeepsExpiries | backend/server.py:713-720 | when every stored part's expiry agrees with its date and months, creating a part keeps that |
| AdminStore.UpdatePartKeepsExpiries | backend/server.py:736-744 | an update keeps every part's expiry in agreement with its date and months |
| AdminStore.DeleteDeviceKeepsExpiries | backend/server.py:693-694 | the cascade keeps every remaining part's expiry in agreement |
| AdminStore.CreateAmcKeepsConsistent | backend/server.py:772-778 | creating an AMC keeps at most one AMC per device |
| AdminStore.SecondAmcRefused | backend/server.py:772-775 | a second AMC for the same device is refused |
| AdminStore.DashboardCounts | backend/server.py:850-876 | the device count; the active warranties are exactly the devices whose end date is at least today's rendered date; `expired` is the device count minus the active ones; the active AMCs likewise |
| AdminStore.DashboardAgreesWithHelpers | backend/server.py:857-860 | for a dated device the string comparison agrees with the helpers' `is_warranty_active` |
| AdminStore.UndatedDeviceCountsExpired | backend/server.py:876 | a device without an end date is not active, so it counts as expired |
| BulkImport.NonBlankLines | frontend/src/components/ui/bulk-import.jsx:64 | the kept lines are never blank |
| BulkImport.NonBlankLinesKeep | frontend/src/components/ui/bulk-import.jsx:64 | exactly the non-blank lines are kept |
| BulkImport.NonBlankLinesAppend | frontend/src/components/ui/bulk-import.jsx:64 | the kept lines of a concatenation are those of each part in turn, so file order is kept |
| BulkImport.FirstNonBlankLineLeads | frontend/src/components/ui/bulk-import.jsx:64-68 | the header line is the first line of the file that is not blank |
| BulkImport.BlankIffTrimsToEmpty | frontend/src/components/ui/bulk-import.jsx:64 | a line is dropped iff it trims to nothing |
| BulkImport.StripEdgeQuotes | frontend/src/components/ui/bulk-import.jsx:68 | one edge quote goes at each end; text without quotes is kept |
| BulkImport.RawFields | frontend/src/components/ui/bulk-import.jsx:71-87 | the character loop yields at least one field, none holding a quote |
| BulkImport.RawFieldsJoin | frontend/src/components/ui/bulk-import.jsx:76-87 | only the quotes are lost: joining the fields with commas gives the line without its quotes |
| BulkImport.RawFieldsWithoutQuotes | frontend/src/components/ui/bulk-import.jsx:80-82 | a line without quotes splits at every comma |
| BulkImport.QuotedFieldKept | frontend/src/components/ui/bulk-import.jsx:78-80 | a quoted field is one field, whatever commas it holds |
| BulkImport.MakeRow | frontend/src/components/ui/bulk-import.jsx:90-94 | each row's keys are exactly the header names |
| BulkImport.MakeRowLastColumn | frontend/src/components/ui/bulk-import.jsx:90-94 | a header's value is its last column's field, or `''` past the end of the line |
| BulkImport.ParseLines | frontend/src/components/ui/bulk-import.jsx:63-97 | fewer than two kept lines give no rows; otherwise one row per data line |
| BulkImport.ParsedRowShape | frontend/src/components/ui/bulk-import.jsx:68-97 | every parsed row has the header keys, no quote in any value, and each header's last-column value |
| BulkImport.RowErrors | frontend/src/components/ui/bulk-import.jsx:104-113 | an error is listed for exactly the required columns whose value is missing or blank, with the row's number |
| BulkImport.RowErrorsSingle | frontend/src/components/ui/bulk-import.jsx:105-113 | one required column yields one error if its value is missing or blank and none otherwise |
| BulkImport.RowErrorsAppend | frontend/src/components/ui/bulk-import.jsx:105-113 | `forEach` pushes column by column: the errors of a split column list are the errors of the first part followed by those of the second, so order and repeats follow `requiredColumns` |
| BulkImport.ValidateData | frontend/src/components/ui/bulk-import.jsx:100-117 | every error names a required column and a spreadsheet row between 2 and the row count + 1 |
| BulkImport.ValidateDataReports | frontend/src/components/ui/bulk-import.jsx:100-117 | an error exists exactly for each (row, required column) with a blank value, numbered index + 2 |
| BulkImport.ValidateDataRowMajor | frontend/src/components/ui/bulk-import.jsx:103-115 | the errors come in row order |
| BulkImport.NoErrorsWhenComplete | frontend/src/components/ui/bulk-import.jsx:101-114 | no errors when no required value is blank |
| BulkImport.SelectFile | frontend/src/components/ui/bulk-import.jsx:129-132 | an empty parse gives the single row-0 error |
| BulkImport.ImportGuard | frontend/src/components/ui/bulk-import.jsx:129-141 | an empty parse can never be imported; a complete one can |
| DurationInput.UnitOf | frontend/src/components/ui/date-duration-input.jsx:73-87 | only `days`, `months` and `years` are units |
| DurationInput.CalculateEndDate | frontend/src/components/ui/date-duration-input.jsx:63-91 | a step is taken iff start and value are non-empty, `parseInt(value, 10)` is a positive number and the unit is known |
| DurationInput.InferDuration | frontend/src/components/ui/date-duration-input.jsx:110-119 | the value times the unit's days (1/30/365) is the difference; years iff divisible by 365 and at least 365, else months iff divisible by 30 and at least 30 |
| DurationInput.InferenceExamples | frontend/src/components/ui/date-duration-input.jsx:110-119 | 10950 days is 30 years, 365 is 1 year, 360 is 12 months, and 0 or less stays in days |
| DurationInput.InferredCountPositive | frontend/src/components/ui/date-duration-input.jsx:110-119 | the inferred count is positive iff the difference is |
| DurationInput.InferFromEndDate | frontend/src/components/ui/date-duration-input.jsx:104-105 | the effect changes the field iff it is in duration mode with both dates set and an empty duration |
| DurationInput.InferredDurationReadsBack | frontend/src/components/ui/date-duration-input.jsx:63-120 | the inferred duration passes `calculateEndDate`'s guards iff the difference is positive, with the same number of days |
| DurationInput.InferenceRunsOnce | frontend/src/components/ui/date-duration-input.jsx:105 | once filled in, the duration is not inferred again |
| DurationInput.DigitsOnly | frontend/src/components/ui/date-duration-input.jsx:128 | the typed value keeps only ASCII digits |
| DurationInput.DigitsOnlyKeepsDigits | frontend/src/components/ui/date-duration-input.jsx:128 | every digit is kept and a digit string is unchanged |
| DurationInput.DigitsOnlyIdempotent | frontend/src/components/ui/date-duration-input.jsx:128 | filtering twice is filtering once |
| DurationInput.TypedValueNotNegative | frontend/src/components/ui/date-duration-input.jsx:63-130 | a typed value reads as a number that is never negative |
| Signup.CleanSubdomain | frontend/src/pages/public/SignupPage.js:111 | the typed subdomain keeps only `[a-z0-9-]` |
| Signup.CleanSubdomainKeepsSlugChars | frontend/src/pages/public/SignupPage.js:111 | text of slug characters is kept as typed |
| Signup.CleanSubdomainIdempotent | frontend/src/pages/public/SignupPage.js:111 | cleaning twice removes nothing more |
| Signup.CleanerKeepsHyphens | frontend/src/pages/public/SignupPage.js:111 | hyphen runs and edge hyphens are not removed |
| Signup.SuggestionIsClean | frontend/src/pages/public/SignupPage.js:111 | a suggested subdomain passes the cleaner unchanged |
| Signup.SyncSubdomain | frontend/src/pages/public/SignupPage.js:101-108 | the subdomain follows the name's slug when it was that slug or empty; otherwise it stays |
| Signup.HandleChange | frontend/src/pages/public/SignupPage.js:98-117 | only a subdomain edit resets availability; other edits leave the subdomain unless the name changes |
| Signup.HandleChangeKeepsSubdomainClean | frontend/src/pages/public/SignupPage.js:98-117 | whatever is typed, the subdomain holds only `[a-z0-9-]` |
| Signup.SuggestionKeepsFollowing | frontend/src/pages/public/SignupPage.js:101-108 | a subdomain that follows the name keeps following it |
| Signup.CheckSubdomain | frontend/src/pages/public/SignupPage.js:63-86 | under 4 characters no request is made and an error shows only for non-empty input; otherwise available only on a positive answer |
| Signup.AvailableOnlyWhenConfirmed | frontend/src/pages/public/SignupPage.js:63-86 | availability is `true` exactly for a long enough subdomain the endpoint confirmed |
| Signup.ValidateStep1 | frontend/src/pages/public/SignupPage.js:119-137 | passes iff the name is not blank, the subdomain has at least 4 characters, availability is not `false` and an industry is chosen, the errors in that order |
| Signup.ValidateStep2 | frontend/src/pages/public/SignupPage.js:139-157 | passes iff the name is not blank, the email matches `\S+@\S+\.\S+` and the password has at least 8 characters |
| Signup.EmailNotBlank | frontend/src/pages/public/SignupPage.js:144-148 | text the pattern matches is never blank |
| Signup.EmailExamples | frontend/src/pages/public/SignupPage.js:148 | `a@b.co` matches, `a@b` does not, and the unanchored `x y@b.c` does |
| Signup.UncheckedPassesStep1ButNotSubmit | frontend/src/pages/public/SignupPage.js:119-174 | an unchecked subdomain passes step 1 but blocks the submit |
| Signup.SubdomainEditBlocksSubmit | frontend/src/pages/public/SignupPage.js:111-174 | editing the subdomain blocks the submit until a new check |
| ExpiryStatus.Band | frontend/src/pages/org/OrgLicenses.js:158-161 | exactly one band: negative expired, 0..30 expiring, more active |
| ExpiryStatus.OrgStatus | frontend/src/pages/org/OrgAMCContracts.js:148-154 | no end date is active; otherwise the band of the days left |
| ExpiryStatus.HintIffExpiring | frontend/src/pages/org/OrgLicenses.js:285-287 | the "N days left" hint shows exactly when the status is expiring |
| ExpiryStatus.BandMonotone | frontend/src/pages/org/OrgLicenses.js:158-161 | more days left never gives a worse band |
| ExpiryStatus.AdminExpiryCell | frontend/src/pages/admin/Licenses.js:415-432 | perpetual whatever the date; "Not set" without one; green iff more than 30 days, red "Expired" iff 0 or fewer, otherwise "<d> days" |
| ExpiryStatus.AdminAndOrgDisagreeOnDayZero | frontend/src/pages/admin/Licenses.js:420-426 | on day 0 the admin table says "Expired" while the organisation page says expiring |
| ExpiryStatus.AdminAgreesOffDayZero | frontend/src/pages/admin/Licenses.js:420-426 | on every other day the colours follow the organisation bands |
| ExpiryStatus.DeviceWarrantyStatus | frontend/src/pages/org/OrgDevices.js:178-188 | no end date is unknown; otherwise the band, with an expiring device labelled `<d>d left` |
| ExpiryStatus.PublicWarrantyStatus | frontend/src/pages/public/OrgWarrantyPage.js:71-81 | the same bands, "Expiring Soon", and for an expired warranty the days since it ended |
| ExpiryStatus.DevicePagesAgree | frontend/src/pages/public/OrgWarrantyPage.js:71-81 | the device page and the public page band alike; the public count is never negative |
| ExpiryStatus.ResultBanner | frontend/src/pages/public/OrgWarrantyPage.js:232-248 | red "Expired" iff the server says not active; amber iff active and expiring |
| ExpiryStatus.ServerAndClientCanDisagree | frontend/src/pages/public/OrgWarrantyPage.js:232-248 | an active warranty whose date the client puts in the past shows a green "Expired" |
| ExpiryStatus.AmcNoteUnderEveryBanner | frontend/src/pages/public/OrgWarrantyPage.js:232-264 | "Protected under AMC Contract" can appear under the red "Expired" banner as well as a green or amber one; a missing `device_warranty_active` counts as not active |
| RecordPages.Filter | frontend/src/pages/org/OrgLicenses.js:164 | `filter` keeps exactly the elements the predicate accepts |
| RecordPages.FilterAppend | frontend/src/pages/org/OrgLicenses.js:164 | filtering a concatenation filters each part in turn, so the kept elements keep their order |
| RecordPages.FilterKeepsAll | frontend/src/pages/org/OrgDevices.js:190-200 | a filter that accepts everything returns the list unchanged |
| RecordPages.LowerQueryStable | frontend/src/pages/org/OrgDevices.js:193 | lower-casing the query again changes nothing |
| RecordPages.FilterOrgLicenses | frontend/src/pages/org/OrgLicenses.js:164-167 | keeps exactly the licences whose name or vendor contains the lower-cased query |
| RecordPages.OrgLicenseSearch | frontend/src/pages/org/OrgLicenses.js:164-167 | the search ignores case; an empty search keeps licences with a name or a non-empty vendor |
| RecordPages.EmptySearchShowsNamedLicenses | frontend/src/pages/org/OrgLicenses.js:164-167 | an empty search shows every named licence, in order |
| RecordPages.LicenseCost | frontend/src/pages/org/OrgLicenses.js:68-69 | a filled-in cost is converted; an empty one is removed |
| RecordPages.ContractValue | frontend/src/pages/org/OrgAMCContracts.js:66 | a filled-in value is converted; an empty one is sent as it is |
| RecordPages.IntOrDefault | frontend/src/pages/org/OrgLicenses.js:70 | `parseInt(x) \|\| d` is never 0; it keeps a non-zero number and gives `d` for NaN or 0 |
| RecordPages.IntOrDefaultReadsBack | frontend/src/pages/admin/Licenses.js:105-106 | an empty field gives the default; a rendered number reads back unless it is 0 |
| RecordPages.SubmitOrgLicense | frontend/src/pages/org/OrgLicenses.js:60-70 | refused iff name or start date is missing; seats are never 0; an empty cost is removed |
| RecordPages.OrgSeatsCoerced | frontend/src/pages/org/OrgLicenses.js:70 | blank seats become 1, 0 becomes 1, a negative count is sent |
| RecordPages.FilterContracts | frontend/src/pages/org/OrgAMCContracts.js:156-158 | keeps exactly the contracts whose name contains the lower-cased query |
| RecordPages.ContractSearch | frontend/src/pages/org/OrgAMCContracts.js:156-158 | the search ignores case; an empty search keeps the named contracts |
| RecordPages.SubmitContract | frontend/src/pages/org/OrgAMCContracts.js:58-66 | refused iff name, start or end date is missing; the value is never removed |
| RecordPages.BlankAmountsDiffer | frontend/src/pages/org/OrgAMCContracts.js:66 | a blank cost is removed on the licence page but sent as `""` on the contract page |
| RecordPages.FilterAdminLicenses | frontend/src/pages/admin/Licenses.js:219-223 | a licence without a name makes the filter throw; otherwise it keeps the matches on name, vendor or company |
| RecordPages.AdminSearchExtendsOrgSearch | frontend/src/pages/admin/Licenses.js:219-223 | whatever the organisation search finds, the admin search finds too, and a company match suffices |
| RecordPages.SubmitAdminLicense | frontend/src/pages/admin/Licenses.js:92-111 | refused iff company, name or start date is missing; perpetual licences lose their end date; seats and reminder days are never 0; empty costs are removed |
| RecordPages.ReminderDefault | frontend/src/pages/admin/Licenses.js:106 | a blank or 0 reminder becomes 30 days |
| RecordPages.PerpetualSavedAndShown | frontend/src/pages/admin/Licenses.js:108-111 | a perpetual licence is saved without an end date and shown as "Perpetual" |
| RecordPages.ExpiringSoonCount | frontend/src/pages/admin/Licenses.js:349 | the "Expiring Soon" card is 0 without a summary and counts at least each of the 7-day and 30-day lists |
| RecordPages.AlertVersusSoonCard | frontend/src/pages/admin/Licenses.js:266-349 | the alert shows iff the card counts more than the 30-day list or something has expired; a card of 30-day licences only comes without an alert |
| RecordPages.FilterDevices | frontend/src/pages/org/OrgDevices.js:190-200 | keeps exactly the devices that pass the status filter and then the search |
| RecordPages.DeviceFilterOrder | frontend/src/pages/org/OrgDevices.js:190-200 | another status is hidden whatever the search; an empty search keeps all of that status; the search ignores case |
| RecordPages.NoFiltersListAll | frontend/src/pages/org/OrgDevices.js:190-200 | with no filters every device is listed, in order |
| RecordPages.SubmitDevice | frontend/src/pages/org/OrgDevices.js:86-91 | refused iff brand, model or serial is missing |
| AmcForm.SubmitAmc | frontend/src/pages/admin/AMCManagement.js:50-60 | missing fields first, then an end not after the start (dates read as `YYYY-MM-DD` only); a valid form is a create, or an update of the AMC being edited |
| AmcForm.SubmittedDatesOrdered | frontend/src/pages/admin/AMCManagement.js:57 | a sent form with two real dates ends after it starts |
| AmcForm.UnreadableEndDatePasses | frontend/src/pages/admin/AMCManagement.js:57 | an end date that is not `YYYY-MM-DD` text passes the date check |
| AmcForm.DevicesWithoutAmc | frontend/src/pages/admin/AMCManagement.js:140-142 | exactly the devices without an AMC, plus the edited AMC's device |
| AmcForm.DevicesWithoutAmcAppend | frontend/src/pages/admin/AMCManagement.js:140-142 | the drop-down keeps the device order: a concatenation offers each part's devices in turn |
| AmcForm.DevicesWithoutAmcKeepsAll | frontend/src/pages/admin/AMCManagement.js:140-142 | when every device may be picked, the drop-down is the device list itself |
| AmcForm.EditedDeviceOffered | frontend/src/pages/admin/AMCManagement.js:141 | the edited AMC's device is always offered |
| AmcForm.AddDisabledIffAllCovered | frontend/src/pages/admin/AMCManagement.js:140-170 | "Add AMC" is disabled iff every device has an AMC and none is the device of the AMC last opened for editing |
| AmcForm.StaleEditEnablesAdd | frontend/src/pages/admin/AMCManagement.js:287 | a dialog closed without `closeModal` leaves "Add AMC" enabled even when every device has an AMC |
| AmcForm.DropDownMirrorsServer | frontend/src/pages/admin/AMCManagement.js:140-142 | for a known device the drop-down offers it iff the server's create would accept an AMC for it |
| AmcForm.IsAmcActive | frontend/src/pages/admin/AMCManagement.js:134-137 | not active without a `YYYY-MM-DD` end date; otherwise active iff now is not after the date's first instant |
| AmcForm.AmcBadgeMatchesServerRule | frontend/src/pages/admin/AMCManagement.js:134-137 | with end dates read as `YYYY-MM-DD` only, for the same clock reading the badge follows the server's `is_warranty_active` rule, so the two agree on a server running in UTC |
| AmcForm.AmcBadgeMonotone | frontend/src/pages/admin/AMCManagement.js:134-137 | a badge that is off stays off as time goes on |
| PlanForm.PayloadId | frontend/src/pages/admin/PlanManagement.js:159-162 | an edit keeps the plan's own id; a new plan gets the derived id |
| PlanForm.DerivedPlanIdShape | frontend/src/pages/admin/PlanManagement.js:161 | a derived id starts with `plan_` and holds no whitespace or capitals |
| PlanForm.DerivedPlanIdOfPlainName | frontend/src/pages/admin/PlanManagement.js:161 | a lower-case name without whitespace is copied after `plan_` |
| PlanForm.DefaultPlanIdDerivable | frontend/src/pages/admin/PlanManagement.js:161 | each built-in plan's id is the one derived from its name |
| PlanForm.NumberInput | frontend/src/pages/admin/PlanManagement.js:137 | `parseInt(value) \|\| 0` |
| PlanForm.NumberInputReadsBack | frontend/src/pages/admin/PlanManagement.js:137 | an empty input is 0 and every rendered integer reads back |
| PlanForm.InputValue | frontend/src/pages/admin/PlanManagement.js:136-137 | a checkbox stores its state and a number input its coerced number |
| PlanForm.FormDefaultsVersusModel | frontend/src/pages/admin/PlanManagement.js:77-89 | the editor's fallbacks are the model defaults with `qr_codes` on, as on the free plan |
| PlanForm.EditFeatures | frontend/src/pages/admin/PlanManagement.js:76-89 | the edit form holds exactly the twelve editable keys, none null |
| PlanForm.EditKeepsStoredValues | frontend/src/pages/admin/PlanManagement.js:77-88 | `??` keeps a stored value, 0 and `false` included |
| PlanForm.EditFillsMissingValues | frontend/src/pages/admin/PlanManagement.js:77-88 | a missing or null value takes the fallback |
| PlanForm.ExplicitFalsyKept | frontend/src/pages/admin/PlanManagement.js:77-81 | a stored cap of 0 and `qr_codes: false` come back as they are |
| PlanForm.EditWithoutFeatures | frontend/src/pages/admin/PlanManagement.js:76-115 | a plan without features opens on the new-plan values |
| PlanForm.OpenEditForm | frontend/src/pages/admin/PlanManagement.js:65-90 | names are copied; a missing description is empty; missing prices are 0; a missing or zero sort order becomes 1 (never 0); `is_active` unless explicitly false; `is_popular` only if true |
| PlanForm.NewPlanForm | frontend/src/pages/admin/PlanManagement.js:93-116 | empty names, last in sort order, the default features |
| PlanForm.ChangeFeature | frontend/src/pages/admin/PlanManagement.js:130-139 | one feature input changes that feature and nothing else |
| PlanForm.SubmitPlan | frontend/src/pages/admin/PlanManagement.js:149-162 | refused iff name or display name is missing; otherwise the form with the kept or derived id |
| PlanForm.EditDefaultPlanUnchanged | frontend/src/pages/admin/PlanManagement.js:65-162 | opening a built-in plan and saving it untouched sends it back with its own id, names, description, prices and order |
| PlanForm.DefaultPlanFeaturesEditable | frontend/src/pages/admin/PlanManagement.js:77-88 | every key of a built-in plan is one the editor edits |
| PlanForm.EditDefaultPlanFeatures | frontend/src/pages/admin/PlanManagement.js:77-88 | a built-in plan's features survive the edit form |
| PlanForm.CapText | frontend/src/pages/admin/PlanManagement.js:282-286 | "Unlimited" iff the cap is -1; otherwise the stored value, if any |
| PlanForm.DefaultPlanCaps | frontend/src/pages/admin/PlanManagement.js:282-286 | enterprise caps read "Unlimited"; the free plan shows 10 and 2 |
| PlanForm.TypedMinusOneIsUnlimited | frontend/src/pages/admin/PlanManagement.js:137 | typing -1 into a cap input makes it "Unlimited" |
| PlanForm.FormatPrice | frontend/src/pages/admin/PlanManagement.js:197-200 | "Free" iff the price is 0 |
| PlanForm.DefaultPlanPrices | frontend/src/pages/admin/PlanManagement.js:197-200 | the free plan's prices read "Free"; the paid plans show their amounts |
| WarrantyPage.SearchRequest | frontend/src/pages/public/OrgWarrantyPage.js:47-58 | no request iff the query is all whitespace; otherwise the trimmed query is sent |
| WarrantyPage.SentQueryIsTrimmed | frontend/src/pages/public/OrgWarrantyPage.js:49-57 | a sent query would be sent again unchanged |
| WarrantyPage.ErrorMessage | frontend/src/pages/public/OrgWarrantyPage.js:60-65 | only a 404 answer says the device was not found |

## Left out

- MongoDB and async I/O: the collections are finite maps, and a document's key is its id. The handlers' `$regex` warranty search is not modelled; only its query guard is.
- Concurrency: the slug loop and check-then-increment are sequential here, so the races between them are not modelled.
- bcrypt and JWT: the password hash and verify are function parameters. Token issue and expiry are not modelled.
- Razorpay, the AI support service and PDF generation: external calls. A webhook's `notes` is absent, `null` or an object; other JSON types are not modelled.
- The clock, `config.IST` and `uuid4()`: they are parameters. `AdminStore.CreateDeviceKeepsConsistent` requires a fresh device id, since a map insert would overwrite.
- Calendar range: dates are years 1..9999 as in Python. `InsertTenant` reports `DateOverflow` where Python raises. `Onboarding.InsertTenant` requires a valid instant.
- `strftime('%Y')` is modelled as four zero-padded digits; platforms that do not pad years below 1000 are not modelled.
- Time parsing: `fromisoformat` is modelled for `YYYY-MM-DD`, optionally followed by any single separator character and a time `HH[:MM[:SS[.fff|.ffffff]]]`. The time may end in a `+` or `-` offset of the same shape. Other forms that newer Python versions accept are not modelled.
- ParseYmd: accepts ASCII digits only. Python's `strptime` `%Y`/`%m`/`%d` and `int()` also accept other Unicode decimal digits (`"２０２５-12-31"` parses in Python), so for such text the model answers "not a date", and so "warranty not active", where Python reads a real date.
- Character handling: lower-casing is ASCII only. Non-ASCII case mapping, Unicode normalisation and JavaScript's UTF-16 `length` are not modelled; a string's length is its number of code points.
- SubmitAmc: only `YYYY-MM-DD` text is read as a date; other text that JavaScript's `Date` reads, such as a stored date-time, is treated as invalid. The API stores any string as an AMC date (backend/models/amc.py:23-24), and the edit form pre-fills the stored dates. So the page refuses start "2025-01-01T10:00:00" with end "2025-01-01T09:00:00", but `SubmitAmc` sends it.
- UnreadableEndDatePasses: holds for text neither `Date` nor `YYYY-MM-DD` reads. For a date-time end date that `Date` reads, the page does check the order.
- IsAmcActive: only a `YYYY-MM-DD` end date can be active. For a stored end date such as "2030-06-30T10:00:00", the page shows Active but `IsAmcActive` is false.
- AmcBadgeMatchesServerRule: holds for the model's reading of the end date only. For a date-time end date the badge can be on while `strptime('%Y-%m-%d')` fails and the server says inactive.
- AmcBadgeMatchesServerRule: time zones are not modelled. The badge compares against midnight UTC and the server against local midnight, so on a server in IST (UTC+05:30) the badge lapses at 05:30 local time on the end date and the server's check at 00:00.
- JavaScript `Date` arithmetic: the pages' whole days left are inputs. `calculateEndDate`'s calendar step (`setDate`/`setMonth`/`setFullYear`, `toISOString`) is returned as a step rather than a date.
- The effect that writes the calculated end date back is not modelled either.
- `parseFloat` costs and rupee formatting: costs are kept as text, and prices are kept in paise.
- Messages: toast and error wording is modelled as one constructor per message.
- Handlers whose code is not in the repository: the subdomain availability endpoint, plan CRUD, the organisation device endpoints and contract coverage resolution. The endpoint's answer is a parameter.
- `delete_part`, `update_amc`, `delete_amc` and the list/get handlers: single deletes or reads that cannot break the store invariants. They are not modelled.
- `null`/`undefined` form fields are the empty string or `None`, whichever the page tests.
- `BulkImport.ParseCsv`: the composition of splitting and `ParseLines`. Its facts are stated on `ParseLines` and `ParsedRowShape`.

=== FILE: admin_store.dfy ===
/** The admin handlers of backend/server.py over the `companies`, `devices`,
    `parts` and `amc` collections: the warranty-search guard, serial-number
    uniqueness on device create and update, the cascading device delete,
    part expiry on create and update, one legacy AMC per device, and the
    dashboard's warranty counts.  Each collection is a map from document id to
    document; a handler either fails with the HTTP error it raises or returns
    the new store. */
module AdminStore {
  import opened Wrappers
  import opened Text
  import opened Calendar
  import opened Warranty

  datatype Device = Device(
    id: string,
    companyId: string,
    assignedUserId: Option<string>,
    deviceType: string,
    brand: string,
    model: string,
    serialNumber: string,
    assetTag: Option<string>,
    purchaseDate: string,
    warrantyEndDate: Option<string>,
    status: string,
    createdAt: string)

  datatype DeviceCreate = DeviceCreate(
    companyId: string,
    assignedUserId: Option<string>,
    deviceType: string,
    brand: string,
    model: string,
    serialNumber: string,
    assetTag: Option<string>,
    purchaseDate: string,
    warrantyEndDate: Option<string>,
    status: string)

  /** Every field optional; `None` means "not in the update". */
  datatype DeviceUpdate = DeviceUpdate(
    companyId: Option<string>,
    assignedUserId: Option<string>,
    deviceType: Option<string>,
    brand: Option<string>,
    model: Option<string>,
    serialNumber: Option<string>,
    assetTag: Option<string>,
    purchaseDate: Option<string>,
    warrantyEndDate: Option<string>,
    status: Option<string>)

  datatype Part = Part(
    id: string,
    deviceId: string,
    partName: string,
    replacedDate: string,
    warrantyMonths: int,
    warrantyExpiryDate: string,
    notes: Option<string>,
    createdAt: string)

  datatype PartCreate = PartCreate(
    deviceId: string,
    partName: string,
    replacedDate: string,
    warrantyMonths: int,
    notes: Option<string>)

  datatype PartUpdate = PartUpdate(
    partName: Option<string>,
    replacedDate: Option<string>,
    warrantyMonths: Option<int>,
    notes: Option<string>)

  /** A legacy per-device AMC record. */
  datatype Amc = Amc(
    id: string,
    deviceId: string,
    startDate: string,
    endDate: string,
    notes: Option<string>,
    createdAt: string)

  datatype AmcCreate = AmcCreate(deviceId: string, startDate: string, endDate: string, notes: Option<string>)

  datatype Store = Store(
    companies: set<string>,
    devices: map<string, Device>,
    parts: map<string, Part>,
    amcs: map<string, Amc>)

  /** The `HTTPException`s the handlers raise; `ExpiryFailed` is the
      exception `calculate_warranty_expiry` lets escape (a server error). */
  datatype AdminError =
    | QueryTooShort
    | CompanyNotFound
    | DeviceNotFound
    | PartNotFound
    | SerialExists
    | AmcExists
    | NoUpdates
    | ExpiryFailed(cause: ExpiryError)

  // ---------------------------------------------------------------------
  // Store invariants the handlers keep

  /** Each document sits under its own `id`. */
  predicate KeyedById(devices: map<string, Device>) {
    forall k :: k in devices ==> devices[k].id == k
  }

  predicate UniqueSerials(devices: map<string, Device>) {
    forall a, b :: a in devices && b in devices && a != b ==> devices[a].serialNumber != devices[b].serialNumber
  }

  predicate OneAmcPerDevice(amcs: map<string, Amc>) {
    forall a, b :: a in amcs && b in amcs && a != b ==> amcs[a].deviceId != amcs[b].deviceId
  }

  /** Every part and AMC belongs to a device that exists. */
  predicate NoDanglingRecords(st: Store) {
    && (forall k :: k in st.parts ==> st.parts[k].deviceId in st.devices)
    && (forall k :: k in st.amcs ==> st.amcs[k].deviceId in st.devices)
  }

  /** Every stored expiry is what `calculate_warranty_expiry` gives for the
      part's own replacement date and months. */
  predicate PartExpiriesAgree(parts: map<string, Part>) {
    forall k :: k in parts ==> ExpiryAgrees(parts[k])
  }

  predicate ExpiryAgrees(p: Part) {
    CalculateWarrantyExpiry(p.replacedDate, p.warrantyMonths) == Success(p.warrantyExpiryDate)
  }

  /** The structural invariants; `PartExpiriesAgree` is kept separately. */
  predicate Consistent(st: Store) {
    KeyedById(st.devices) && UniqueSerials(st.devices) && OneAmcPerDevice(st.amcs) && NoDanglingRecords(st)
  }

  // ---------------------------------------------------------------------
  // GET /warranty/search

  /** The query guard: an empty query, or one with fewer than two characters
      once stripped, is refused; otherwise the stripped query is searched. */
  function SearchQuery(q: string): (r: Result<string, AdminError>)
    ensures r.Failure? <==> |PyStrip(q)| < 2
    ensures r.Failure? ==> r.error == QueryTooShort
    ensures r.Success? ==> r.value == PyStrip(q) && |r.value| >= 2
  {
    if q == [] || |PyStrip(q)| < 2 then Failure(QueryTooShort) else Success(PyStrip(q))
  }

  /** A query of whitespace only is refused, and an accepted query is
      accepted again unchanged. */
  lemma SearchQueryGuard(q: string)
    ensures (forall i :: 0 <= i < |q| ==> PyIsSpace(q[i])) ==> SearchQuery(q).Failure?
    ensures SearchQuery(q).Success? ==> SearchQuery(SearchQuery(q).value) == SearchQuery(q)
  {
    TrimEmptyIffAllSpace(q, PyIsSpace);
    TrimIdempotent(q, PyIsSpace);
  }

  // ---------------------------------------------------------------------
  // Devices

  predicate SerialInUse(devices: map<string, Device>, serial: string) {
    exists k :: k in devices && devices[k].serialNumber == serial
  }

  /** `{"serial_number": serial, "id": {"$ne": deviceId}}` finds a document. */
  predicate SerialHeldByOther(devices: map<string, Device>, serial: string, deviceId: string) {
    exists k :: k in devices && devices[k].serialNumber == serial && devices[k].id != deviceId
  }

  /** `POST /admin/devices`. */
  function CreateDevice(st: Store, c: DeviceCreate, newId: string, now: string): (r: Result<Store, AdminError>)
    ensures r == Failure(CompanyNotFound) <==> c.companyId !in st.companies
    ensures r == Failure(SerialExists) <==> c.companyId in st.companies && SerialInUse(st.devices, c.serialNumber)
    ensures r.Success? <==> c.companyId in st.companies && !SerialInUse(st.devices, c.serialNumber)
    ensures r.Success? ==>
              && newId in r.value.devices
              && r.value == st.(devices := st.devices[newId := r.value.devices[newId]])
              && r.value.devices[newId].serialNumber == c.serialNumber
              && r.value.devices[newId].companyId == c.companyId
              && r.value.devices[newId].id == newId
              && r.value.devices[newId].createdAt == now
    ensures r.Success? ==>
              r.value.devices[newId] == Device(newId, c.companyId, c.assignedUserId, c.deviceType, c.brand, c.model,
                                               c.serialNumber, c.assetTag, c.purchaseDate, c.warrantyEndDate, c.status, now)
  {
    if c.companyId !in st.companies then Failure(CompanyNotFound)
    else if SerialInUse(st.devices, c.serialNumber) then Failure(SerialExists)
    else
      var d := Device(newId, c.companyId, c.assignedUserId, c.deviceType, c.brand, c.model, c.serialNumber,
                      c.assetTag, c.purchaseDate, c.warrantyEndDate, c.status, now);
      Success(st.(devices := st.devices[newId := d]))
  }

  predicate EmptyDeviceUpdate(u: DeviceUpdate) {
    u.companyId.None? && u.assignedUserId.None? && u.deviceType.None? && u.brand.None? && u.model.None?
    && u.serialNumber.None? && u.assetTag.None? && u.purchaseDate.None? && u.warrantyEndDate.None?
    && u.status.None?
  }

  /** `$set` of the fields the update carries: each field the update
      carries takes its new value, every other field keeps the stored one,
      and the id and creation time never change. */
  function ApplyDeviceUpdate(d: Device, u: DeviceUpdate): (r: Device)
    ensures r.id == d.id && r.createdAt == d.createdAt
    ensures r.companyId == u.companyId.GetOr(d.companyId)
    ensures r.assignedUserId == (if u.assignedUserId.Some? then u.assignedUserId else d.assignedUserId)
    ensures r.deviceType == u.deviceType.GetOr(d.deviceType)
    ensures r.brand == u.brand.GetOr(d.brand)
    ensures r.model == u.model.GetOr(d.model)
    ensures r.serialNumber == u.serialNumber.GetOr(d.serialNumber)
    ensures r.assetTag == (if u.assetTag.Some? then u.assetTag else d.assetTag)
    ensures r.purchaseDate == u.purchaseDate.GetOr(d.purchaseDate)
    ensures r.warrantyEndDate == (if u.warrantyEndDate.Some? then u.warrantyEndDate else d.warrantyEndDate)
    ensures r.status == u.status.GetOr(d.status)
    ensures EmptyDeviceUpdate(u) ==> r == d
  {
    d.(companyId := u.companyId.GetOr(d.companyId),
       assignedUserId := if u.assignedUserId.Some? then u.assignedUserId else d.assignedUserId,
       deviceType := u.deviceType.GetOr(d.deviceType),
       brand := u.brand.GetOr(d.brand),
       model := u.model.GetOr(d.model),
       serialNumber := u.serialNumber.GetOr(d.serialNumber),
       assetTag := if u.assetTag.Some? then u.assetTag else d.assetTag,
       purchaseDate := u.purchaseDate.GetOr(d.purchaseDate),
       warrantyEndDate := if u.warrantyEndDate.Some? then u.warrantyEndDate else d.warrantyEndDate,
       status := u.status.GetOr(d.status))
  }

  /** Replaying the same update changes nothing further. */
  lemma ApplyDeviceUpdateIdempotent(d: Device, u: DeviceUpdate)
    ensures ApplyDeviceUpdate(ApplyDeviceUpdate(d, u), u) == ApplyDeviceUpdate(d, u)
  {
  }

  /** `PUT /admin/devices/{id}`: an empty update is refused, then a serial
      number held by another device, and only then a missing device. */
  function UpdateDevice(st: Store, deviceId: string, u: DeviceUpdate): (r: Result<Store, AdminError>)
    ensures r == Failure(NoUpdates) <==> EmptyDeviceUpdate(u)
    ensures r == Failure(SerialExists) <==>
              !EmptyDeviceUpdate(u) && u.serialNumber.Some? && SerialHeldByOther(st.devices, u.serialNumber.value, deviceId)
    ensures r == Failure(DeviceNotFound) <==>
              && !EmptyDeviceUpdate(u)
              && !(u.serialNumber.Some? && SerialHeldByOther(st.devices, u.serialNumber.value, deviceId))
              && deviceId !in st.devices
    ensures r.Success? <==>
              && !EmptyDeviceUpdate(u)
              && !(u.serialNumber.Some? && SerialHeldByOther(st.devices, u.serialNumber.value, deviceId))
              && deviceId in st.devices
    ensures r.Success? ==>
              && deviceId in st.devices && deviceId in r.value.devices
              && r.value == st.(devices := st.devices[deviceId := r.value.devices[deviceId]])
              && r.value.devices[deviceId] == ApplyDeviceUpdate(st.devices[deviceId], u)
  {
    if EmptyDeviceUpdate(u) then Failure(NoUpdates)
    else if u.serialNumber.Some? && SerialHeldByOther(st.devices, u.serialNumber.value, deviceId) then
      Failure(SerialExists)
    else if deviceId !in st.devices then Failure(DeviceNotFound)
    else Success(st.(devices := st.devices[deviceId := ApplyDeviceUpdate(st.devices[deviceId], u)]))
  }

  /** `DELETE /admin/devices/{id}`: the device goes, and with it every part
      and every AMC whose `device_id` names it. */
  function DeleteDevice(st: Store, deviceId: string): (r: Result<Store, AdminError>)
    ensures r.Failure? <==> deviceId !in st.devices
    ensures r.Failure? ==> r.error == DeviceNotFound
    ensures r.Success? ==>
              && r.value.devices.Keys == st.devices.Keys - {deviceId}
              && (forall k :: k in r.value.devices ==> r.value.devices[k] == st.devices[k])
              && (forall k :: k in r.value.parts ==> r.value.parts[k].deviceId != deviceId)
              && (forall k :: k in r.value.amcs ==> r.value.amcs[k].deviceId != deviceId)
              && (forall k :: k in st.parts ==> (k in r.value.parts <==> st.parts[k].deviceId != deviceId))
              && (forall k :: k in st.amcs ==> (k in r.value.amcs <==> st.amcs[k].deviceId != deviceId))
              && (forall k :: k in r.value.parts ==> k in st.parts && r.value.parts[k] == st.parts[k])
              && (forall k :: k in r.value.amcs ==> k in st.amcs && r.value.amcs[k] == st.amcs[k])
              && r.value.companies == st.companies
  {
    if deviceId !in st.devices then Failure(DeviceNotFound)
    else
      Success(Store(
        st.companies,
        st.devices - {deviceId},
        map k | k in st.parts && st.parts[k].deviceId != deviceId :: st.parts[k],
        map k | k in st.amcs && st.amcs[k].deviceId != deviceId :: st.amcs[k]))
  }

  // ---------------------------------------------------------------------
  // Parts

  /** `POST /admin/parts`: the expiry is computed from the replacement date
      and the months. */
  function CreatePart(st: Store, c: PartCreate, newId: string, now: string): (r: Result<Store, AdminError>)
    ensures r == Failure(DeviceNotFound) <==> c.deviceId !in st.devices
    ensures r.Failure? && c.deviceId in st.devices ==>
              r.error.ExpiryFailed? && CalculateWarrantyExpiry(c.replacedDate, c.warrantyMonths) == Failure(r.error.cause)
    ensures r.Success? ==>
              && newId in r.value.parts
              && r.value == st.(parts := st.parts[newId := r.value.parts[newId]])
              && r.value.parts[newId].deviceId == c.deviceId
              && r.value.parts[newId].replacedDate == c.replacedDate
              && r.value.parts[newId].warrantyMonths == c.warrantyMonths
              && CalculateWarrantyExpiry(c.replacedDate, c.warrantyMonths) == Success(r.value.parts[newId].warrantyExpiryDate)
    ensures r.Success? ==>
              r.value.parts[newId] == Part(newId, c.deviceId, c.partName, c.replacedDate, c.warrantyMonths,
                                           r.value.parts[newId].warrantyExpiryDate, c.notes, now)
    ensures r.Success? <==> c.deviceId in st.devices && CalculateWarrantyExpiry(c.replacedDate, c.warrantyMonths).Success?
  {
    if c.deviceId !in st.devices then Failure(DeviceNotFound)
    else
      match CalculateWarrantyExpiry(c.replacedDate, c.warrantyMonths)
      case Failure(e) => Failure(ExpiryFailed(e))
      case Success(expiry) =>
        var p := Part(newId, c.deviceId, c.partName, c.replacedDate, c.warrantyMonths, expiry, c.notes, now);
        Success(st.(parts := st.parts[newId := p]))
  }

  predicate EmptyPartUpdate(u: PartUpdate) {
    u.partName.None? && u.replacedDate.None? && u.warrantyMonths.None? && u.notes.None?
  }

  /** `PUT /admin/parts/{id}`: when the update carries a replacement date or
      a month count, the expiry is recomputed from the new-or-stored values;
      otherwise it is left alone. */
  function UpdatePart(st: Store, partId: string, u: PartUpdate): (r: Result<Store, AdminError>)
    ensures r == Failure(NoUpdates) <==> EmptyPartUpdate(u)
    ensures r == Failure(PartNotFound) <==> !EmptyPartUpdate(u) && partId !in st.parts
    ensures r.Failure? && r.error.ExpiryFailed? <==>
              && !EmptyPartUpdate(u) && partId in st.parts
              && (u.replacedDate.Some? || u.warrantyMonths.Some?)
              && CalculateWarrantyExpiry(u.replacedDate.GetOr(st.parts[partId].replacedDate),
                                         u.warrantyMonths.GetOr(st.parts[partId].warrantyMonths)).Failure?
    ensures r.Failure? && r.error.ExpiryFailed? ==>
              CalculateWarrantyExpiry(u.replacedDate.GetOr(st.parts[partId].replacedDate),
                                      u.warrantyMonths.GetOr(st.parts[partId].warrantyMonths)) == Failure(r.error.cause)
    ensures r.Success? ==>
              && partId in st.parts && partId in r.value.parts
              && r.value == st.(parts := st.parts[partId := r.value.parts[partId]])
    ensures r.Success? ==>
              var before, after := st.parts[partId], r.value.parts[partId];
              && after.id == before.id && after.deviceId == before.deviceId && after.createdAt == before.createdAt
              && after.partName == u.partName.GetOr(before.partName)
              && after.notes == (if u.notes.Some? then u.notes else before.notes)
              && after.replacedDate == u.replacedDate.GetOr(before.replacedDate)
              && after.warrantyMonths == u.warrantyMonths.GetOr(before.warrantyMonths)
              && (u.replacedDate.None? && u.warrantyMonths.None? ==> after.warrantyExpiryDate == before.warrantyExpiryDate)
              && (u.replacedDate.Some? || u.warrantyMonths.Some? ==>
                    CalculateWarrantyExpiry(after.replacedDate, after.warrantyMonths) == Success(after.warrantyExpiryDate))
  {
    if EmptyPartUpdate(u) then Failure(NoUpdates)
    else if partId !in st.parts then Failure(PartNotFound)
    else
      var before := st.parts[partId];
      var named := before.(partName := u.partName.GetOr(before.partName),
                           replacedDate := u.replacedDate.GetOr(before.replacedDate),
                           warrantyMonths := u.warrantyMonths.GetOr(before.warrantyMonths),
                           notes := if u.notes.Some? then u.notes else before.notes);
      if u.replacedDate.None? && u.warrantyMonths.None? then
        Success(st.(parts := st.parts[partId := named]))
      else
        match CalculateWarrantyExpiry(named.replacedDate, named.warrantyMonths)
        case Failure(e) => Failure(ExpiryFailed(e))
        case Success(expiry) => Success(st.(parts := st.parts[partId := named.(warrantyExpiryDate := expiry)]))
  }

  // ---------------------------------------------------------------------
  // Legacy AMC records

  predicate HasAmc(amcs: map<string, Amc>, deviceId: string) {
    exists k :: k in amcs && amcs[k].deviceId == deviceId
  }

  /** `POST /admin/amc`: the device must exist and must not have one yet. */
  function CreateAmc(st: Store, c: AmcCreate, newId: string, now: string): (r: Result<Store, AdminError>)
    ensures r == Failure(DeviceNotFound) <==> c.deviceId !in st.devices
    ensures r == Failure(AmcExists) <==> c.deviceId in st.devices && HasAmc(st.amcs, c.deviceId)
    ensures r.Success? <==> c.deviceId in st.devices && !HasAmc(st.amcs, c.deviceId)
    ensures r.Success? ==>
              && newId in r.value.amcs
              && r.value == st.(amcs := st.amcs[newId := r.value.amcs[newId]])
              && r.value.amcs[newId].deviceId == c.deviceId
    ensures r.Success? ==> r.value.amcs[newId] == Amc(newId, c.deviceId, c.startDate, c.endDate, c.notes, now)
  {
    if c.deviceId !in st.devices then Failure(DeviceNotFound)
    else if HasAmc(st.amcs, c.deviceId) then Failure(AmcExists)
    else Success(st.(amcs := st.amcs[newId := Amc(newId, c.deviceId, c.startDate, c.endDate, c.notes, now)]))
  }

  // ---------------------------------------------------------------------
  // The invariants survive every handler

  lemma CreateDeviceKeepsConsistent(st: Store, c: DeviceCreate, newId: string, now: string)
    requires Consistent(st) && CreateDevice(st, c, newId, now).Success?
    requires newId !in st.devices
    ensures Consistent(CreateDevice(st, c, newId, now).value)
  {
    var after := CreateDevice(st, c, newId, now).value;
    forall a, b | a in after.devices && b in after.devices && a != b
      ensures after.devices[a].serialNumber != after.devices[b].serialNumber
    {
      if a == newId {
        assert !SerialInUse(st.devices, c.serialNumber);
        assert after.devices[b] == st.devices[b];
      } else if b == newId {
        assert !SerialInUse(st.devices, c.serialNumber);
        assert after.devices[a] == st.devices[a];
      }
    }
  }

  lemma UpdateDeviceKeepsConsistent(st: Store, deviceId: string, u: DeviceUpdate)
    requires Consistent(st) && UpdateDevice(st, deviceId, u).Success?
    ensures Consistent(UpdateDevice(st, deviceId, u).value)
  {
    var after := UpdateDevice(st, deviceId, u).value;
    assert after.devices[deviceId].id == deviceId;
    forall a, b | a in after.devices && b in after.devices && a != b
      ensures after.devices[a].serialNumber != after.devices[b].serialNumber
    {
      if a == deviceId && u.serialNumber.Some? {
        assert !SerialHeldByOther(st.devices, u.serialNumber.value, deviceId);
        assert st.devices[b].id == b;
      } else if b == deviceId && u.serialNumber.Some? {
        assert !SerialHeldByOther(st.devices, u.serialNumber.value, deviceId);
        assert st.devices[a].id == a;
      }
    }
  }

  lemma DeleteDeviceKeepsConsistent(st: Store, deviceId: string)
    requires Consistent(st) && DeleteDevice(st, deviceId).Success?
    ensures Consistent(DeleteDevice(st, deviceId).value)
  {
    DropDeviceKeepsConsistent(st, deviceId, DeleteDevice(st, deviceId).value);
  }

  /** A store with one device and everything that pointed at it removed is
      consistent when the original was. */
  lemma DropDeviceKeepsConsistent(st: Store, deviceId: string, after: Store)
    requires Consistent(st)
    requires after.devices.Keys == st.devices.Keys - {deviceId}
    requires forall k :: k in after.devices ==> after.devices[k] == st.devices[k]
    requires forall k :: k in after.parts ==> after.parts[k].deviceId != deviceId
    requires forall k :: k in after.amcs ==> after.amcs[k].deviceId != deviceId
    requires forall k :: k in after.parts ==> k in st.parts && after.parts[k] == st.parts[k]
    requires forall k :: k in after.amcs ==> k in st.amcs && after.amcs[k] == st.amcs[k]
    ensures Consistent(after)
  {
    assert KeyedById(after.devices) && UniqueSerials(after.devices) by {
      SubmapKeepsDevices(st.devices, after.devices);
    }
    assert OneAmcPerDevice(after.amcs) by {
      SubmapKeepsAmcs(st.amcs, after.amcs);
    }
    assert NoDanglingRecords(after) by {
      forall k | k in after.parts
        ensures after.parts[k].deviceId in after.devices
      {
        assert after.parts[k] == st.parts[k];
      }
      forall k | k in after.amcs
        ensures after.amcs[k].deviceId in after.devices
      {
        assert after.amcs[k] == st.amcs[k];
      }
    }
  }

  /** Dropping devices keeps the ids and the serial numbers apart. */
  lemma SubmapKeepsDevices(devices: map<string, Device>, kept: map<string, Device>)
    requires KeyedById(devices) && UniqueSerials(devices)
    requires forall k :: k in kept ==> k in devices && kept[k] == devices[k]
    ensures KeyedById(kept) && UniqueSerials(kept)
  {
  }

  /** Dropping AMCs keeps one per device. */
  lemma SubmapKeepsAmcs(amcs: map<string, Amc>, kept: map<string, Amc>)
    requires OneAmcPerDevice(amcs)
    requires forall k :: k in kept ==> k in amcs && kept[k] == amcs[k]
    ensures OneAmcPerDevice(kept)
  {
  }

  /** Storing a part whose expiry agrees keeps every expiry in agreement. */
  lemma PutPartKeepsExpiries(parts: map<string, Part>, k: string, p: Part)
    requires PartExpiriesAgree(parts)
    requires CalculateWarrantyExpiry(p.replacedDate, p.warrantyMonths) == Success(p.warrantyExpiryDate)
    ensures PartExpiriesAgree(parts[k := p])
  {
    assert ExpiryAgrees(p);
    PutKeepsAll(parts, k, p, ExpiryAgrees, parts[k := p]);
  }

  /** A property every stored record has, and the new record has too, holds
      after the write. */
  lemma PutKeepsAll<T>(m: map<string, T>, k: string, v: T, good: T -> bool, after: map<string, T>)
    requires forall j :: j in m ==> good(m[j])
    requires good(v) && after == m[k := v]
    ensures forall j :: j in after ==> good(after[j])
  {
  }

  /** Storing a part for an existing device keeps the store consistent. */
  lemma PutPartKeepsConsistent(st: Store, k: string, p: Part)
    requires Consistent(st) && p.deviceId in st.devices
    ensures Consistent(st.(parts := st.parts[k := p]))
  {
    var after := st.(parts := st.parts[k := p]);
    assert forall j :: j in after.parts ==> after.parts[j].deviceId in after.devices;
  }

  lemma CreatePartKeepsConsistent(st: Store, c: PartCreate, newId: string, now: string)
    requires Consistent(st) && CreatePart(st, c, newId, now).Success?
    ensures Consistent(CreatePart(st, c, newId, now).value)
  {
    var after := CreatePart(st, c, newId, now).value;
    PutPartKeepsConsistent(st, newId, after.parts[newId]);
  }

  lemma UpdatePartKeepsConsistent(st: Store, partId: string, u: PartUpdate)
    requires Consistent(st) && UpdatePart(st, partId, u).Success?
    ensures Consistent(UpdatePart(st, partId, u).value)
  {
    var after := UpdatePart(st, partId, u).value;
    PutPartKeepsConsistent(st, partId, after.parts[partId]);
  }

  /** Every stored part expiry is the one its own date and months give, after
      any handler that writes parts. */
  lemma CreatePartKeepsExpiries(st: Store, c: PartCreate, newId: string, now: string)
    requires PartExpiriesAgree(st.parts) && CreatePart(st, c, newId, now).Success?
    ensures PartExpiriesAgree(CreatePart(st, c, newId, now).value.parts)
  {
    var after := CreatePart(st, c, newId, now).value;
    PutPartKeepsExpiries(st.parts, newId, after.parts[newId]);
  }

  lemma UpdatePartKeepsExpiries(st: Store, partId: string, u: PartUpdate)
    requires PartExpiriesAgree(st.parts) && UpdatePart(st, partId, u).Success?
    ensures PartExpiriesAgree(UpdatePart(st, partId, u).value.parts)
  {
    var after := UpdatePart(st, partId, u).value;
    var p := after.parts[partId];
    if u.replacedDate.None? && u.warrantyMonths.None? {
      assert p.replacedDate == st.parts[partId].replacedDate;
      assert p.warrantyMonths == st.parts[partId].warrantyMonths;
      assert p.warrantyExpiryDate == st.parts[partId].warrantyExpiryDate;
    }
    PutPartKeepsExpiries(st.parts, partId, p);
  }

  lemma DeleteDeviceKeepsExpiries(st: Store, deviceId: string)
    requires PartExpiriesAgree(st.parts) && DeleteDevice(st, deviceId).Success?
    ensures PartExpiriesAgree(DeleteDevice(st, deviceId).value.parts)
  {
  }

  lemma CreateAmcKeepsConsistent(st: Store, c: AmcCreate, newId: string, now: string)
    requires Consistent(st) && CreateAmc(st, c, newId, now).Success?
    ensures Consistent(CreateAmc(st, c, newId, now).value)
  {
    var after := CreateAmc(st, c, newId, now).value;
    forall a, b | a in after.amcs && b in after.amcs && a != b
      ensures after.amcs[a].deviceId != after.amcs[b].deviceId
    {
      if a == newId {
        assert !HasAmc(st.amcs, c.deviceId);
        assert after.amcs[b] == st.amcs[b];
      } else if b == newId {
        assert !HasAmc(st.amcs, c.deviceId);
        assert after.amcs[a] == st.amcs[a];
      }
    }
  }

  /** Once a device has an AMC, a second create for it is refused. */
  lemma SecondAmcRefused(st: Store, c1: AmcCreate, id1: string, c2: AmcCreate, id2: string, now: string)
    requires CreateAmc(st, c1, id1, now).Success? && c2.deviceId == c1.deviceId
    ensures CreateAmc(CreateAmc(st, c1, id1, now).value, c2, id2, now) == Failure(AmcExists)
  {
    var after := CreateAmc(st, c1, id1, now).value;
    assert after.amcs[id1].deviceId == c2.deviceId;
  }

  // ---------------------------------------------------------------------
  // GET /admin/dashboard

  /** `{"$gte": today}` on a string field: a missing date never matches. */
  predicate OnOrAfter(field: Option<string>, today: string) {
    field.Some? && LexLe(today, field.value)
  }

  datatype WarrantyCounts = WarrantyCounts(devices: nat, active: nat, expired: int, activeAmc: nat)

  function ActiveDeviceIds(devices: map<string, Device>, today: Date): set<string>
    requires ValidDate(today)
  {
    set k | k in devices && OnOrAfter(devices[k].warrantyEndDate, FormatDate(today))
  }

  /** The warranty figures of `get_dashboard_stats`: devices whose end date
      is on or after today's rendering are active, all others expired. */
  function DashboardCounts(st: Store, today: Date): (r: WarrantyCounts)
    requires ValidDate(today)
    ensures r.devices == |st.devices| && r.active <= r.devices
    ensures r.active == |ActiveDeviceIds(st.devices, today)|
    ensures r.expired == r.devices - r.active
    ensures r.expired == |set k | k in st.devices && !OnOrAfter(st.devices[k].warrantyEndDate, FormatDate(today))|
    ensures r.activeAmc == |set k | k in st.amcs && OnOrAfter(Some(st.amcs[k].endDate), FormatDate(today))|
  {
    var active := ActiveDeviceIds(st.devices, today);
    var expiredIds := set k | k in st.devices && !OnOrAfter(st.devices[k].warrantyEndDate, FormatDate(today));
    assert active + expiredIds == st.devices.Keys && active * expiredIds == {};
    var amcActive := set k | k in st.amcs && OnOrAfter(Some(st.amcs[k].endDate), FormatDate(today));
    WarrantyCounts(|st.devices|, |active|, |st.devices| - |active|, |amcActive|)
  }

  /** For a stored end date in `YYYY-MM-DD` form the dashboard's string
      comparison is the date-only check of helpers.py. */
  lemma DashboardAgreesWithHelpers(e: Date, today: Date)
    requires ValidDate(e) && ValidDate(today)
    ensures OnOrAfter(Some(FormatDate(e)), FormatDate(today)) <==> IsWarrantyActive(FormatDate(e), today)
  {
    FormatDateOrder(today, e);
    ParseYmdOfFormat(e);
  }

  /** A device with no end date is counted as expired. */
  lemma UndatedDeviceCountsExpired(st: Store, today: Date, k: string)
    requires ValidDate(today) && k in st.devices && st.devices[k].warrantyEndDate.None?
    ensures k !in ActiveDeviceIds(st.devices, today)
  {
  }
}

=== FILE: amc_form.dfy ===
/** The legacy AMC page of the admin console
    (frontend/src/pages/admin/AMCManagement.js): the submit validation, the
    devices offered in the form's drop-down, the "Add AMC" guard and the
    active badge.  The page works on the lists the API returned; the store
    they came from is the one of the AdminStore module, which lets the
    drop-down be checked against the server's one-AMC-per-device rule.

    A date the page hands to `new Date(...)` is read only in its `YYYY-MM-DD`
    form, the form a date input produces.  The dates the edit form pre-fills
    and the badge reads are stored ones, which the API takes as any text;
    every other text, including the date-time forms `Date` itself accepts,
    is treated here as an invalid date, whose comparisons are all false. */
module AmcForm {
  import opened Wrappers
  import opened Calendar
  import opened AdminStore
  import opened Warranty

  /** The modal's `formData`. */
  datatype AmcFormData = AmcFormData(deviceId: string, startDate: string, endDate: string, notes: string)

  datatype AmcFormError = RequiredMissing | EndNotAfterStart

  /** What a valid submit sends: a POST, or a PUT for the AMC being edited. */
  datatype AmcRequest = CreateRequest(body: AmcFormData) | UpdateRequest(amcId: string, body: AmcFormData)

  /** `new Date(end) <= new Date(start)`: false as soon as either side is not a
      date. */
  predicate EndOnOrBeforeStart(startDate: string, endDate: string) {
    && ParseYmd(startDate).Some? && ParseYmd(endDate).Some?
    && DayNumber(ParseYmd(endDate).value) <= DayNumber(ParseYmd(startDate).value)
  }

  /** `handleSubmit`: the three required fields, then the date order. */
  function SubmitAmc(f: AmcFormData, editing: Option<Amc>): (r: Result<AmcRequest, AmcFormError>)
    ensures r == Failure(RequiredMissing) <==> f.deviceId == "" || f.startDate == "" || f.endDate == ""
    ensures r == Failure(EndNotAfterStart) <==>
              f.deviceId != "" && f.startDate != "" && f.endDate != "" && EndOnOrBeforeStart(f.startDate, f.endDate)
    ensures r.Success? ==> r.value.body == f
    ensures r.Success? ==> (r.value.UpdateRequest? <==> editing.Some?)
    ensures r.Success? && editing.Some? ==> r.value.amcId == editing.value.id
  {
    if f.deviceId == "" || f.startDate == "" || f.endDate == "" then Failure(RequiredMissing)
    else if EndOnOrBeforeStart(f.startDate, f.endDate) then Failure(EndNotAfterStart)
    else if editing.Some? then Success(UpdateRequest(editing.value.id, f))
    else Success(CreateRequest(f))
  }

  /** A form that is sent with two real dates ends strictly after it starts. */
  lemma SubmittedDatesOrdered(f: AmcFormData, editing: Option<Amc>)
    requires SubmitAmc(f, editing).Success?
    requires ParseYmd(f.startDate).Some? && ParseYmd(f.endDate).Some?
    ensures DateLt(ParseYmd(f.startDate).value, ParseYmd(f.endDate).value)
  {
    DayNumberOrder(ParseYmd(f.startDate).value, ParseYmd(f.endDate).value);
  }

  /** The date check only looks at dates it can read: a non-empty end date
      that is not a date passes it. */
  lemma UnreadableEndDatePasses(f: AmcFormData)
    requires f.deviceId != "" && f.startDate != "" && f.endDate != ""
    requires ParseYmd(f.endDate) == None
    ensures SubmitAmc(f, None) == Success(CreateRequest(f))
  {
  }

  // ---------------------------------------------------------------------
  // The device drop-down

  /** `amcList.some(a => a.device_id === id)`. */
  predicate Listed(amcList: seq<Amc>, deviceId: string) {
    exists i :: 0 <= i < |amcList| && amcList[i].deviceId == deviceId
  }

  /** A device may be picked when it has no AMC, or when it is the device of
      the AMC being edited. */
  predicate Selectable(amcList: seq<Amc>, editing: Option<Amc>, deviceId: string) {
    !Listed(amcList, deviceId) || (editing.Some? && editing.value.deviceId == deviceId)
  }

  /** `devicesWithoutAMC`, in the order of the device list. */
  function DevicesWithoutAmc(devices: seq<Device>, amcList: seq<Amc>, editing: Option<Amc>): (r: seq<Device>)
    ensures |r| <= |devices|
    ensures forall d :: d in r <==> d in devices && Selectable(amcList, editing, d.id)
  {
    if devices == [] then []
    else
      (if Selectable(amcList, editing, devices[0].id) then [devices[0]] else [])
      + DevicesWithoutAmc(devices[1..], amcList, editing)
  }

  /** The list keeps the devices' relative order: the offered devices of a
      concatenation are those of each part, one after the other. */
  lemma {:induction false} DevicesWithoutAmcAppend(a: seq<Device>, b: seq<Device>, amcList: seq<Amc>, editing: Option<Amc>)
    ensures DevicesWithoutAmc(a + b, amcList, editing)
            == DevicesWithoutAmc(a, amcList, editing) + DevicesWithoutAmc(b, amcList, editing)
  {
    if a == [] {
      assert a + b == b;
    } else {
      assert (a + b)[0] == a[0];
      assert (a + b)[1..] == a[1..] + b;
      DevicesWithoutAmcAppend(a[1..], b, amcList, editing);
    }
  }

  /** When every device may be picked, the list is the device list itself. */
  lemma {:induction false} DevicesWithoutAmcKeepsAll(devices: seq<Device>, amcList: seq<Amc>, editing: Option<Amc>)
    requires forall i :: 0 <= i < |devices| ==> Selectable(amcList, editing, devices[i].id)
    ensures DevicesWithoutAmc(devices, amcList, editing) == devices
  {
    if devices != [] {
      DevicesWithoutAmcKeepsAll(devices[1..], amcList, editing);
    }
  }

  /** The device of the AMC being edited is always offered, so the edit
      form can keep it. */
  lemma EditedDeviceOffered(devices: seq<Device>, amcList: seq<Amc>, a: Amc, d: Device)
    requires d in devices && d.id == a.deviceId
    ensures d in DevicesWithoutAmc(devices, amcList, Some(a))
  {
  }

  /** The "Add AMC" button: disabled when the drop-down list is empty.  The
      list reads the edit state even though the button sits on the page:
      `closeModal` clears that state, but the dialog's own close (Escape, a
      click outside it, its corner button) only hides the dialog and leaves
      the last edited AMC in place. */
  predicate AddAmcDisabled(devices: seq<Device>, amcList: seq<Amc>, editing: Option<Amc>) {
    |DevicesWithoutAmc(devices, amcList, editing)| == 0
  }

  /** The button is disabled exactly when every device has an AMC and none
      of them is the device of the AMC last opened for editing. */
  lemma AddDisabledIffAllCovered(devices: seq<Device>, amcList: seq<Amc>, editing: Option<Amc>)
    ensures AddAmcDisabled(devices, amcList, editing) <==>
              forall i :: 0 <= i < |devices| ==>
                Listed(amcList, devices[i].id) && (editing.None? || editing.value.deviceId != devices[i].id)
  {
    var r := DevicesWithoutAmc(devices, amcList, editing);
    if !AddAmcDisabled(devices, amcList, editing) {
      assert r[0] in r;
    }
    if exists i :: 0 <= i < |devices| && Selectable(amcList, editing, devices[i].id) {
      var i :| 0 <= i < |devices| && Selectable(amcList, editing, devices[i].id);
      assert devices[i] in r;
    }
  }

  /** A dialog closed without `closeModal` leaves "Add AMC" enabled even when
      every device already has an AMC, since the last edited AMC's device
      still counts as selectable. */
  lemma StaleEditEnablesAdd(devices: seq<Device>, amcList: seq<Amc>, a: Amc, d: Device)
    requires d in devices && d.id == a.deviceId
    ensures !AddAmcDisabled(devices, amcList, Some(a))
  {
    EditedDeviceOffered(devices, amcList, a, d);
  }

  /** `amcList` is what the server holds: every record it lists is in the
      store and every stored record is listed. */
  predicate ListsStore(amcList: seq<Amc>, amcs: map<string, Amc>) {
    && (forall i :: 0 <= i < |amcList| ==> amcList[i] in amcs.Values)
    && (forall k :: k in amcs ==> amcs[k] in amcList)
  }

  /** The drop-down and the server agree: for a device the server knows, the
      page offers it for a new AMC exactly when the server's create would
      accept an AMC for it. */
  lemma DropDownMirrorsServer(st: Store, amcList: seq<Amc>, devices: seq<Device>, d: Device,
                              c: AmcCreate, newId: string, now: string)
    requires ListsStore(amcList, st.amcs)
    requires d in devices && d.id in st.devices && c.deviceId == d.id
    ensures d in DevicesWithoutAmc(devices, amcList, None) <==> CreateAmc(st, c, newId, now).Success?
  {
    if Listed(amcList, d.id) {
      var i :| 0 <= i < |amcList| && amcList[i].deviceId == d.id;
      var k :| k in st.amcs && st.amcs[k] == amcList[i];
      assert HasAmc(st.amcs, d.id);
    }
    if HasAmc(st.amcs, d.id) {
      var k :| k in st.amcs && st.amcs[k].deviceId == d.id;
      var i :| 0 <= i < |amcList| && amcList[i] == st.amcs[k];
      assert Listed(amcList, d.id);
    }
  }

  // ---------------------------------------------------------------------
  // The active badge

  /** `isAMCActive(end_date)`: an empty or unreadable date is not active;
      otherwise midnight at the start of the end date must not be before
      the current instant.  `new Date("YYYY-MM-DD")` is midnight UTC, so
      `now` is the browser's current instant written in UTC. */
  function IsAmcActive(endDate: string, now: DateTime): (r: bool)
    requires ValidDateTime(now)
    ensures r <==> && endDate != "" && ParseYmd(endDate).Some?
                   && (|| DayNumber(now.date) < DayNumber(ParseYmd(endDate).value)
                       || (now.date == ParseYmd(endDate).value && now.micros == 0))
  {
    if endDate == "" then false
    else
      match ParseYmd(endDate)
      case None => false
      case Some(e) => DateTimeLe(now, Midnight(e))
  }

  /** Given the same reading of the clock, the badge uses the same rule as
      server.py's `is_warranty_active`: it goes out at the first instant of
      the end date.  The server reads its clock in local time and the badge
      reads `now` in UTC, so the two readings agree only on a server whose
      clock is set to UTC. */
  lemma AmcBadgeMatchesServerRule(endDate: string, now: DateTime)
    requires ValidDateTime(now)
    ensures IsAmcActive(endDate, now) == ServerIsWarrantyActive(endDate, now)
  {
    if endDate == "" {
      ParseYmdRejectsShort(endDate);
    }
  }

  /** A badge that is off stays off as time goes on. */
  lemma AmcBadgeMonotone(endDate: string, earlier: DateTime, later: DateTime)
    requires ValidDateTime(earlier) && ValidDateTime(later)
    requires DateTimeLe(earlier, later)
    ensures IsAmcActive(endDate, later) ==> IsAmcActive(endDate, earlier)
  {
    if ParseYmd(endDate).Some? {
      var e := ParseYmd(endDate).value;
      DayNumberOrder(earlier.date, later.date);
      DayNumberOrder(later.date, e);
      DayNumberOrder(earlier.date, e);
    }
  }
}

=== FILE: bulk_import.dfy ===
/** The CSV import dialog (frontend/src/components/ui/bulk-import.jsx):
    `parseCSV`, `validateData` and the import guard.  The parser is not
    RFC 4180: a `"` only toggles quote mode (there is no doubled-quote escape,
    section 2 rule 7 of RFC 4180) and a record never spans lines (no quoted
    line breaks, section 2 rule 6).  A row is the object the parser builds,
    as a map from header to value. */
module BulkImport {
  import opened Text

  type Row = map<string, string>

  // ---------------------------------------------------------------------
  // parseCSV

  /** `lines.filter(line => line.trim())`: the lines that are not blank. */
  function NonBlankLines(lines: seq<string>): (r: seq<string>)
    ensures |r| <= |lines|
    ensures forall i :: 0 <= i < |r| ==> !Blank(r[i])
  {
    if lines == [] then []
    else if !Blank(lines[0]) then [lines[0]] + NonBlankLines(lines[1..])
    else NonBlankLines(lines[1..])
  }

  /** `line.trim()` is falsy: the line is whitespace only. */
  predicate Blank(line: string) {
    forall i :: 0 <= i < |line| ==> JsIsSpace(line[i])
  }

  lemma BlankIffTrimsToEmpty(line: string)
    ensures Blank(line) <==> JsTrim(line) == ""
  {
    TrimEmptyIffAllSpace(line, JsIsSpace);
  }

  /** The filter keeps every non-blank line and nothing else. */
  lemma {:induction false} NonBlankLinesKeep(lines: seq<string>)
    ensures forall l :: l in NonBlankLines(lines) <==> l in lines && !Blank(l)
  {
    if lines != [] {
      NonBlankLinesKeep(lines[1..]);
      assert forall l :: l in lines <==> l == lines[0] || l in lines[1..];
    }
  }

  /** Filtering a concatenation filters each part in place, so the kept
      lines stay in file order. */
  lemma {:induction false} NonBlankLinesAppend(a: seq<string>, b: seq<string>)
    ensures NonBlankLines(a + b) == NonBlankLines(a) + NonBlankLines(b)
  {
    if a == [] {
      assert a + b == b;
    } else {
      assert (a + b)[0] == a[0];
      assert (a + b)[1..] == a[1..] + b;
      NonBlankLinesAppend(a[1..], b);
    }
  }

  /** The first kept line, which the parser reads as the header, is the
      first line of the file that is not blank. */
  lemma {:induction false} FirstNonBlankLineLeads(lines: seq<string>, i: nat)
    requires i < |lines| && !Blank(lines[i])
    requires forall j :: 0 <= j < i ==> Blank(lines[j])
    ensures NonBlankLines(lines) != [] && NonBlankLines(lines)[0] == lines[i]
  {
    if i > 0 {
      assert Blank(lines[0]);
      FirstNonBlankLineLeads(lines[1..], i - 1);
    }
  }

  /** `.replace(/^"|"$/g, '')`: one leading and one trailing quote go. */
  function StripEdgeQuotes(s: string): (r: string)
    ensures |r| <= |s|
    ensures '"' !in s ==> r == s
  {
    var a := if |s| > 0 && s[0] == '"' then s[1..] else s;
    if |a| > 0 && a[|a| - 1] == '"' then a[..|a| - 1] else a
  }

  /** A header cell: split on every comma, trimmed, edge quotes dropped. */
  function HeaderCell(h: string): string {
    StripEdgeQuotes(JsTrim(h))
  }

  function Headers(line: string): seq<string> {
    var cells := Split(line, ',');
    seq(|cells|, i requires 0 <= i < |cells| => HeaderCell(cells[i]))
  }

  /** The raw fields of a data line, before trimming: the character loop of
      `parseCSV` with `inQuotes` as the mode the rest of the line starts in.
      A quote toggles the mode and is dropped; a comma outside quotes ends a
      field; every other character is copied. */
  function RawFields(line: string, inQuotes: bool): (r: seq<string>)
    ensures |r| >= 1
    ensures forall i :: 0 <= i < |r| ==> '"' !in r[i]
  {
    if line == [] then [""]
    else if line[0] == '"' then RawFields(line[1..], !inQuotes)
    else if line[0] == ',' && !inQuotes then [""] + RawFields(line[1..], inQuotes)
    else
      var rest := RawFields(line[1..], inQuotes);
      [[line[0]] + rest[0]] + rest[1..]
  }

  /** The characters of `s` other than `c`. */
  function Without(s: string, c: char): (r: string)
    ensures c !in r
  {
    if s == [] then [] else (if s[0] == c then [] else [s[0]]) + Without(s[1..], c)
  }

  /** No character but the quotes is lost: joining the raw fields with commas
      gives the line without its quotes. */
  lemma {:induction false} RawFieldsJoin(line: string, inQuotes: bool)
    ensures Join(RawFields(line, inQuotes), ',') == Without(line, '"')
  {
    if line != [] {
      var next := if line[0] == '"' then !inQuotes else inQuotes;
      RawFieldsJoin(line[1..], next);
      var rest := RawFields(line[1..], inQuotes);
      if line[0] == ',' && !inQuotes {
        assert Join([""] + rest, ',') == [','] + Join(rest, ',') by {
          JoinEmptyFirst(rest, ',');
        }
      } else if line[0] != '"' {
        assert Join([[line[0]] + rest[0]] + rest[1..], ',') == [line[0]] + Join(rest, ',') by {
          JoinExtendFirst(line[0], rest, ',');
        }
      }
    }
  }

  /** A leading empty part adds one separator in front. */
  lemma JoinEmptyFirst(parts: seq<string>, sep: char)
    requires |parts| >= 1
    ensures Join([""] + parts, sep) == [sep] + Join(parts, sep)
  {
    assert ([""] + parts)[1..] == parts;
  }

  /** A character put in front of the first part is put in front of the
      whole. */
  lemma JoinExtendFirst(c: char, parts: seq<string>, sep: char)
    requires |parts| >= 1
    ensures Join([[c] + parts[0]] + parts[1..], sep) == [c] + Join(parts, sep)
  {
    var r := [[c] + parts[0]] + parts[1..];
    assert r[1..] == parts[1..];
  }

  /** On a line without quotes the loop splits at every comma, as the header
      line is split. */
  lemma {:induction false} RawFieldsWithoutQuotes(line: string, inQuotes: bool)
    requires '"' !in line && !inQuotes
    ensures RawFields(line, inQuotes) == Split(line, ',')
  {
    if line != [] {
      RawFieldsWithoutQuotes(line[1..], inQuotes);
    }
  }

  /** Inside quotes every character but a quote is copied, commas included. */
  lemma {:induction false} InQuotesCopies(s: string, rest: string)
    requires '"' !in s
    ensures RawFields(s + rest, true) == [s + RawFields(rest, true)[0]] + RawFields(rest, true)[1..]
  {
    if s != [] {
      assert (s + rest)[0] == s[0] && (s + rest)[1..] == s[1..] + rest;
      InQuotesCopies(s[1..], rest);
      assert [s[0]] + (s[1..] + RawFields(rest, true)[0]) == s + RawFields(rest, true)[0];
    } else {
      var r := RawFields(rest, true);
      assert s + rest == rest && s + r[0] == r[0];
      assert r == [r[0]] + r[1..];
    }
  }

  /** A quoted field is one field, whatever commas it holds. */
  lemma QuotedFieldKept(s: string)
    requires '"' !in s
    ensures RawFields(['"'] + s + ['"'], false) == [s]
  {
    var line := ['"'] + s + ['"'];
    assert line[0] == '"' && line[1..] == s + ['"'];
    InQuotesCopies(s, ['"']);
    var q := ['"'];
    assert q[0] == '"' && q[1..] == [];
    assert RawFields(q, true) == [""];
    assert s + "" == s;
  }

  /** `values`: the raw fields, each trimmed. */
  function Values(line: string): seq<string> {
    var raw := RawFields(line, false);
    seq(|raw|, i requires 0 <= i < |raw| => JsTrim(raw[i]))
  }

  /** `values[idx]?.replace(/^"|"$/g, '') || ''`. */
  function ValueAt(values: seq<string>, idx: nat): string {
    if idx < |values| then StripEdgeQuotes(values[idx]) else ""
  }

  /** The row object: `headers.forEach((header, idx) => row[header] = ...)`,
      so a repeated header keeps its last column. */
  function MakeRow(headers: seq<string>, values: seq<string>): (r: Row)
    ensures forall h :: h in r <==> h in headers
  {
    if headers == [] then map[]
    else
      var n := |headers| - 1;
      MakeRow(headers[..n], values)[headers[n] := ValueAt(values, n)]
  }

  /** Each header maps to the value of its last column, or `''` past the
      end of the line. */
  lemma {:induction false} MakeRowLastColumn(headers: seq<string>, values: seq<string>, i: nat)
    requires i < |headers|
    requires forall j :: i < j < |headers| ==> headers[j] != headers[i]
    ensures MakeRow(headers, values)[headers[i]] == ValueAt(values, i)
  {
    var n := |headers| - 1;
    var front := headers[..n];
    assert MakeRow(headers, values) == MakeRow(front, values)[headers[n] := ValueAt(values, n)];
    if i < n {
      assert front[i] == headers[i] && headers[n] != headers[i];
      assert forall j :: i < j < |front| ==> front[j] != front[i];
      MakeRowLastColumn(front, values, i);
    }
  }

  /** One row per data line, all under the same headers. */
  function RowsOf(headers: seq<string>, dataLines: seq<string>): (r: seq<Row>)
    ensures |r| == |dataLines|
  {
    if dataLines == [] then []
    else [MakeRow(headers, Values(dataLines[0]))] + RowsOf(headers, dataLines[1..])
  }

  lemma {:induction false} RowsOfAt(headers: seq<string>, dataLines: seq<string>, i: nat)
    requires i < |dataLines|
    ensures RowsOf(headers, dataLines)[i] == MakeRow(headers, Values(dataLines[i]))
  {
    if i > 0 {
      RowsOfAt(headers, dataLines[1..], i - 1);
    }
  }

  /** The rows `parseCSV` builds from the non-blank lines: the first is the
      header line, and every later line gives one row. */
  function ParseLines(lines: seq<string>): (r: seq<Row>)
    ensures |lines| < 2 ==> r == []
    ensures |lines| >= 2 ==> |r| == |lines| - 1
  {
    if |lines| < 2 then [] else RowsOf(Headers(lines[0]), lines[1..])
  }

  /** `parseCSV(text)`: lines split at `\n`, blank ones dropped. */
  function ParseCsv(text: string): seq<Row> {
    ParseLines(NonBlankLines(Split(text, '\n')))
  }

  /** No value of the row holds a quote. */
  predicate QuoteFree(row: Row) {
    forall h :: h in row ==> '"' !in row[h]
  }

  /** Each header's value is its last column's, or `''` past the end of the
      line. */
  predicate LastColumnWins(row: Row, headers: seq<string>, values: seq<string>) {
    forall c :: 0 <= c < |headers| && (forall j :: c < j < |headers| ==> headers[j] != headers[c]) ==>
      headers[c] in row && row[headers[c]] == (if c < |values| then values[c] else "")
  }

  /** Every row has exactly the header names as keys; a data value never
      holds a quote; a column past the end of its line is `''`. */
  lemma ParsedRowShape(lines: seq<string>, i: nat)
    requires i < |ParseLines(lines)|
    ensures forall h :: h in ParseLines(lines)[i] <==> h in Headers(lines[0])
    ensures QuoteFree(ParseLines(lines)[i])
    ensures LastColumnWins(ParseLines(lines)[i], Headers(lines[0]), Values(lines[i + 1]))
  {
    RowsOfAt(Headers(lines[0]), lines[1..], i);
    ValuesHaveNoQuotes(lines[i + 1]);
    RowShape(Headers(lines[0]), Values(lines[i + 1]));
  }


  /** Trimming a raw field cannot bring back a quote. */
  lemma ValuesHaveNoQuotes(line: string)
    ensures forall k :: 0 <= k < |Values(line)| ==> '"' !in Values(line)[k]
  {
    var raw := RawFields(line, false);
    var values := Values(line);
    forall k | 0 <= k < |values|
      ensures '"' !in values[k]
    {
      assert values[k] == JsTrim(raw[k]);
      TrimKeepsAbsence(raw[k], JsIsSpace, '"');
    }
  }

  /** The row built from quote-free values. */
  lemma RowShape(headers: seq<string>, values: seq<string>)
    requires forall k :: 0 <= k < |values| ==> '"' !in values[k]
    ensures QuoteFree(MakeRow(headers, values))
    ensures LastColumnWins(MakeRow(headers, values), headers, values)
  {
    var row := MakeRow(headers, values);
    forall c | 0 <= c < |headers| && (forall j :: c < j < |headers| ==> headers[j] != headers[c])
      ensures headers[c] in row && row[headers[c]] == (if c < |values| then values[c] else "")
    {
      MakeRowLastColumn(headers, values, c);
      assert headers[c] in headers;
    }
    RowValuesFromLine(headers, values);
  }

  /** Every value of a row is one of the line's values, or `''`. */
  lemma {:induction false} RowValuesFromLine(headers: seq<string>, values: seq<string>)
    requires forall k :: 0 <= k < |values| ==> '"' !in values[k]
    ensures QuoteFree(MakeRow(headers, values))
  {
    if headers != [] {
      RowValuesFromLine(headers[..|headers| - 1], values);
    }
  }

  // ---------------------------------------------------------------------
  // validateData and the import guard

  /** One entry of the error list; `row` is the spreadsheet row number. */
  datatype ValidationError = ValidationError(row: int, column: string)

  /** `!row[col] || row[col].trim() === ''`. */
  predicate Missing(row: Row, col: string) {
    col !in row || JsTrim(row[col]) == ""
  }

  function RowErrors(row: Row, rowNumber: int, required: seq<string>): (r: seq<ValidationError>)
    ensures forall e :: e in r <==> e.row == rowNumber && e.column in required && Missing(row, e.column)
  {
    if required == [] then []
    else
      (if Missing(row, required[0]) then [ValidationError(rowNumber, required[0])] else [])
      + RowErrors(row, rowNumber, required[1..])
  }

  /** A single required column yields one error when its value is missing
      or blank and none otherwise. */
  lemma RowErrorsSingle(row: Row, rowNumber: int, c: string)
    ensures RowErrors(row, rowNumber, [c]) == (if Missing(row, c) then [ValidationError(rowNumber, c)] else [])
  {
    assert [c][1..] == [];
  }

  /** `requiredColumns.forEach` appends the columns' errors in the order of
      the columns, so the errors of a split list are the errors of its halves
      in order; with `RowErrorsSingle` this fixes the list exactly (order and
      multiplicity, one entry per occurrence of a missing column). */
  lemma {:induction false} RowErrorsAppend(row: Row, rowNumber: int, a: seq<string>, b: seq<string>)
    ensures RowErrors(row, rowNumber, a + b) == RowErrors(row, rowNumber, a) + RowErrors(row, rowNumber, b)
  {
    if a == [] {
      assert a + b == b;
    } else {
      var head := if Missing(row, a[0]) then [ValidationError(rowNumber, a[0])] else [];
      assert (a + b)[0] == a[0];
      assert (a + b)[1..] == a[1..] + b;
      var x, y := RowErrors(row, rowNumber, a[1..]), RowErrors(row, rowNumber, b);
      assert RowErrors(row, rowNumber, a + b) == head + RowErrors(row, rowNumber, a[1..] + b);
      assert RowErrors(row, rowNumber, a) == head + x;
      RowErrorsAppend(row, rowNumber, a[1..], b);
      ConcatAssoc(head, x, y);
    }
  }

  lemma ConcatAssoc<T>(p: seq<T>, q: seq<T>, r: seq<T>)
    ensures p + (q + r) == (p + q) + r
  {
  }

  /** `validateData(data)`: data row `index` is spreadsheet row `index + 2`
      (1-based, after the header). */
  function ValidateData(rows: seq<Row>, required: seq<string>): (r: seq<ValidationError>)
    ensures forall e :: e in r ==> 2 <= e.row < |rows| + 2 && e.column in required
  {
    if rows == [] then []
    else
      var n := |rows| - 1;
      ValidateData(rows[..n], required) + RowErrors(rows[n], n + 2, required)
  }

  /** An error is reported for exactly the (row, required column) pairs
      whose value is missing or blank. */
  lemma {:induction false} ValidateDataReports(rows: seq<Row>, required: seq<string>)
    ensures forall e :: e in ValidateData(rows, required) <==>
              2 <= e.row < |rows| + 2 && e.column in required && Missing(rows[e.row - 2], e.column)
  {
    if rows != [] {
      var n := |rows| - 1;
      ValidateDataReports(rows[..n], required);
    }
  }

  /** Errors listed in non-decreasing row order. */
  predicate RowMajor(errs: seq<ValidationError>) {
    forall a, b :: 0 <= a < b < |errs| ==> errs[a].row <= errs[b].row
  }

  /** Appending the errors of a later row keeps the order. */
  lemma AppendLaterRow(front: seq<ValidationError>, back: seq<ValidationError>, rowNumber: int)
    requires RowMajor(front)
    requires forall k :: 0 <= k < |front| ==> front[k].row < rowNumber
    requires forall k :: 0 <= k < |back| ==> back[k].row == rowNumber
    ensures RowMajor(front + back)
  {
    var errs := front + back;
    forall a, b | 0 <= a < b < |errs|
      ensures errs[a].row <= errs[b].row
    {
      if b < |front| {
        assert errs[a] == front[a] && errs[b] == front[b];
      } else if a < |front| {
        assert errs[a] == front[a] && errs[b] == back[b - |front|];
      } else {
        assert errs[a] == back[a - |front|] && errs[b] == back[b - |front|];
      }
    }
  }

  /** The errors come row by row, in row order. */
  lemma {:induction false} ValidateDataRowMajor(rows: seq<Row>, required: seq<string>)
    ensures RowMajor(ValidateData(rows, required))
  {
    if rows != [] {
      var n := |rows| - 1;
      ValidateDataRowMajor(rows[..n], required);
      ValidateDataReports(rows[..n], required);
      var front, back := ValidateData(rows[..n], required), RowErrors(rows[n], n + 2, required);
      assert forall k :: 0 <= k < |front| ==> front[k] in front;
      assert forall k :: 0 <= k < |back| ==> back[k] in back;
      AppendLaterRow(front, back, n + 2);
    }
  }

  lemma {:induction false} RowErrorsNone(row: Row, rowNumber: int, required: seq<string>)
    requires forall c :: c in required ==> !Missing(row, c)
    ensures RowErrors(row, rowNumber, required) == []
  {
    if required != [] {
      assert required[0] in required;
      assert forall c :: c in required[1..] ==> c in required;
      RowErrorsNone(row, rowNumber, required[1..]);
    }
  }

  /** No required columns, or no blank required value, gives no errors. */
  lemma {:induction false} NoErrorsWhenComplete(rows: seq<Row>, required: seq<string>)
    requires forall i, c :: 0 <= i < |rows| && c in required ==> !Missing(rows[i], c)
    ensures ValidateData(rows, required) == []
  {
    if rows != [] {
      var n := |rows| - 1;
      assert forall i :: 0 <= i < n ==> rows[..n][i] == rows[i];
      NoErrorsWhenComplete(rows[..n], required);
      RowErrorsNone(rows[n], n + 2, required);
    }
  }

  /** `handleFileSelect`: an empty parse reports a single row-0 error;
      otherwise the validation errors of the parsed rows. */
  function SelectFile(text: string, required: seq<string>): (r: seq<ValidationError>)
    ensures ParseCsv(text) == [] ==> r == [ValidationError(0, "")]
  {
    var data := ParseCsv(text);
    if |data| == 0 then [ValidationError(0, "")] else ValidateData(data, required)
  }

  /** `handleImport` and the Import button run only with no errors. */
  predicate CanImport(errors: seq<ValidationError>) {
    |errors| == 0
  }

  /** A file with no data rows can never be imported, and one whose required
      values are all filled always can. */
  lemma ImportGuard(text: string, required: seq<string>)
    ensures ParseCsv(text) == [] ==> !CanImport(SelectFile(text, required))
    ensures ParseCsv(text) != [] && (forall i, c :: 0 <= i < |ParseCsv(text)| && c in required ==> !Missing(ParseCsv(text)[i], c))
            ==> CanImport(SelectFile(text, required))
  {
    if ParseCsv(text) != [] && (forall i, c :: 0 <= i < |ParseCsv(text)| && c in required ==> !Missing(ParseCsv(text)[i], c)) {
      NoErrorsWhenComplete(ParseCsv(text), required);
    }
  }
}

=== FILE: calendar.dfy ===
/** The proleptic Gregorian calendar of Python's `datetime` (years 1 to 9999),
    dates as day numbers, the two date parsers the back end uses
    (`datetime.strptime(s, '%Y-%m-%d')` and `datetime.fromisoformat`) and the
    `strftime('%Y-%m-%d')` rendering. */
module Calendar {
  import opened Wrappers
  import opened Text
  import opened Numerals

  datatype Date = Date(year: int, month: int, day: int)

  const MaxYear := 9999

  predicate IsLeapYear(y: int) {
    y % 4 == 0 && (y % 100 != 0 || y % 400 == 0)
  }

  function DaysInYear(y: int): int {
    if IsLeapYear(y) then 366 else 365
  }

  function DaysInMonth(y: int, m: int): (r: int)
    requires 1 <= m <= 12
    ensures 28 <= r <= 31
  {
    if m == 2 then (if IsLeapYear(y) then 29 else 28)
    else if m == 4 || m == 6 || m == 9 || m == 11 then 30
    else 31
  }

  /** A date `datetime.date` accepts. */
  predicate ValidDate(d: Date) {
    1 <= d.year <= MaxYear && 1 <= d.month <= 12 && 1 <= d.day <= DaysInMonth(d.year, d.month)
  }

  /** Calendar order: year, then month, then day. */
  predicate DateLt(a: Date, b: Date) {
    a.year < b.year
    || (a.year == b.year && a.month < b.month)
    || (a.year == b.year && a.month == b.month && a.day < b.day)
  }

  /** Days from 0001-01-01 to January 1st of year `y`. */
  function DaysBeforeYear(y: int): int
    requires y >= 1
  {
    var p := y - 1;
    365 * p + p / 4 - p / 100 + p / 400
  }

  /** Days from January 1st to the first of month `m` (13 meaning the next
      January 1st). */
  function DaysBeforeMonth(y: int, m: int): int
    requires 1 <= m <= 13
  {
    if m == 1 then 0 else DaysBeforeMonth(y, m - 1) + DaysInMonth(y, m - 1)
  }

  /** `date.toordinal() - 1`: 0 for 0001-01-01. */
  function DayNumber(d: Date): int
    requires ValidDate(d)
  {
    DaysBeforeYear(d.year) + DaysBeforeMonth(d.year, d.month) + d.day - 1
  }

  /** Day number of 9999-12-31, the last date Python represents. */
  const MaxDayNumber := 3652058

  lemma DaysBeforeYearStep(y: int)
    requires y >= 1
    ensures DaysBeforeYear(y + 1) == DaysBeforeYear(y) + DaysInYear(y)
  {
    var p := y - 1;
    LeapCountStep(p);
    CenturyCountStep(p);
    QuadCenturyCountStep(p);
    assert DaysInYear(y) == 365 + (if y % 4 == 0 then 1 else 0) - (if y % 100 == 0 then 1 else 0)
                                + (if y % 400 == 0 then 1 else 0) by {
      DivisibilityChain(y);
    }
  }

  /** A multiple of 400 is a multiple of 100, which is a multiple of 4. */
  lemma DivisibilityChain(y: int)
    ensures y % 400 == 0 ==> y % 100 == 0
    ensures y % 100 == 0 ==> y % 4 == 0
  {
  }

  /** Counting one more year adds one multiple of 4, 100 or 400 exactly when
      the new year is one. */
  lemma LeapCountStep(p: nat)
    ensures (p + 1) / 4 == p / 4 + (if (p + 1) % 4 == 0 then 1 else 0)
  {
  }

  lemma CenturyCountStep(p: nat)
    ensures (p + 1) / 100 == p / 100 + (if (p + 1) % 100 == 0 then 1 else 0)
  {
  }

  lemma QuadCenturyCountStep(p: nat)
    ensures (p + 1) / 400 == p / 400 + (if (p + 1) % 400 == 0 then 1 else 0)
  {
  }

  lemma {:induction false} DaysBeforeYearMonotone(a: int, b: int)
    requires 1 <= a <= b
    ensures DaysBeforeYear(a) + 365 * (b - a) <= DaysBeforeYear(b)
    decreases b - a
  {
    if a < b {
      DaysBeforeYearMonotone(a, b - 1);
      DaysBeforeYearStep(b - 1);
    }
  }

  lemma DaysBeforeMonthFullYear(y: int)
    ensures DaysBeforeMonth(y, 13) == DaysInYear(y)
  {
    assert DaysBeforeMonth(y, 2) == 31;
    assert DaysBeforeMonth(y, 3) == 31 + DaysInMonth(y, 2);
    assert DaysBeforeMonth(y, 4) == DaysBeforeMonth(y, 3) + 31;
    assert DaysBeforeMonth(y, 5) == DaysBeforeMonth(y, 3) + 61;
    assert DaysBeforeMonth(y, 6) == DaysBeforeMonth(y, 3) + 92;
    assert DaysBeforeMonth(y, 7) == DaysBeforeMonth(y, 3) + 122;
    assert DaysBeforeMonth(y, 8) == DaysBeforeMonth(y, 3) + 153;
    assert DaysBeforeMonth(y, 9) == DaysBeforeMonth(y, 3) + 184;
    assert DaysBeforeMonth(y, 10) == DaysBeforeMonth(y, 3) + 214;
    assert DaysBeforeMonth(y, 11) == DaysBeforeMonth(y, 3) + 245;
    assert DaysBeforeMonth(y, 12) == DaysBeforeMonth(y, 3) + 275;
  }

  lemma {:induction false} DaysBeforeMonthMonotone(y: int, a: int, b: int)
    requires 1 <= a <= b <= 13
    ensures DaysBeforeMonth(y, a) + 28 * (b - a) <= DaysBeforeMonth(y, b)
    decreases b - a
  {
    if a < b {
      DaysBeforeMonthMonotone(y, a, b - 1);
    }
  }

  /** The day number stays inside its year. */
  lemma DayNumberInYear(d: Date)
    requires ValidDate(d)
    ensures DaysBeforeYear(d.year) <= DayNumber(d) < DaysBeforeYear(d.year + 1)
  {
    DaysBeforeMonthMonotone(d.year, 1, d.month);
    DaysBeforeMonthMonotone(d.year, d.month + 1, 13);
    assert DaysBeforeMonth(d.year, d.month + 1) == DaysBeforeMonth(d.year, d.month) + DaysInMonth(d.year, d.month);
    DaysBeforeMonthFullYear(d.year);
    DaysBeforeYearStep(d.year);
  }

  lemma DayNumberRange(d: Date)
    requires ValidDate(d)
    ensures 0 <= DayNumber(d) <= MaxDayNumber
  {
    DayNumberInYear(d);
    DaysBeforeYearMonotone(d.year + 1, MaxYear + 1);
  }

  /** A date in an earlier year has a smaller day number. */
  lemma EarlierYearFirst(a: Date, b: Date)
    requires ValidDate(a) && ValidDate(b) && a.year < b.year
    ensures DayNumber(a) < DayNumber(b)
  {
    DayNumberInYear(a);
    DayNumberInYear(b);
    DaysBeforeYearMonotone(a.year + 1, b.year);
  }

  /** In one year, a date in an earlier month has a smaller day number. */
  lemma EarlierMonthFirst(a: Date, b: Date)
    requires ValidDate(a) && ValidDate(b) && a.year == b.year && a.month < b.month
    ensures DayNumber(a) < DayNumber(b)
  {
    DaysBeforeMonthMonotone(a.year, a.month + 1, b.month);
    assert DaysBeforeMonth(a.year, a.month + 1) == DaysBeforeMonth(a.year, a.month) + DaysInMonth(a.year, a.month);
  }

  /** Day numbers follow calendar order, in both directions. */
  lemma DayNumberOrder(a: Date, b: Date)
    requires ValidDate(a) && ValidDate(b)
    ensures DateLt(a, b) <==> DayNumber(a) < DayNumber(b)
    ensures a == b <==> DayNumber(a) == DayNumber(b)
  {
    if a.year < b.year {
      EarlierYearFirst(a, b);
    } else if b.year < a.year {
      EarlierYearFirst(b, a);
    } else if a.month < b.month {
      EarlierMonthFirst(a, b);
    } else if b.month < a.month {
      EarlierMonthFirst(b, a);
    }
  }

  function YearContaining(n: int, y: int): (r: int)
    requires 1 <= y && DaysBeforeYear(y) <= n
    ensures y <= r && DaysBeforeYear(r) <= n < DaysBeforeYear(r + 1)
    decreases n - DaysBeforeYear(y)
  {
    DaysBeforeYearStep(y);
    if n < DaysBeforeYear(y + 1) then y else YearContaining(n, y + 1)
  }

  function MonthContaining(y: int, r: int, m: int): (res: int)
    requires 1 <= m <= 12 && DaysBeforeMonth(y, m) <= r < DaysBeforeMonth(y, 13)
    ensures m <= res <= 12 && DaysBeforeMonth(y, res) <= r < DaysBeforeMonth(y, res + 1)
    decreases 12 - m
  {
    if r < DaysBeforeMonth(y, m + 1) then m else MonthContaining(y, r, m + 1)
  }

  /** The date with day number `n`. */
  function FromDayNumber(n: int): (d: Date)
    requires 0 <= n <= MaxDayNumber
    ensures ValidDate(d) && DayNumber(d) == n
  {
    var y := YearContaining(n, 1);
    if y > MaxYear then
      DaysBeforeYearMonotone(MaxYear + 1, y);
      assert false;
      Date(1, 1, 1)
    else
      var r := n - DaysBeforeYear(y);
      DaysBeforeYearStep(y);
      DaysBeforeMonthFullYear(y);
      var m := MonthContaining(y, r, 1);
      Date(y, m, r - DaysBeforeMonth(y, m) + 1)
  }

  /** Every valid date is recovered from its day number. */
  lemma FromDayNumberOfDayNumber(d: Date)
    requires ValidDate(d)
    ensures 0 <= DayNumber(d) <= MaxDayNumber && FromDayNumber(DayNumber(d)) == d
  {
    DayNumberRange(d);
    DayNumberOrder(d, FromDayNumber(DayNumber(d)));
  }

  /** `d + timedelta(days=k)`; `None` is Python's `OverflowError` when the
      result leaves years 1..9999. */
  function AddDays(d: Date, k: int): (r: Option<Date>)
    requires ValidDate(d)
    ensures r.Some? <==> 0 <= DayNumber(d) + k <= MaxDayNumber
    ensures r.Some? ==> ValidDate(r.value) && DayNumber(r.value) == DayNumber(d) + k
  {
    var n := DayNumber(d) + k;
    if 0 <= n <= MaxDayNumber then Some(FromDayNumber(n)) else None
  }

  lemma AddZeroDays(d: Date)
    requires ValidDate(d)
    ensures AddDays(d, 0) == Some(d)
  {
    AddDaysToward(d, d, 0);
  }

  /** Adding the difference of two day numbers to one date reaches the
      other. */
  lemma AddDaysToward(from: Date, to: Date, k: int)
    requires ValidDate(from) && ValidDate(to)
    requires k == DayNumber(to) - DayNumber(from)
    ensures AddDays(from, k) == Some(to)
  {
    DayNumberRange(to);
    var r := AddDays(from, k);
    DayNumberOrder(r.value, to);
  }

  /** Adding more days never gives an earlier date. */
  lemma AddDaysMonotone(d: Date, j: int, k: int)
    requires ValidDate(d) && j <= k
    requires AddDays(d, j).Some? && AddDays(d, k).Some?
    ensures !DateLt(AddDays(d, k).value, AddDays(d, j).value)
  {
    DayNumberOrder(AddDays(d, k).value, AddDays(d, j).value);
  }

  // ---------------------------------------------------------------------
  // Rendering: strftime('%Y-%m-%d')

  function Pow10(w: nat): (r: nat)
    ensures r >= 1
  {
    if w == 0 then 1 else 10 * Pow10(w - 1)
  }

  /** The last `w` decimal digits of `n`, zero padded. */
  function Pad(n: nat, w: nat): (s: string)
    ensures |s| == w && AllDigitsIn(s, 10)
  {
    if w == 0 then [] else Pad(n / 10, w - 1) + [DigitChar(n % 10)]
  }

  lemma {:induction false} PadValue(n: nat, w: nat)
    requires n < Pow10(w)
    ensures ValueIn(Pad(n, w), 10) == n
  {
    if w > 0 {
      var s := Pad(n, w);
      assert s[..|s| - 1] == Pad(n / 10, w - 1);
      PadValue(n / 10, w - 1);
    }
  }

  /** Zero-padded numbers of one width compare as strings as they do as
      numbers. */
  lemma {:induction false} PadOrder(a: nat, b: nat, w: nat)
    requires a < Pow10(w) && b < Pow10(w)
    ensures LexLe(Pad(a, w), Pad(b, w)) <==> a <= b
  {
    if w > 0 {
      var x, y := Pad(a / 10, w - 1), Pad(b / 10, w - 1);
      var da, db := [DigitChar(a % 10)], [DigitChar(b % 10)];
      assert Pad(a, w) == x + da && Pad(b, w) == y + db;
      assert x == y <==> a / 10 == b / 10 by {
        PadValue(a / 10, w - 1);
        PadValue(b / 10, w - 1);
      }
      DivTenOrder(a, b);
      if x == y {
        assert LexLe(x + da, y + db) <==> a % 10 <= b % 10 by {
          LexLeCommonPrefix(x, da, db);
          DigitCharOrder(a % 10, b % 10);
        }
      } else {
        assert LexLe(x + da, y + db) <==> a / 10 <= b / 10 by {
          LexLeHeadsDiffer(x, da, y, db);
          PadOrder(a / 10, b / 10, w - 1);
        }
      }
    }
  }

  /** One-digit strings compare as their digits. */
  lemma DigitCharOrder(i: nat, j: nat)
    requires i < 10 && j < 10
    ensures LexLe([DigitChar(i)], [DigitChar(j)]) <==> i <= j
  {
    var a, b := [DigitChar(i)], [DigitChar(j)];
    assert a[1..] == [] && b[1..] == [];
  }

  /** Numbers compare by their tens, then by their last digit. */
  lemma DivTenOrder(a: nat, b: nat)
    ensures a / 10 != b / 10 ==> (a <= b <==> a / 10 <= b / 10)
    ensures a / 10 == b / 10 ==> (a <= b <==> a % 10 <= b % 10)
  {
  }

  /** `strftime('%Y-%m-%d')`, with the year padded to four digits. */
  function FormatDate(d: Date): (s: string)
    requires ValidDate(d)
    ensures |s| == 10 && s[4] == '-' && s[7] == '-'
  {
    Pad(d.year, 4) + "-" + Pad(d.month, 2) + "-" + Pad(d.day, 2)
  }

  /** Comparing two concatenations whose heads have equal length: the heads
      decide unless they are equal. */
  lemma LexLeConcat(x: string, a: string, y: string, b: string)
    requires |x| == |y|
    ensures LexLe(x + a, y + b) <==> (x != y && LexLe(x, y)) || (x == y && LexLe(a, b))
  {
    if x == y {
      LexLeCommonPrefix(x, a, b);
    } else {
      LexLeHeadsDiffer(x, a, y, b);
    }
  }

  /** "-MM-DD", the part of a rendering after the year. */
  function MonthDayText(m: nat, d: nat): string {
    "-" + Pad(m, 2) + "-" + Pad(d, 2)
  }

  lemma MonthDayTextOrder(m1: nat, d1: nat, m2: nat, d2: nat)
    requires m1 < 100 && d1 < 100 && m2 < 100 && d2 < 100
    ensures LexLe(MonthDayText(m1, d1), MonthDayText(m2, d2))
            <==> m1 < m2 || (m1 == m2 && d1 <= d2)
  {
    var x1, x2 := Pad(m1, 2), Pad(m2, 2);
    assert MonthDayText(m1, d1) == "-" + (x1 + ("-" + Pad(d1, 2)));
    assert MonthDayText(m2, d2) == "-" + (x2 + ("-" + Pad(d2, 2)));
    LexLeCommonPrefix("-", x1 + ("-" + Pad(d1, 2)), x2 + ("-" + Pad(d2, 2)));
    LexLeConcat(x1, "-" + Pad(d1, 2), x2, "-" + Pad(d2, 2));
    LexLeCommonPrefix("-", Pad(d1, 2), Pad(d2, 2));
    PadOrder(m1, m2, 2);
    PadOrder(d1, d2, 2);
    PadValue(m1, 2);
    PadValue(m2, 2);
  }

  /** Rendered dates compare as strings exactly as they compare as dates, so a
      string comparison against today's rendering is a date comparison. */
  lemma FormatDateOrder(a: Date, b: Date)
    requires ValidDate(a) && ValidDate(b)
    ensures LexLe(FormatDate(a), FormatDate(b)) <==> DayNumber(a) <= DayNumber(b)
  {
    DayNumberOrder(a, b);
    var ya, yb := Pad(a.year, 4), Pad(b.year, 4);
    assert FormatDate(a) == ya + MonthDayText(a.month, a.day);
    assert FormatDate(b) == yb + MonthDayText(b.month, b.day);
    LexLeConcat(ya, MonthDayText(a.month, a.day), yb, MonthDayText(b.month, b.day));
    PadValue(a.year, 4);
    PadValue(b.year, 4);
    PadOrder(a.year, b.year, 4);
    MonthDayTextOrder(a.month, a.day, b.month, b.day);
  }

  // ---------------------------------------------------------------------
  // Parsing

  function Digit(c: char): nat
    requires IsAsciiDigit(c)
  {
    c as int - '0' as int
  }

  /** The `%m` field of `strptime`: `1[0-2]|0[1-9]|[1-9]`. */
  function MonthToken(t: string): (r: Option<int>)
    ensures r.Some? ==> 1 <= r.value <= 12
  {
    if |t| == 2 && t[0] == '1' && '0' <= t[1] <= '2' then Some(10 + Digit(t[1]))
    else if |t| == 2 && t[0] == '0' && '1' <= t[1] <= '9' then Some(Digit(t[1]))
    else if |t| == 1 && '1' <= t[0] <= '9' then Some(Digit(t[0]))
    else None
  }

  /** The `%d` field of `strptime`: `3[01]|[12]\d|0[1-9]|[1-9]| [1-9]`. */
  function DayToken(t: string): (r: Option<int>)
    ensures r.Some? ==> 1 <= r.value <= 31
  {
    if |t| == 2 && t[0] == '3' && '0' <= t[1] <= '1' then Some(30 + Digit(t[1]))
    else if |t| == 2 && '1' <= t[0] <= '2' && IsAsciiDigit(t[1]) then Some(10 * Digit(t[0]) + Digit(t[1]))
    else if |t| == 2 && (t[0] == '0' || t[0] == ' ') && '1' <= t[1] <= '9' then Some(Digit(t[1]))
    else if |t| == 1 && '1' <= t[0] <= '9' then Some(Digit(t[0]))
    else None
  }

  lemma MonthTokenTwoDigits(t: string)
    requires |t| == 2 && IsAsciiDigit(t[0]) && IsAsciiDigit(t[1])
    requires 1 <= 10 * Digit(t[0]) + Digit(t[1]) <= 12
    ensures MonthToken(t) == Some(10 * Digit(t[0]) + Digit(t[1]))
  {
  }

  lemma DayTokenTwoDigits(t: string)
    requires |t| == 2 && IsAsciiDigit(t[0]) && IsAsciiDigit(t[1])
    requires 1 <= 10 * Digit(t[0]) + Digit(t[1]) <= 31
    ensures DayToken(t) == Some(10 * Digit(t[0]) + Digit(t[1]))
  {
  }

  /** `datetime.strptime(s, '%Y-%m-%d').date()`, `None` for a `ValueError`:
      four digits, '-', a month field, '-', a day field and nothing else, naming
      a real date of years 1..9999. */
  function ParseYmd(s: string): (r: Option<Date>)
    ensures r.Some? ==> ValidDate(r.value)
    ensures r.Some? ==> 8 <= |s| <= 10 && s[4] == '-' && AllDigitsIn(s[..4], 10) && r.value.year == ValueIn(s[..4], 10)
  {
    if |s| < 8 || !AllDigitsIn(s[..4], 10) || s[4] != '-' then None
    else
      var j := if s[6] == '-' then 6 else 7;
      if |s| <= j + 1 || s[j] != '-' then None
      else
        var m := MonthToken(s[5..j]);
        var d := DayToken(s[j + 1..]);
        if m.None? || d.None? then None
        else
          var date := Date(ValueIn(s[..4], 10), m.value, d.value);
          if ValidDate(date) then Some(date) else None
  }

  /** The decimal digit of `k` reads back as `k`. */
  lemma DigitOfDigitChar(k: nat)
    requires k < 10
    ensures Digit(DigitChar(k)) == k
  {
  }

  /** A two-digit padding is the tens digit and the units digit. */
  lemma PadTwo(n: nat)
    requires n < 100
    ensures Pad(n, 2) == [DigitChar(n / 10), DigitChar(n % 10)]
    ensures 10 * Digit(DigitChar(n / 10)) + Digit(DigitChar(n % 10)) == n
  {
    var t := n / 10;
    assert t < 10 && t % 10 == t && t / 10 == 0;
    assert Pad(t, 1) == Pad(0, 0) + [DigitChar(t % 10)];
    assert Pad(n, 2) == Pad(t, 1) + [DigitChar(n % 10)];
    DigitOfDigitChar(t);
    DigitOfDigitChar(n % 10);
  }

  /** Where the fields of a rendering sit. */
  lemma FormatDateLayout(d: Date)
    requires ValidDate(d)
    ensures FormatDate(d)[..4] == Pad(d.year, 4)
    ensures FormatDate(d)[5..7] == Pad(d.month, 2)
    ensures FormatDate(d)[8..] == Pad(d.day, 2)
  {
  }

  /** `strptime` reads back what `strftime` writes. */
  lemma ParseYmdOfFormat(d: Date)
    requires ValidDate(d)
    ensures ParseYmd(FormatDate(d)) == Some(d)
  {
    var s := FormatDate(d);
    FormatDateLayout(d);
    PadValue(d.year, 4);
    PadTwo(d.month);
    PadTwo(d.day);
    assert s[6] != '-' && s[7] == '-';
    MonthTokenTwoDigits(s[5..7]);
    DayTokenTwoDigits(s[8..]);
    ParseYmdOfFields(s, d.month, d.day);
  }

  /** A ten-character `YYYY-MM-DD` whose month and day fields read as `m`
      and `dd` names that date when it is a real one. */
  lemma ParseYmdOfFields(s: string, m: int, dd: int)
    requires |s| == 10 && AllDigitsIn(s[..4], 10) && s[4] == '-' && s[6] != '-' && s[7] == '-'
    requires MonthToken(s[5..7]) == Some(m) && DayToken(s[8..]) == Some(dd)
    requires ValidDate(Date(ValueIn(s[..4], 10), m, dd))
    ensures ParseYmd(s) == Some(Date(ValueIn(s[..4], 10), m, dd))
  {
  }

  /** The empty string and other text without the layout are rejected. */
  lemma ParseYmdRejectsShort(s: string)
    requires |s| < 8
    ensures ParseYmd(s) == None
  {
  }

  /** Two digits at `i` and `i + 1`. */
  predicate TwoDigitsAt(s: string, i: nat)
  {
    i + 1 < |s| && IsAsciiDigit(s[i]) && IsAsciiDigit(s[i + 1])
  }

  function TwoDigitValue(s: string, i: nat): int
    requires TwoDigitsAt(s, i)
  {
    10 * Digit(s[i]) + Digit(s[i + 1])
  }

  /** `HH[:MM[:SS[.fff|.ffffff]]]` with hour < 24, minute and second < 60: the
      time fields `fromisoformat` accepts (and, after a sign, the UTC offset). */
  predicate IsoClock(t: string) {
    TwoDigitsAt(t, 0) && TwoDigitValue(t, 0) < 24
    && (|t| == 2
        || (|t| >= 5 && t[2] == ':' && TwoDigitsAt(t, 3) && TwoDigitValue(t, 3) < 60
            && (|t| == 5
                || (|t| >= 8 && t[5] == ':' && TwoDigitsAt(t, 6) && TwoDigitValue(t, 6) < 60
                    && (|t| == 8
                        || ((|t| == 12 || |t| == 15) && t[8] == '.' && AllDecimalDigits(t[9..])))))))
  }

  /** Index of the first '+' or '-' in `t`, or `|t|`. */
  function SignIndex(t: string): (i: nat)
    ensures i <= |t| && (i < |t| ==> t[i] == '+' || t[i] == '-')
    ensures forall k :: 0 <= k < i ==> t[k] != '+' && t[k] != '-'
  {
    if t == [] || t[0] == '+' || t[0] == '-' then 0 else 1 + SignIndex(t[1..])
  }

  /** The time part after the separator: a clock, optionally followed by a
      signed offset. */
  predicate IsoTime(t: string) {
    var i := SignIndex(t);
    IsoClock(t[..i]) && (i == |t| || IsoClock(t[i + 1..]))
  }

  /** `datetime.fromisoformat(s)`, keeping only the date it names; `None` is a
      `ValueError`.  The date is `YYYY-MM-DD`; anything longer carries one
      separator character and an `IsoTime`. */
  function ParseIsoDateTime(s: string): (r: Option<Date>)
    ensures r.Some? ==> ValidDate(r.value) && |s| >= 10 && ParseYmd(s[..10]) == r
  {
    if |s| < 10 then None
    else if |s| > 10 && !IsoTime(s[11..]) then None
    else IsoDateField(s[..10])
  }

  /** The `YYYY-MM-DD` field of `fromisoformat`: exactly two digits for the
      month and the day, and a real date. */
  function IsoDateField(u: string): (r: Option<Date>)
    requires |u| == 10
    ensures r.Some? ==> ValidDate(r.value) && ParseYmd(u) == r
  {
    if u[4] != '-' || u[7] != '-' || !AllDigitsIn(u[..4], 10)
       || !TwoDigitsAt(u, 5) || !TwoDigitsAt(u, 8) then None
    else
      var d := Date(ValueIn(u[..4], 10), TwoDigitValue(u, 5), TwoDigitValue(u, 8));
      if ValidDate(d) then
        assert ParseYmd(u) == Some(d) by {
          MonthTokenTwoDigits(u[5..7]);
          DayTokenTwoDigits(u[8..]);
          ParseYmdOfFields(u, d.month, d.day);
        }
        Some(d)
      else None
  }

  /** `fromisoformat` reads back a rendered date. */
  lemma ParseIsoOfFormat(d: Date)
    requires ValidDate(d)
    ensures ParseIsoDateTime(FormatDate(d)) == Some(d)
  {
    var s := FormatDate(d);
    FormatDateLayout(d);
    PadValue(d.year, 4);
    PadTwo(d.month);
    PadTwo(d.day);
    assert TwoDigitsAt(s, 5) && TwoDigitValue(s, 5) == d.month;
    assert TwoDigitsAt(s, 8) && TwoDigitValue(s, 8) == d.day;
    assert s[..10] == s;
  }

  /** Text after a `YYYY-MM-DD` prefix is a separator and a time; it only
      decides whether the string parses, never which date it names. */
  lemma ParseIsoWithTime(s: string, rest: string)
    requires |s| == 10 && |rest| >= 1
    ensures ParseIsoDateTime(s + rest) == if IsoTime(rest[1..]) then ParseIsoDateTime(s) else None
  {
    var u := s + rest;
    assert u[..10] == s[..10] == s;
    assert u[11..] == rest[1..];
  }

  // ---------------------------------------------------------------------
  // Naive `datetime` values: a date and the microseconds since its midnight

  const MicrosPerSecond := 1_000_000
  const MicrosPerDay := 86_400_000_000

  datatype DateTime = DateTime(date: Date, micros: int)

  predicate ValidDateTime(t: DateTime) {
    ValidDate(t.date) && 0 <= t.micros < MicrosPerDay
  }

  /** `a <= b` on `datetime` values. */
  predicate DateTimeLe(a: DateTime, b: DateTime)
    requires ValidDateTime(a) && ValidDateTime(b)
  {
    DayNumber(a.date) < DayNumber(b.date) || (a.date == b.date && a.micros <= b.micros)
  }

  /** Midnight at the start of `d`: `datetime.strptime(d, '%Y-%m-%d')`. */
  function Midnight(d: Date): (t: DateTime)
    requires ValidDate(d)
    ensures ValidDateTime(t) && t.date == d
    ensures forall u :: ValidDateTime(u) && u.date == d ==> DateTimeLe(t, u)
  {
    DateTime(d, 0)
  }

  /** `t + timedelta(days=k)`: the same time of day `k` days later; `None`
      is an `OverflowError`. */
  function AddDaysAt(t: DateTime, k: int): (r: Option<DateTime>)
    requires ValidDateTime(t)
    ensures r.Some? <==> 0 <= DayNumber(t.date) + k <= MaxDayNumber
    ensures r.Some? ==> ValidDateTime(r.value) && DayNumber(r.value.date) == DayNumber(t.date) + k
                        && r.value.micros == t.micros
  {
    match AddDays(t.date, k)
    case None => None
    case Some(d) => Some(DateTime(d, t.micros))
  }

  /** `t - timedelta(seconds=1)`. */
  function MinusOneSecond(t: DateTime): (r: Option<DateTime>)
    requires ValidDateTime(t)
    ensures r.Some? <==> t.micros >= MicrosPerSecond || DayNumber(t.date) > 0
    ensures r.Some? ==> ValidDateTime(r.value)
    ensures r.Some? ==> DayNumber(r.value.date) * MicrosPerDay + r.value.micros
                        == DayNumber(t.date) * MicrosPerDay + t.micros - MicrosPerSecond
  {
    DayNumberRange(t.date);
    if t.micros >= MicrosPerSecond then Some(DateTime(t.date, t.micros - MicrosPerSecond))
    else match AddDays(t.date, -1)
      case None => None
      case Some(d) => Some(DateTime(d, t.micros + MicrosPerDay - MicrosPerSecond))
  }

  /** The first day of the month after `(y, m)`. */
  function NextMonthStart(y: int, m: int): Date {
    if m == 12 then Date(y + 1, 1, 1) else Date(y, m + 1, 1)
  }

  /** A month is `DaysInMonth` days long: the next month starts that many
      days after this one. */
  lemma NextMonthStartDayNumber(y: int, m: int)
    requires 1 <= y <= MaxYear && 1 <= m <= 12 && (y < MaxYear || m < 12)
    ensures ValidDate(Date(y, m, 1)) && ValidDate(NextMonthStart(y, m))
    ensures DayNumber(NextMonthStart(y, m)) == DayNumber(Date(y, m, 1)) + DaysInMonth(y, m)
  {
    if m == 12 {
      DaysBeforeMonthFullYear(y);
      DaysBeforeYearStep(y);
    }
  }
}

=== FILE: duration_input.dfy ===
/** The date-or-duration input (frontend/src/components/ui/date-duration-input.jsx):
    the guards of `calculateEndDate`, the effect that turns an existing end
    date back into a duration, and the digit filter of the duration field.
    The calendar step itself is JavaScript `Date` arithmetic and is not
    modelled: the guard answers with the step it would take, and the day
    difference the inference starts from is a parameter. */
module DurationInput {
  import opened Wrappers
  import opened Text
  import opened Numerals

  /** `DEFAULT_DURATION_UNITS`. */
  datatype Unit = Days | Months | Years

  function UnitId(u: Unit): string {
    match u
    case Days => "days"
    case Months => "months"
    case Years => "years"
  }

  /** Days per unit: 1, 30, 365. */
  function Multiplier(u: Unit): (r: nat)
    ensures r >= 1
  {
    match u
    case Days => 1
    case Months => 30
    case Years => 365
  }

  /** The `switch (unit)` of `calculateEndDate`: the three unit ids, and
      nothing else, name a unit. */
  function UnitOf(id: string): (r: Option<Unit>)
    ensures r.Some? ==> UnitId(r.value) == id
    ensures forall u :: UnitId(u) == id ==> r == Some(u)
  {
    if id == "days" then Some(Days)
    else if id == "months" then Some(Months)
    else if id == "years" then Some(Years)
    else None
  }

  /** The calendar step `calculateEndDate` would take. */
  datatype Step = Step(start: string, count: nat, unit: Unit)

  /** The guards of `calculateEndDate(start, value, unit)`: an empty start or
      value, a value `parseInt(value, 10)` reads as `NaN` or as zero or less,
      and an unknown unit all give `null`. */
  function CalculateEndDate(start: string, value: string, unit: string): (r: Option<Step>)
    ensures r.Some? <==>
              && start != "" && value != ""
              && JsParseInt(value, Decimal).Some? && JsParseInt(value, Decimal).value > 0
              && UnitOf(unit).Some?
    ensures r.Some? ==>
              && r.value.start == start
              && r.value.count == JsParseInt(value, Decimal).value
              && UnitId(r.value.unit) == unit
  {
    if start == "" || value == "" then None
    else
      match JsParseInt(value, Decimal)
      case None => None
      case Some(n) =>
        if n <= 0 then None
        else
          match UnitOf(unit)
          case None => None
          case Some(u) => Some(Step(start, n, u))
  }

  // ---------------------------------------------------------------------
  // Turning an end date back into a duration

  /** A duration as the field shows it. */
  datatype Duration = Duration(value: int, unit: Unit)

  /** The unit chosen for a difference of `diff` days: whole years if it is a
      positive multiple of 365, else whole months if it is a positive
      multiple of 30, else days. */
  function InferDuration(diff: int): (r: Duration)
    ensures r.value * Multiplier(r.unit) == diff
    ensures r.unit == Years <==> diff >= 365 && diff % 365 == 0
    ensures r.unit == Months <==> !(diff >= 365 && diff % 365 == 0) && diff >= 30 && diff % 30 == 0
  {
    if diff >= 365 && diff % 365 == 0 then Duration(diff / 365, Years)
    else if diff >= 30 && diff % 30 == 0 then Duration(diff / 30, Months)
    else Duration(diff, Days)
  }

  /** A difference divisible by both 30 and 365 is shown in years; 360 days
      are 12 months; zero and negative differences stay in days. */
  lemma InferenceExamples(diff: int)
    requires diff <= 0
    ensures InferDuration(10950) == Duration(30, Years)
    ensures InferDuration(360) == Duration(12, Months)
    ensures InferDuration(365) == Duration(1, Years)
    ensures InferDuration(diff) == Duration(diff, Days)
  {
  }

  /** The inferred count is positive exactly when the difference is. */
  lemma InferredCountPositive(diff: int)
    ensures InferDuration(diff).value > 0 <==> diff > 0
  {
  }

  /** The state the inference effect reads and writes. */
  datatype Field = Field(mode: string, startDate: string, endDate: string, value: string, unit: string)

  /** The effect that fills the duration from an existing end date: it runs
      in duration mode, with both dates set and the duration field empty,
      and writes `String(count)` and the unit's id. */
  function InferFromEndDate(f: Field, diffDays: int): (r: Field)
    ensures r.mode == f.mode && r.startDate == f.startDate && r.endDate == f.endDate
    ensures r != f <==> f.mode == "duration" && f.startDate != "" && f.endDate != "" && f.value == ""
  {
    if f.mode == "duration" && f.startDate != "" && f.endDate != "" && f.value == "" then
      var d := InferDuration(diffDays);
      f.(value := IntString(d.value), unit := UnitId(d.unit))
    else f
  }

  /** The inferred duration reads back through `calculateEndDate`'s guards as
      a step of the same number of days, whenever the end date is after the
      start; otherwise the guards refuse it and no end date is computed. */
  lemma InferredDurationReadsBack(f: Field, diffDays: int)
    requires f.mode == "duration" && f.startDate != "" && f.endDate != "" && f.value == ""
    ensures var g := InferFromEndDate(f, diffDays);
            var step := CalculateEndDate(g.startDate, g.value, g.unit);
            && (step.Some? <==> diffDays > 0)
            && (step.Some? ==> step.value.count * Multiplier(step.value.unit) == diffDays)
  {
    var d := InferDuration(diffDays);
    JsParseIntOfIntString(d.value, Decimal);
    assert UnitOf(UnitId(d.unit)) == Some(d.unit);
  }

  /** A second run of the effect changes nothing: the field is no longer
      empty. */
  lemma InferenceRunsOnce(f: Field, diffDays: int, laterDiff: int)
    ensures var g := InferFromEndDate(f, diffDays);
            InferFromEndDate(g, laterDiff) == g
  {
  }

  // ---------------------------------------------------------------------
  // The duration field

  /** `value.replace(/[^0-9]/g, "")`. */
  function DigitsOnly(s: string): (r: string)
    ensures |r| <= |s|
    ensures AllDecimalDigits(r)
  {
    if s == [] then []
    else (if IsAsciiDigit(s[0]) then [s[0]] else []) + DigitsOnly(s[1..])
  }

  /** The filter keeps every digit, in order, and leaves a digit string as
      it is. */
  lemma {:induction false} DigitsOnlyKeepsDigits(s: string)
    ensures AllDecimalDigits(s) ==> DigitsOnly(s) == s
    ensures forall c :: c in DigitsOnly(s) <==> c in s && IsAsciiDigit(c)
  {
    if s != [] {
      DigitsOnlyKeepsDigits(s[1..]);
      assert forall c :: c in s <==> c == s[0] || c in s[1..];
    }
  }

  lemma DigitsOnlyIdempotent(s: string)
    ensures DigitsOnly(DigitsOnly(s)) == DigitsOnly(s)
  {
    DigitsOnlyKeepsDigits(DigitsOnly(s));
  }

  /** What can be typed into the field reads as a number that is never
      negative, so only the all-zero entries are refused by the guards. */
  lemma TypedValueNotNegative(typed: string)
    requires DigitsOnly(typed) != ""
    ensures JsParseInt(DigitsOnly(typed), Decimal).Some?
    ensures JsParseInt(DigitsOnly(typed), Decimal).value >= 0
  {
    var s := DigitsOnly(typed);
    assert AllDigitsIn(s, 10) by {
      forall i | 0 <= i < |s|
        ensures IsDigitIn(s[i], 10)
      {
        assert IsAsciiDigit(s[i]);
      }
    }
    JsParseIntDigits(s, Decimal);
  }
}

=== FILE: expiry_status.dfy ===
/** The days-left banding of the front-end pages.  Every page computes the
    whole days from now to an end date (`Math.ceil` of a millisecond
    difference) and then bands it; that count is the input here, `None`
    when the record has no end date.
      - frontend/src/pages/org/OrgLicenses.js and OrgAMCContracts.js:
        `getStatus` and the "N days left" hint;
      - frontend/src/pages/admin/Licenses.js: the expiry cell;
      - frontend/src/pages/org/OrgDevices.js and
        frontend/src/pages/public/OrgWarrantyPage.js: `getWarrantyStatus`,
        and the public page's banner. */
module ExpiryStatus {
  import opened Wrappers
  import opened Numerals

  datatype Status = Active | Expiring | Expired | Unknown

  /** Thirty days or fewer left counts as expiring. */
  const ExpiringWindow := 30

  /** The band of a day count on the organisation pages: negative is
      expired, 0..30 expiring, more active. */
  function Band(d: int): (r: Status)
    ensures r != Unknown
    ensures r == Expired <==> d < 0
    ensures r == Expiring <==> 0 <= d <= ExpiringWindow
    ensures r == Active <==> d > ExpiringWindow
  {
    if d < 0 then Expired
    else if d <= ExpiringWindow then Expiring
    else Active
  }

  /** `getStatus` of OrgLicenses.js and OrgAMCContracts.js: a record without
      an end date is active. */
  function OrgStatus(daysLeft: Option<int>): (r: Status)
    ensures r != Unknown
    ensures daysLeft == None ==> r == Active
    ensures daysLeft.Some? ==> r == Band(daysLeft.value)
  {
    match daysLeft
    case None => Active
    case Some(d) => Band(d)
  }

  /** The "N days left" line under the end date. */
  predicate ShowsDaysLeftHint(daysLeft: Option<int>) {
    daysLeft.Some? && daysLeft.value <= 30 && daysLeft.value >= 0
  }

  /** The hint shows exactly for the expiring records. */
  lemma HintIffExpiring(daysLeft: Option<int>)
    ensures ShowsDaysLeftHint(daysLeft) <==> OrgStatus(daysLeft) == Expiring
  {
  }

  /** More days left never gives a worse band. */
  lemma BandMonotone(d1: int, d2: int)
    requires d1 <= d2
    ensures Band(d1) == Active ==> Band(d2) == Active
    ensures Band(d2) == Expired ==> Band(d1) == Expired
  {
  }

  // ---------------------------------------------------------------------
  // admin/Licenses.js

  datatype Colour = Green | Amber | Red

  /** The expiry cell of the admin licence table. */
  datatype ExpiryCell = Perpetual | NotSet | Counted(colour: Colour, text: string)

  /** A perpetual licence shows "Perpetual" whatever its end date; one
      without an end date shows "Not set"; otherwise more than 30 days is
      green, 1..30 amber, and 0 or less red "Expired". */
  function AdminExpiryCell(licenseType: string, daysLeft: Option<int>): (r: ExpiryCell)
    ensures licenseType == "perpetual" <==> r == Perpetual
    ensures licenseType != "perpetual" && daysLeft == None <==> r == NotSet
    ensures r.Counted? ==> (r.colour == Red <==> daysLeft.value <= 0)
    ensures r.Counted? ==> (r.colour == Green <==> daysLeft.value > 30)
    ensures r.Counted? ==> (r.text == "Expired" <==> daysLeft.value <= 0)
    ensures r.Counted? && daysLeft.value > 0 ==> r.text == IntString(daysLeft.value) + " days"
  {
    if licenseType == "perpetual" then Perpetual
    else match daysLeft
      case None => NotSet
      case Some(d) =>
        var colour := if d > 30 then Green else if d > 0 then Amber else Red;
        var text := if d > 0 then IntString(d) + " days" else "Expired";
        assert d > 0 ==> text[|text| - 1] == 's';
        Counted(colour, text)
  }

  /** On the expiry day itself the admin table says "Expired" while the
      organisation's page says "expiring". */
  lemma AdminAndOrgDisagreeOnDayZero()
    ensures AdminExpiryCell("subscription", Some(0)) == Counted(Red, "Expired")
    ensures OrgStatus(Some(0)) == Expiring
  {
  }

  /** On every other day the colours follow the organisation bands. */
  lemma AdminAgreesOffDayZero(licenseType: string, d: int)
    requires licenseType != "perpetual" && d != 0
    ensures var cell := AdminExpiryCell(licenseType, Some(d));
            && (cell.colour == Red <==> Band(d) == Expired)
            && (cell.colour == Amber <==> Band(d) == Expiring)
            && (cell.colour == Green <==> Band(d) == Active)
  {
  }

  // ---------------------------------------------------------------------
  // org/OrgDevices.js and public/OrgWarrantyPage.js

  /** What `getWarrantyStatus` returns; `days` is absent for `unknown`. */
  datatype WarrantyStatus = WarrantyStatus(status: Status, caption: string, days: Option<int>)

  /** `getWarrantyStatus(device)` of OrgDevices.js: no end date is unknown;
      an expiring device is labelled "<d>d left". */
  function DeviceWarrantyStatus(daysLeft: Option<int>): (r: WarrantyStatus)
    ensures daysLeft == None <==> r.status == Unknown
    ensures daysLeft.Some? ==> r.status == Band(daysLeft.value) && r.days == daysLeft
    ensures r.status == Expiring ==> r.caption == IntString(daysLeft.value) + "d left"
  {
    match daysLeft
    case None => WarrantyStatus(Unknown, "Unknown", None)
    case Some(d) =>
      if d < 0 then WarrantyStatus(Expired, "Expired", Some(d))
      else if d <= 30 then WarrantyStatus(Expiring, IntString(d) + "d left", Some(d))
      else WarrantyStatus(Active, "Active", Some(d))
  }

  /** `getWarrantyStatus(warrantyEnd)` of OrgWarrantyPage.js: the same bands,
      but an expired warranty reports how many days ago it ended. */
  function PublicWarrantyStatus(daysLeft: Option<int>): (r: WarrantyStatus)
    ensures daysLeft == None <==> r.status == Unknown
    ensures daysLeft.Some? ==> r.status == Band(daysLeft.value)
    ensures daysLeft.Some? ==> r.days == Some(if daysLeft.value < 0 then -daysLeft.value else daysLeft.value)
    ensures r.status == Expiring ==> r.caption == "Expiring Soon"
  {
    match daysLeft
    case None => WarrantyStatus(Unknown, "Unknown", None)
    case Some(d) =>
      if d < 0 then WarrantyStatus(Expired, "Expired", Some(-d))
      else if d <= 30 then WarrantyStatus(Expiring, "Expiring Soon", Some(d))
      else WarrantyStatus(Active, "Active", Some(d))
  }

  /** The two pages band alike and differ only in the expired day count's
      sign and the expiring label; the public count is never negative. */
  lemma DevicePagesAgree(daysLeft: Option<int>)
    ensures DeviceWarrantyStatus(daysLeft).status == PublicWarrantyStatus(daysLeft).status
    ensures PublicWarrantyStatus(daysLeft).days.Some? ==> PublicWarrantyStatus(daysLeft).days.value >= 0
    ensures DeviceWarrantyStatus(daysLeft).status == Expired ==>
              PublicWarrantyStatus(daysLeft).days.value == -DeviceWarrantyStatus(daysLeft).days.value
  {
  }

  /** The banner of the public result: red "Expired" whenever the server
      says the warranty is not active, whatever the client computed; amber
      only for an active warranty the client finds expiring. */
  datatype Banner = Banner(colour: Colour, title: string)

  function ResultBanner(warrantyActive: bool, client: WarrantyStatus): (r: Banner)
    ensures r.colour == Red <==> !warrantyActive
    ensures r.colour == Amber <==> warrantyActive && client.status == Expiring
    ensures !warrantyActive ==> r.title == "Expired"
  {
    if !warrantyActive then Banner(Red, "Expired")
    else Banner(if client.status == Expiring then Amber else Green,
                if client.caption != "" then client.caption else "Active")
  }

  /** A warranty the server still calls active whose date the client puts
      in the past shows a green banner titled "Expired". */
  lemma ServerAndClientCanDisagree(d: int)
    requires d < 0
    ensures ResultBanner(true, PublicWarrantyStatus(Some(d))) == Banner(Green, "Expired")
  {
  }

  /** "Protected under AMC Contract": coverage comes from an AMC contract
      and the device's own warranty is not active (missing counts as not
      active). */
  predicate ShowsAmcNote(coverageSource: Option<string>, deviceWarrantyActive: Option<bool>) {
    coverageSource == Some("amc_contract") && deviceWarrantyActive != Some(true)
  }

  /** The note is drawn inside the banner but reads neither the server's
      `warranty_active` nor the client's status: "Protected under AMC
      Contract" can sit under the red "Expired" banner as well as under a
      green or amber one, and a response without `device_warranty_active`
      shows it. */
  lemma AmcNoteUnderEveryBanner(client: WarrantyStatus, deviceWarrantyActive: Option<bool>)
    requires deviceWarrantyActive != Some(true)
    ensures ShowsAmcNote(Some("amc_contract"), deviceWarrantyActive) && ResultBanner(false, client) == Banner(Red, "Expired")
    ensures ShowsAmcNote(Some("amc_contract"), deviceWarrantyActive) && ResultBanner(true, client).colour != Red
  {
  }
}

=== FILE: feature_gate.dfy ===
/** Feature gating and usage limits of the tenant service
    (backend/services/saas_service.py, `get_plan_features` to
    `decrement_usage`): a tenant's effective feature map, the limit check with
    its strict `<` and its -1 "unlimited" sentinel, and the usage counters. */
module FeatureGate {
  import opened Wrappers
  import opened Plans
  import opened Tenants
  import opened Calendar

  /** `get_plan_features`: no organization gives `{}`; otherwise the plan named
      by `plan_id` (the first plan when none matches) with the overrides laid
      over it, unless the subscription has expired, which gives the free
      plan's features with no overrides. */
  function GetPlanFeatures(orgs: map<string, Org>, orgId: string): (r: Features)
    ensures orgId !in orgs ==> r == map[]
    ensures orgId in orgs && orgs[orgId].subscriptionStatus == "expired" ==> r == FreePlan.features
    ensures orgId in orgs && orgs[orgId].subscriptionStatus != "expired" ==>
              var base := PlanById(orgs[orgId].planId).features;
              var overrides := orgs[orgId].featureOverrides;
              && r.Keys == base.Keys + overrides.Keys
              && (forall k :: k in overrides ==> r[k] == overrides[k])
              && (forall k :: k in base && k !in overrides ==> r[k] == base[k])
  {
    if orgId !in orgs then map[]
    else
      var org := orgs[orgId];
      var features := PlanById(org.planId).features + org.featureOverrides;
      if org.subscriptionStatus == "expired" then
        var free := FreePlanByName();
        assert free == FreePlan by {
          assert free in DefaultPlans;
        }
        free.features
      else features
  }

  /** `check_feature_access`: the feature's value, `False` when absent.  The
      caller tests its truthiness. */
  function CheckFeatureAccess(orgs: map<string, Org>, orgId: string, feature: string): (r: FeatureValue)
    ensures orgId !in orgs ==> r == BoolV(false)
    ensures orgId in orgs && feature in orgs[orgId].featureOverrides && orgs[orgId].subscriptionStatus != "expired"
            ==> r == orgs[orgId].featureOverrides[feature]
    ensures orgId in orgs && feature !in orgs[orgId].featureOverrides && orgs[orgId].subscriptionStatus != "expired"
            ==> r == Get(PlanById(orgs[orgId].planId).features, feature, BoolV(false))
    ensures orgId in orgs && orgs[orgId].subscriptionStatus == "expired"
            ==> r == Get(FreePlan.features, feature, BoolV(false))
  {
    Get(GetPlanFeatures(orgs, orgId), feature, BoolV(false))
  }

  /** An expired tenant gets exactly what the free plan grants, whatever its
      plan and overrides say. */
  lemma ExpiredGetsFreeAccess(orgs: map<string, Org>, orgId: string, feature: string)
    requires orgId in orgs && orgs[orgId].subscriptionStatus == "expired"
    ensures CheckFeatureAccess(orgs, orgId, feature) == Get(FreePlan.features, feature, BoolV(false))
  {
  }

  /** The ticketing integration: refused on the free plan, granted on pro and
      enterprise, unless an override says otherwise. */
  lemma TicketingGate(orgs: map<string, Org>, orgId: string)
    requires orgId in orgs && orgs[orgId].subscriptionStatus != "expired"
    requires "osticket_integration" !in orgs[orgId].featureOverrides
    ensures CheckFeatureAccess(orgs, orgId, "osticket_integration").Truthy()
            <==> orgs[orgId].planId in {"plan_pro", "plan_enterprise"}
  {
    var p := PlanById(orgs[orgId].planId);
    assert p == FreePlan || p == ProPlan || p == EnterprisePlan;
    PlanFlags();
  }

  // ---------------------------------------------------------------------
  // Limits

  /** The feature key and the usage key of a limit type (`limit_map`). */
  function LimitKeys(limitType: string): (r: Option<(string, string)>)
    ensures r.Some? <==> limitType in {"devices", "users", "companies"}
  {
    if limitType == "devices" then Some(("max_devices", "device_count"))
    else if limitType == "users" then Some(("max_users", "user_count"))
    else if limitType == "companies" then Some(("max_companies", "company_count"))
    else None
  }

  /** Which of the four messages `check_limit` returns. */
  datatype LimitMessage = UnknownLimitType | Unlimited | UsedOf | LimitReached

  datatype LimitCheck = LimitCheck(allowed: bool, current: int, limit: FeatureValue, message: LimitMessage)

  /** Comparing an `int` with a string or `None` raises `TypeError`. */
  datatype LimitError = TypeError

  /** The usage counter `key` of the organization's record, 0 without a record
      or without the field. */
  function CurrentUsage(usage: map<string, UsageRecord>, orgId: string, key: string): int {
    if orgId in usage && key in usage[orgId].counters then usage[orgId].counters[key] else 0
  }

  /** `check_limit`. */
  function CheckLimit(t: Tenancy, orgId: string, limitType: string): (r: Result<LimitCheck, LimitError>)
    ensures LimitKeys(limitType).None? ==> r == Success(LimitCheck(true, 0, IntV(-1), UnknownLimitType))
    ensures LimitKeys(limitType).Some? ==>
              var (featureKey, usageKey) := LimitKeys(limitType).value;
              var limit := Get(GetPlanFeatures(t.orgs, orgId), featureKey, IntV(0));
              var current := CurrentUsage(t.usage, orgId, usageKey);
              && (limit == IntV(-1) ==> r == Success(LimitCheck(true, current, IntV(-1), Unlimited)))
              && (limit != IntV(-1) && limit.AsNumber().Some? ==>
                    r.Success? && r.value.current == current && r.value.limit == limit
                    && (r.value.allowed <==> current < limit.AsNumber().value)
                    && (r.value.message == LimitReached <==> !r.value.allowed))
              && (limit.AsNumber().None? ==> r == Failure(TypeError))
  {
    match LimitKeys(limitType)
    case None => Success(LimitCheck(true, 0, IntV(-1), UnknownLimitType))
    case Some((featureKey, usageKey)) =>
      var limit := Get(GetPlanFeatures(t.orgs, orgId), featureKey, IntV(0));
      var current := CurrentUsage(t.usage, orgId, usageKey);
      if limit == IntV(-1) then Success(LimitCheck(true, current, IntV(-1), Unlimited))
      else match limit.AsNumber()
        case None => Failure(TypeError)
        case Some(n) =>
          var allowed := current < n;
          Success(LimitCheck(allowed, current, limit, if allowed then UsedOf else LimitReached))
  }

  /** A tenant that does not exist has limit 0: it is refused unless its
      counter is negative. */
  lemma MissingOrgRefused(t: Tenancy, orgId: string, limitType: string)
    requires orgId !in t.orgs && LimitKeys(limitType).Some?
    ensures CheckLimit(t, orgId, limitType).Success?
    ensures CheckLimit(t, orgId, limitType).value.allowed
            <==> CurrentUsage(t.usage, orgId, LimitKeys(limitType).value.1) < 0
  {
  }

  /** An enterprise tenant in good standing, with no override of the cap, is
      never refused. */
  lemma EnterpriseUnlimited(t: Tenancy, orgId: string, limitType: string)
    requires orgId in t.orgs && t.orgs[orgId].planId == "plan_enterprise"
    requires t.orgs[orgId].subscriptionStatus != "expired"
    requires LimitKeys(limitType).Some? && LimitKeys(limitType).value.0 !in t.orgs[orgId].featureOverrides
    ensures CheckLimit(t, orgId, limitType).Success? && CheckLimit(t, orgId, limitType).value.allowed
  {
    var key := LimitKeys(limitType).value.0;
    assert Get(GetPlanFeatures(t.orgs, orgId), key, IntV(0)) == IntV(-1) by {
      PlanByKnownId();
      EnterprisePlanCaps();
    }
    UnlimitedAllows(t, orgId, limitType);
  }

  /** The -1 sentinel allows whatever the count. */
  lemma UnlimitedAllows(t: Tenancy, orgId: string, limitType: string)
    requires LimitKeys(limitType).Some?
    requires Get(GetPlanFeatures(t.orgs, orgId), LimitKeys(limitType).value.0, IntV(0)) == IntV(-1)
    ensures CheckLimit(t, orgId, limitType).Success? && CheckLimit(t, orgId, limitType).value.allowed
  {
  }

  /** A numeric cap other than -1 allows exactly the counts below it. */
  lemma CapLimits(t: Tenancy, orgId: string, limitType: string, cap: int)
    requires LimitKeys(limitType).Some? && cap != -1
    requires Get(GetPlanFeatures(t.orgs, orgId), LimitKeys(limitType).value.0, IntV(0)) == IntV(cap)
    ensures CheckLimit(t, orgId, limitType).Success?
    ensures CheckLimit(t, orgId, limitType).value.limit == IntV(cap)
    ensures CheckLimit(t, orgId, limitType).value.current == CurrentUsage(t.usage, orgId, LimitKeys(limitType).value.1)
    ensures CheckLimit(t, orgId, limitType).value.allowed
            <==> CurrentUsage(t.usage, orgId, LimitKeys(limitType).value.1) < cap
  {
  }

  /** A tenant on the free plan without overrides gets the free plan's
      features, in good standing or not. */
  lemma FreeTenantFeatures(orgs: map<string, Org>, orgId: string)
    requires orgId in orgs && orgs[orgId].planId == "plan_free" && orgs[orgId].featureOverrides == map[]
    ensures GetPlanFeatures(orgs, orgId) == FreePlan.features
  {
    PlanByKnownId();
    assert FreePlan.features + map[] == FreePlan.features;
  }

  /** The free plan, on a tenant in good standing without overrides, allows
      a device exactly while fewer than ten are recorded. */
  lemma FreePlanDeviceCap(t: Tenancy, orgId: string)
    requires orgId in t.orgs && t.orgs[orgId].planId == "plan_free"
    requires t.orgs[orgId].featureOverrides == map[]
    ensures CheckLimit(t, orgId, "devices").Success?
    ensures CheckLimit(t, orgId, "devices").value.allowed <==> CurrentUsage(t.usage, orgId, "device_count") < 10
  {
    assert LimitKeys("devices") == Some(("max_devices", "device_count"));
    assert Get(GetPlanFeatures(t.orgs, orgId), "max_devices", IntV(0)) == IntV(10) by {
      FreeTenantFeatures(t.orgs, orgId);
      FreePlanCaps();
    }
    CapLimits(t, orgId, "devices", 10);
  }

  // ---------------------------------------------------------------------
  // Usage counters

  /** `update_one({"org_id": …}, {"$inc": {key: delta}, "$set": {"updated_at": now}})`:
      a missing field counts as 0, a missing record makes it a no-op. */
  function AdjustUsage(usage: map<string, UsageRecord>, orgId: string, key: string, delta: int, now: DateTime)
    : (r: map<string, UsageRecord>)
    ensures orgId !in usage ==> r == usage
    ensures orgId in usage ==>
              && r.Keys == usage.Keys
              && (forall o :: o in usage && o != orgId ==> r[o] == usage[o])
              && r[orgId] == usage[orgId].(counters := r[orgId].counters, updatedAt := now)
              && r[orgId].counters.Keys == usage[orgId].counters.Keys + {key}
              && r[orgId].counters[key] == CurrentUsage(usage, orgId, key) + delta
              && (forall k :: k in usage[orgId].counters && k != key ==> r[orgId].counters[k] == usage[orgId].counters[k])
  {
    if orgId !in usage then usage
    else
      var rec := usage[orgId];
      var prior := if key in rec.counters then rec.counters[key] else 0;
      usage[orgId := rec.(counters := rec.counters[key := prior + delta], updatedAt := now)]
  }

  /** The field a usage type counts in. */
  function UsageKey(usageType: string): string {
    usageType + "_count"
  }

  /** `increment_usage(org_id, usage_type, amount)`. */
  function IncrementUsage(usage: map<string, UsageRecord>, orgId: string, usageType: string, amount: int, now: DateTime)
    : (r: map<string, UsageRecord>)
    ensures orgId in usage ==> CurrentUsage(r, orgId, UsageKey(usageType)) == CurrentUsage(usage, orgId, UsageKey(usageType)) + amount
    ensures orgId !in usage ==> r == usage
  {
    AdjustUsage(usage, orgId, UsageKey(usageType), amount, now)
  }

  /** `decrement_usage`: the same with `-amount`; nothing keeps the counter
      from going below zero. */
  function DecrementUsage(usage: map<string, UsageRecord>, orgId: string, usageType: string, amount: int, now: DateTime)
    : (r: map<string, UsageRecord>)
    ensures orgId in usage ==> CurrentUsage(r, orgId, UsageKey(usageType)) == CurrentUsage(usage, orgId, UsageKey(usageType)) - amount
    ensures orgId !in usage ==> r == usage
  {
    AdjustUsage(usage, orgId, UsageKey(usageType), -amount, now)
  }

  /** Decrementing by the amount just added restores every counter that
      existed; a counter the increment created stays, at 0. */
  lemma DecrementUndoesIncrement(usage: map<string, UsageRecord>, orgId: string, usageType: string,
                                 amount: int, t1: DateTime, t2: DateTime)
    requires orgId in usage
    ensures var r := DecrementUsage(IncrementUsage(usage, orgId, usageType, amount, t1), orgId, usageType, amount, t2);
            var key := UsageKey(usageType);
            && r.Keys == usage.Keys
            && r[orgId].counters == usage[orgId].counters[key := CurrentUsage(usage, orgId, key)]
            && r[orgId] == usage[orgId].(counters := r[orgId].counters, updatedAt := t2)
  {
    var key := UsageKey(usageType);
    var r := DecrementUsage(IncrementUsage(usage, orgId, usageType, amount, t1), orgId, usageType, amount, t2);
    assert r[orgId].counters.Keys == usage[orgId].counters.Keys + {key};
  }

  /** A decrement can drive a counter negative. */
  lemma DecrementHasNoFloor(usage: map<string, UsageRecord>, orgId: string, usageType: string, now: DateTime)
    requires orgId in usage && CurrentUsage(usage, orgId, UsageKey(usageType)) == 0
    ensures CurrentUsage(DecrementUsage(usage, orgId, usageType, 1, now), orgId, UsageKey(usageType)) == -1
  {
  }

  /** Check-then-act: when a numeric limit allows one more device, recording
      it leaves the count within the limit. */
  lemma CheckThenIncrementStaysWithinLimit(t: Tenancy, orgId: string, now: DateTime)
    requires orgId in t.usage
    requires CheckLimit(t, orgId, "devices").Success?
    requires CheckLimit(t, orgId, "devices").value.allowed
    requires CheckLimit(t, orgId, "devices").value.limit.IntV?
    requires CheckLimit(t, orgId, "devices").value.limit != IntV(-1)
    ensures CurrentUsage(IncrementUsage(t.usage, orgId, "device", 1, now), orgId, "device_count")
            <= CheckLimit(t, orgId, "devices").value.limit.i
  {
    var c := CheckLimit(t, orgId, "devices").value;
    assert c.current == CurrentUsage(t.usage, orgId, "device_count") && c.current < c.limit.i by {
      assert LimitKeys("devices") == Some(("max_devices", "device_count"));
      NumericCheck(t, orgId, "devices");
    }
    DeviceCountKey();
  }

  /** Devices are counted in `device_count`. */
  lemma DeviceCountKey()
    ensures UsageKey("device") == "device_count"
  {
  }

  /** A numeric answer other than -1 reports the counter it read and allows
      exactly the counts below the limit. */
  lemma NumericCheck(t: Tenancy, orgId: string, limitType: string)
    requires CheckLimit(t, orgId, limitType).Success?
    requires CheckLimit(t, orgId, limitType).value.limit.IntV?
    requires CheckLimit(t, orgId, limitType).value.limit != IntV(-1)
    ensures LimitKeys(limitType).Some?
    ensures CheckLimit(t, orgId, limitType).value.current == CurrentUsage(t.usage, orgId, LimitKeys(limitType).value.1)
    ensures CheckLimit(t, orgId, limitType).value.allowed
            <==> CheckLimit(t, orgId, limitType).value.current < CheckLimit(t, orgId, limitType).value.limit.i
  {
  }
}

=== FILE: numerals.dfy ===
/** Decimal rendering of natural numbers (Python `str(n)`, JavaScript template
    strings) and the JavaScript `parseInt` conversion used by the front-end
    forms.  JavaScript numbers are modelled as unbounded integers and `NaN`
    as `None`. */
module Numerals {
  import opened Wrappers
  import opened Text

  /** Value of `c` as a digit of base 16 or less: '0'..'9' and, in either case,
      'a'..'f'. */
  function DigitValue(c: char): (r: Option<nat>)
    ensures r.Some? ==> r.value < 16
    ensures IsAsciiDigit(c) <==> r.Some? && r.value < 10
  {
    if IsAsciiDigit(c) then Some(c as int - '0' as int)
    else if 'a' <= c <= 'f' then Some(c as int - 'a' as int + 10)
    else if 'A' <= c <= 'F' then Some(c as int - 'A' as int + 10)
    else None
  }

  predicate IsDigitIn(c: char, base: nat) {
    DigitValue(c).Some? && DigitValue(c).value < base
  }

  predicate AllDigitsIn(s: string, base: nat) {
    forall i :: 0 <= i < |s| ==> IsDigitIn(s[i], base)
  }

  predicate AllDecimalDigits(s: string) {
    forall i :: 0 <= i < |s| ==> IsAsciiDigit(s[i])
  }

  /** The decimal digit for `d`. */
  function DigitChar(d: nat): (c: char)
    requires d < 10
    ensures IsAsciiDigit(c) && DigitValue(c) == Some(d)
  {
    ('0' as int + d) as char
  }

  /** Value of a digit string in `base`, most significant digit first. */
  function ValueIn(s: string, base: nat): nat
    requires AllDigitsIn(s, base)
  {
    if s == [] then 0
    else base * ValueIn(s[..|s| - 1], base) + DigitValue(s[|s| - 1]).value
  }

  /** Decimal rendering of `n` without leading zeros. */
  function NatToString(n: nat): (s: string)
    ensures |s| >= 1 && AllDecimalDigits(s) && AllDigitsIn(s, 10)
    ensures s[0] == '0' ==> n == 0 && s == "0"
  {
    if n < 10 then [DigitChar(n)] else NatToString(n / 10) + [DigitChar(n % 10)]
  }

  /** Reading back a rendering gives the number. */
  lemma {:induction false} ValueOfNatToString(n: nat)
    ensures ValueIn(NatToString(n), 10) == n
  {
    if n >= 10 {
      var s := NatToString(n);
      assert s[..|s| - 1] == NatToString(n / 10);
      ValueOfNatToString(n / 10);
    }
  }

  /** Distinct numbers have distinct renderings. */
  lemma NatToStringInjective(a: nat, b: nat)
    ensures NatToString(a) == NatToString(b) <==> a == b
  {
    ValueOfNatToString(a);
    ValueOfNatToString(b);
  }

  lemma {:induction false} LeadingNonZeroPositive(s: string)
    requires |s| >= 1 && AllDigitsIn(s, 10) && s[0] != '0'
    ensures ValueIn(s, 10) > 0
    decreases |s|
  {
    if |s| > 1 {
      LeadingNonZeroPositive(s[..|s| - 1]);
    }
  }

  /** Every canonical digit string (no leading zero unless it is "0") is the
      rendering of its value, so `NatToString` is onto the canonical strings. */
  lemma {:induction false} NatToStringOfValue(s: string)
    requires |s| >= 1 && AllDigitsIn(s, 10) && (s[0] == '0' ==> |s| == 1)
    ensures NatToString(ValueIn(s, 10)) == s
    decreases |s|
  {
    if |s| > 1 {
      var p := s[..|s| - 1];
      LeadingNonZeroPositive(p);
      NatToStringOfValue(p);
      var v := ValueIn(s, 10);
      assert v / 10 == ValueIn(p, 10) && v % 10 == DigitValue(s[|s| - 1]).value;
      assert s == p + [s[|s| - 1]];
    }
  }

  /** Number of leading characters of `s` that are digits of `base`. */
  function DigitPrefixLength(s: string, base: nat): (k: nat)
    ensures k <= |s| && AllDigitsIn(s[..k], base)
    ensures k < |s| ==> !IsDigitIn(s[k], base)
  {
    if s != [] && IsDigitIn(s[0], base) then
      var k := 1 + DigitPrefixLength(s[1..], base);
      assert s[..k] == [s[0]] + s[1..][..k - 1];
      k
    else 0
  }

  /** The radix argument of `parseInt`: an explicit 10, or none (which honours
      a "0x" prefix). */
  datatype Radix = Decimal | Auto

  /** A sign read off the front of a number, and the text after it. */
  datatype Signed = Signed(negative: bool, rest: string)

  /** An optional '-' or '+'. */
  function SignOf(t: string): (r: Signed)
    ensures t != [] && t[0] == '-' ==> r == Signed(true, t[1..])
    ensures t != [] && t[0] == '+' ==> r == Signed(false, t[1..])
    ensures (t == [] || (t[0] != '-' && t[0] != '+')) ==> r == Signed(false, t)
  {
    if t != [] && t[0] == '-' then Signed(true, t[1..])
    else if t != [] && t[0] == '+' then Signed(false, t[1..])
    else Signed(false, t)
  }

  /** The unsigned part of `parseInt`: with no radix an optional "0x"/"0X"
      switches to base 16; then the longest run of digits is read, `None`
      when there is none. */
  function UnsignedValue(u: string, radix: Radix): Option<nat> {
    var hex := radix == Auto && |u| >= 2 && u[0] == '0' && (u[1] == 'x' || u[1] == 'X');
    var base := if hex then 16 else 10;
    var w := if hex then u[2..] else u;
    var k := DigitPrefixLength(w, base);
    if k == 0 then None else Some(ValueIn(w[..k], base))
  }

  /** `parseInt(s, radix)`: skip leading whitespace, take an optional sign,
      then the unsigned part; `None` stands for `NaN`. */
  function JsParseInt(s: string, radix: Radix): (r: Option<int>)
    ensures TrimStart(s, JsIsSpace) == [] ==> r.None?
    ensures var t := TrimStart(s, JsIsSpace);
      t != [] && t[0] != '-' && t[0] != '+' && !IsDigitIn(t[0], 10) ==> r.None?
    ensures var t := TrimStart(s, JsIsSpace);
      t != [] && IsDigitIn(t[0], 10) && (radix == Decimal || t[0] != '0' || |t| == 1 || (t[1] != 'x' && t[1] != 'X'))
      ==> r.Some? && r.value >= 0
  {
    var sg := SignOf(TrimStart(s, JsIsSpace));
    match UnsignedValue(sg.rest, radix)
    case None => None
    case Some(v) => Some(if sg.negative then -(v as int) else v as int)
  }

  /** `parseInt(s) || d`: `NaN` and 0 are falsy and give the default. */
  function ParseIntOr(s: string, radix: Radix, d: int): (r: int)
    ensures JsParseInt(s, radix).Some? && JsParseInt(s, radix).value != 0 ==> r == JsParseInt(s, radix).value
    ensures JsParseInt(s, radix) == None || JsParseInt(s, radix) == Some(0) ==> r == d
  {
    match JsParseInt(s, radix)
    case Some(v) => if v != 0 then v else d
    case None => d
  }

  /** A string of digits is its own digit prefix. */
  lemma DigitPrefixAll(s: string, base: nat)
    requires AllDigitsIn(s, base)
    ensures DigitPrefixLength(s, base) == |s|
  {
  }

  /** A non-empty run of decimal digits reads as its value under either
      radix: its second character is never an 'x'. */
  lemma UnsignedOfDigits(u: string, radix: Radix)
    requires |u| >= 1 && AllDigitsIn(u, 10)
    ensures UnsignedValue(u, radix) == Some(ValueIn(u, 10))
  {
    assert |u| >= 2 ==> IsDigitIn(u[1], 10) && u[1] != 'x' && u[1] != 'X';
    DigitPrefixAll(u, 10);
    assert u[..|u|] == u;
  }

  /** A string of decimal digits parses, under either radix, to its value. */
  lemma JsParseIntDigits(s: string, radix: Radix)
    requires |s| >= 1 && AllDigitsIn(s, 10)
    ensures JsParseInt(s, radix) == Some(ValueIn(s, 10))
  {
    assert IsDigitIn(s[0], 10);
    assert !JsIsSpace(s[0]) && s[0] != '-' && s[0] != '+';
    TrimStartNoop(s, JsIsSpace);
    assert SignOf(s) == Signed(false, s);
    UnsignedOfDigits(s, radix);
  }

  /** A minus sign before a string of decimal digits negates its value. */
  lemma JsParseIntNegative(s: string, radix: Radix)
    requires |s| >= 2 && s[0] == '-' && AllDigitsIn(s[1..], 10)
    ensures JsParseInt(s, radix) == Some(-(ValueIn(s[1..], 10) as int))
  {
    TrimStartNoop(s, JsIsSpace);
    assert SignOf(s) == Signed(true, s[1..]);
    UnsignedOfDigits(s[1..], radix);
  }

  /** `parseInt` reads back every rendered natural number. */
  lemma JsParseIntOfNatToString(n: nat, radix: Radix)
    ensures JsParseInt(NatToString(n), radix) == Some(n)
  {
    JsParseIntDigits(NatToString(n), radix);
    ValueOfNatToString(n);
  }

  /** `String(n)` for an integer. */
  function IntString(n: int): (s: string)
    ensures |s| >= 1
    ensures n >= 0 ==> s == NatToString(n)
    ensures n < 0 ==> s == "-" + NatToString(-n)
  {
    if n < 0 then "-" + NatToString(-n) else NatToString(n)
  }

  /** `parseInt(String(n))` gives `n` back, negative or not. */
  lemma JsParseIntOfIntString(n: int, radix: Radix)
    ensures JsParseInt(IntString(n), radix) == Some(n)
  {
    if n >= 0 {
      JsParseIntOfNatToString(n, radix);
    } else {
      JsParseIntOfNegativeString(-n, radix);
    }
  }

  /** `parseInt` reads back a rendered negative number. */
  lemma JsParseIntOfNegativeString(m: nat, radix: Radix)
    requires m > 0
    ensures JsParseInt("-" + NatToString(m), radix) == Some(-(m as int))
  {
    var s := "-" + NatToString(m);
    assert s[0] == '-' && s[1..] == NatToString(m);
    JsParseIntNegative(s, radix);
    ValueOfNatToString(m);
  }

  /** Text that starts with no digit of any base has no unsigned part. */
  lemma UnsignedNone(u: string, radix: Radix)
    requires u == [] || !IsDigitIn(u[0], 16)
    ensures UnsignedValue(u, radix) == None
  {
    assert u != [] ==> !IsDigitIn(u[0], 10);
  }

  /** Input without a single digit after the blanks and the sign is `NaN`. */
  lemma JsParseIntNaN(s: string, radix: Radix)
    requires forall i :: 0 <= i < |s| ==> !IsDigitIn(s[i], 16)
    ensures JsParseInt(s, radix) == None
  {
    var t := TrimStart(s, JsIsSpace);
    var u := SignOf(t).rest;
    assert |u| <= |t| && u == t[|t| - |u|..];
    if u != [] {
      assert u[0] == s[|s| - |u|];
    }
    UnsignedNone(u, radix);
  }
}

=== FILE: onboarding.dfy ===
/** Tenant onboarding and login (backend/services/saas_service.py,
    `create_organization` and `authenticate_org_user`): the slug choice with
    its `base`, `base-1`, `base-2`, ... loop, the subdomain-then-email
    conflict checks, the three records a signup writes with the calendar-month
    billing period, and the case-insensitive login.  Identifiers, the clock
    and the password hash are parameters. */
module Onboarding {
  import opened Wrappers
  import opened Text
  import opened Numerals
  import opened Calendar
  import opened Plans
  import opened Tenants
  import opened FeatureGate
  import opened Slugs

  /** `TRIAL_DAYS`. */
  const TrialDays := 14

  // ---------------------------------------------------------------------
  // Slug choice

  /** The `k`-th slug the loop tries: `base`, then `base-1`, `base-2`, ... */
  function Candidate(base: string, k: nat): string {
    if k == 0 then base else base + "-" + NatToString(k)
  }

  lemma CandidatesDistinct(base: string, a: nat, b: nat)
    ensures Candidate(base, a) == Candidate(base, b) <==> a == b
  {
    if a != b && a != 0 && b != 0 && Candidate(base, a) == Candidate(base, b) {
      var n := |base| + 1;
      assert Candidate(base, a)[n..] == NatToString(a);
      assert Candidate(base, b)[n..] == NatToString(b);
      NatToStringInjective(a, b);
    }
  }

  /** The slugs stored in `organizations`. */
  function UsedSlugs(orgs: map<string, Org>): (r: set<string>)
    ensures forall s :: s in r <==> SlugInUse(orgs, s)
  {
    set id | id in orgs && orgs[id].slug.Some? :: orgs[id].slug.value
  }

  ghost function CandidatesBelow(base: string, k: nat): set<string> {
    set i | 0 <= i < k :: Candidate(base, i)
  }

  lemma {:induction false} CandidatesBelowSize(base: string, k: nat)
    ensures |CandidatesBelow(base, k)| == k
  {
    if k > 0 {
      var below, last := CandidatesBelow(base, k - 1), Candidate(base, k - 1);
      CandidatesBelowSize(base, k - 1);
      assert CandidatesBelow(base, k) == below + {last};
      assert last !in below by {
        if last in below {
          var i :| 0 <= i < k - 1 && Candidate(base, i) == last;
          CandidatesDistinct(base, i, k - 1);
        }
      }
    }
  }

  /** The loop cannot run forever: `n` distinct taken candidates need `n`
      stored slugs. */
  lemma TakenCandidatesFit(base: string, used: set<string>, n: nat)
    requires forall i :: 0 <= i < n ==> Candidate(base, i) in used
    ensures n <= |used|
  {
    CandidatesBelowSize(base, n);
    SubsetSize(CandidatesBelow(base, n), used);
  }

  lemma {:induction false} SubsetSize<T>(a: set<T>, b: set<T>)
    requires a <= b
    ensures |a| <= |b|
  {
    if a != {} {
      var x :| x in a;
      SubsetSize(a - {x}, b - {x});
    }
  }

  /** The `while find_one({"slug": final_slug})` loop, continued from
      candidate `k`: the index of the first candidate not in `used`. */
  function FirstFreeFrom(base: string, used: set<string>, k: nat): (j: nat)
    requires forall i :: 0 <= i < k ==> Candidate(base, i) in used
    ensures k <= j && Candidate(base, j) !in used
    ensures forall i :: 0 <= i < j ==> Candidate(base, i) in used
    decreases |used| - k
  {
    if Candidate(base, k) !in used then k
    else
      TakenCandidatesFit(base, used, k + 1);
      FirstFreeFrom(base, used, k + 1)
  }

  /** The slug `create_organization` checks: the argument lower-cased and
      stripped when it is truthy, else the first free candidate built from
      `generate_slug(name)`. */
  function ChooseSlug(orgs: map<string, Org>, name: string, slug: Option<string>): (r: string)
    ensures Present(slug) ==> r == PyStrip(Lower(slug.value))
    ensures !Present(slug) ==> !SlugInUse(orgs, r)
    ensures !Present(slug) ==> exists j: nat :: r == Candidate(GenerateSlug(name), j)
                                   && forall i :: 0 <= i < j ==> SlugInUse(orgs, Candidate(GenerateSlug(name), i))
  {
    if Present(slug) then PyStrip(Lower(slug.value)) else FirstFreeSlug(orgs, GenerateSlug(name))
  }

  /** The first of `base`, `base-1`, `base-2`, ... that no organisation
      holds. */
  function FirstFreeSlug(orgs: map<string, Org>, base: string): (r: string)
    ensures !SlugInUse(orgs, r)
    ensures exists j: nat :: r == Candidate(base, j)
                             && forall i :: 0 <= i < j ==> SlugInUse(orgs, Candidate(base, i))
  {
    var j := FirstFreeFrom(base, UsedSlugs(orgs), 0);
    Candidate(base, j)
  }

  // ---------------------------------------------------------------------
  // The billing period

  /** `now.replace(day=1, hour=0, minute=0, second=0)`: midnight on the first
      of the month, keeping the microseconds; never later than `now`. */
  function PeriodStart(now: DateTime): (r: DateTime)
    requires ValidDateTime(now)
    ensures ValidDateTime(r) && DateTimeLe(r, now)
    ensures r.date == Date(now.date.year, now.date.month, 1)
    ensures r.micros == now.micros % MicrosPerSecond
  {
    var r := DateTime(Date(now.date.year, now.date.month, 1), now.micros % MicrosPerSecond);
    DayNumberOrder(r.date, now.date);
    r
  }

  /** `(start + timedelta(days=32)).replace(day=1) - timedelta(seconds=1)`;
      `None` is the `OverflowError` past year 9999. */
  function PeriodEnd(start: DateTime): (r: Option<DateTime>)
    requires ValidDateTime(start)
  {
    match AddDaysAt(start, 32)
    case None => None
    case Some(later) => MinusOneSecond(DateTime(Date(later.date.year, later.date.month, 1), later.micros))
  }

  lemma LastMonthStart()
    ensures ValidDate(Date(MaxYear, 12, 1)) && DayNumber(Date(MaxYear, 12, 1)) == MaxDayNumber - 30
  {
    var last := Date(MaxYear, 12, 31);
    DayNumberRange(last);
    if DayNumber(last) < MaxDayNumber {
      var e := FromDayNumber(DayNumber(last) + 1);
      DayNumberOrder(last, e);
    }
  }

  /** Thirty-two days after the first of a month is a day early in the next
      month. */
  lemma ThirtyTwoDaysLater(y: int, m: int)
    requires 1 <= y <= MaxYear && 1 <= m <= 12 && (y < MaxYear || m < 12)
    ensures ValidDate(Date(y, m, 1)) && AddDays(Date(y, m, 1), 32).Some?
    ensures AddDays(Date(y, m, 1), 32).value.year == NextMonthStart(y, m).year
    ensures AddDays(Date(y, m, 1), 32).value.month == NextMonthStart(y, m).month
  {
    NextMonthStartDayNumber(y, m);
    var next := NextMonthStart(y, m);
    var dd := Date(next.year, next.month, 33 - DaysInMonth(y, m));
    assert ValidDate(dd);
    DayNumberRange(dd);
    var later := AddDays(Date(y, m, 1), 32).value;
    DayNumberOrder(dd, later);
  }

  lemma PeriodEndOverflows(micros: int)
    requires 0 <= micros < MicrosPerSecond
    ensures ValidDateTime(DateTime(Date(MaxYear, 12, 1), micros))
    ensures PeriodEnd(DateTime(Date(MaxYear, 12, 1), micros)) == None
  {
    LastMonthStart();
  }

  /** The day before the first of the next month is the last of this one. */
  lemma DayBeforeNextMonth(y: int, m: int)
    requires 1 <= y <= MaxYear && 1 <= m <= 12 && (y < MaxYear || m < 12)
    ensures ValidDate(NextMonthStart(y, m))
    ensures AddDays(NextMonthStart(y, m), -1) == Some(Date(y, m, DaysInMonth(y, m)))
  {
    NextMonthStartDayNumber(y, m);
    var last := Date(y, m, DaysInMonth(y, m));
    assert DayNumber(last) == DayNumber(Date(y, m, 1)) + DaysInMonth(y, m) - 1;
    AddDaysToward(NextMonthStart(y, m), last, -1);
  }

  lemma PeriodEndInRange(y: int, m: int, micros: int)
    requires 1 <= y <= MaxYear && 1 <= m <= 12 && (y < MaxYear || m < 12)
    requires 0 <= micros < MicrosPerSecond
    ensures ValidDateTime(DateTime(Date(y, m, 1), micros))
    ensures PeriodEnd(DateTime(Date(y, m, 1), micros))
            == Some(DateTime(Date(y, m, DaysInMonth(y, m)), MicrosPerDay - MicrosPerSecond + micros))
  {
    ThirtyTwoDaysLater(y, m);
    DayBeforeNextMonth(y, m);
    var start := DateTime(Date(y, m, 1), micros);
    var later := AddDaysAt(start, 32).value;
    var next := NextMonthStart(y, m);
    assert Date(later.date.year, later.date.month, 1) == next;
    assert PeriodEnd(start) == MinusOneSecond(DateTime(next, micros));
    MinusOneSecondFromMidnight(next, micros);
  }

  /** Within the first second of a day, one second earlier is the day
      before. */
  lemma MinusOneSecondFromMidnight(d: Date, micros: int)
    requires ValidDate(d) && 0 <= micros < MicrosPerSecond && AddDays(d, -1).Some?
    ensures ValidDateTime(DateTime(d, micros))
    ensures MinusOneSecond(DateTime(d, micros))
            == Some(DateTime(AddDays(d, -1).value, MicrosPerDay - MicrosPerSecond + micros))
  {
    var t := DateTime(d, micros);
    var before := AddDays(d, -1).value;
    assert ValidDateTime(t);
    assert MinusOneSecond(t) == Some(DateTime(before, MicrosPerDay - MicrosPerSecond + micros)) by {
      assert t.micros < MicrosPerSecond;
    }
  }

  /** The billing period ends on the last second of `now`'s month, keeping the
      microseconds; it overflows only in December 9999. */
  lemma PeriodEndIsLastSecondOfMonth(now: DateTime)
    requires ValidDateTime(now)
    ensures PeriodEnd(PeriodStart(now)).None? <==> now.date.year == MaxYear && now.date.month == 12
    ensures PeriodEnd(PeriodStart(now)).Some? ==>
              PeriodEnd(PeriodStart(now)).value
              == DateTime(Date(now.date.year, now.date.month, DaysInMonth(now.date.year, now.date.month)),
                          MicrosPerDay - MicrosPerSecond + now.micros % MicrosPerSecond)
  {
    var d := now.date;
    if d.year == MaxYear && d.month == 12 {
      PeriodEndOverflows(now.micros % MicrosPerSecond);
    } else {
      PeriodEndInRange(d.year, d.month, now.micros % MicrosPerSecond);
    }
  }

  // ---------------------------------------------------------------------
  // Signup

  /** The arguments of `create_organization`. */
  datatype Signup = Signup(
    name: string,
    ownerName: string,
    ownerEmail: string,
    ownerPassword: string,
    slug: Option<string>,
    ownerPhone: Option<string>,
    industry: Option<string>,
    companySize: Option<string>)

  /** The three `uuid4()` values a signup draws. */
  datatype NewIds = NewIds(orgId: string, ownerId: string, usageId: string)

  /** `{"error": "Subdomain already taken"}`, `{"error": "Email already
      registered"}`, and the `OverflowError` a date past year 9999 raises. */
  datatype SignupError = SubdomainTaken | EmailRegistered | DateOverflow

  /** The success response: the organization's id, name, slug and trial end,
      and the owner's id, email and role. */
  datatype Onboarded = Onboarded(
    orgId: string, name: string, slug: Option<string>, trialEndsAt: DateTime,
    userId: string, userEmail: string, role: string)

  /** The store after the call and what the call returned. */
  datatype SignupOutcome = SignupOutcome(store: Tenancy, result: Result<Onboarded, SignupError>)

  /** The counters a signup starts with: the owner is the one user. */
  function InitialCounters(): (r: map<string, int>)
    ensures r.Keys == ZeroCounters().Keys && "user_count" in r && r["user_count"] == 1
    ensures forall k :: k in UsageCounterKeys ==> k in r
    ensures forall k :: k in r && k != "user_count" ==> r[k] == 0
  {
    ZeroCounters()["user_count" := 1]
  }

  function NewOrg(s: Signup, ids: NewIds, trialEnds: DateTime, now: DateTime): Org {
    Org(ids.orgId, s.name, s.slug, ids.ownerId, Some(Lower(s.ownerEmail)), s.ownerPhone, s.industry,
        s.companySize, DefaultPlanId, None, DefaultSubscriptionStatus, Some(trialEnds), map[],
        true, false, now, now)
  }

  function NewOwner(s: Signup, ids: NewIds, hash: string -> string, now: DateTime): OrgUser {
    OrgUser(ids.ownerId, ids.orgId, s.ownerName, Lower(s.ownerEmail), s.ownerPhone,
            hash(s.ownerPassword), "owner", ["*"], true, false, None, now)
  }

  /** The writes of a signup that passed both conflict checks.  The
      organization and the owner are inserted before the billing period is
      computed, so an overflow there leaves them stored without a usage
      record. */
  function InsertTenant(t: Tenancy, s: Signup, ids: NewIds, hash: string -> string, now: DateTime)
    : (r: SignupOutcome)
    requires ValidDateTime(now)
    ensures r.result != Failure(SubdomainTaken) && r.result != Failure(EmailRegistered)
    ensures r.result.Success? ==>
              && r.store.orgs.Keys == t.orgs.Keys + {ids.orgId}
              && r.store.usage.Keys == t.usage.Keys + {ids.orgId}
              && |r.store.users| == |t.users| + 1
  {
    match AddDaysAt(now, TrialDays)
    case None => SignupOutcome(t, Failure(DateOverflow))
    case Some(trialEnds) =>
      var t1 := t.(orgs := t.orgs[ids.orgId := NewOrg(s, ids, trialEnds, now)],
                   users := t.users + [NewOwner(s, ids, hash, now)]);
      var start := PeriodStart(now);
      match PeriodEnd(start)
      case None => SignupOutcome(t1, Failure(DateOverflow))
      case Some(end) =>
        var usage := UsageRecord(ids.usageId, ids.orgId, InitialCounters(), start, end, now);
        SignupOutcome(t1.(usage := t1.usage[ids.orgId := usage]),
                      Success(Onboarded(ids.orgId, s.name, s.slug, trialEnds, ids.ownerId, Lower(s.ownerEmail), "owner")))
  }

  /** The organization a signup writes: on the free plan, trialing for
      fourteen days, no overrides, and the slug argument as given; the other
      organizations are untouched. */
  lemma SignupOrgRecord(t: Tenancy, s: Signup, ids: NewIds, hash: string -> string, now: DateTime)
    requires ValidDateTime(now) && InsertTenant(t, s, ids, hash, now).result.Success?
    ensures var r := InsertTenant(t, s, ids, hash, now);
            var o := r.store.orgs[ids.orgId];
            && (forall id :: id in t.orgs && id != ids.orgId ==> r.store.orgs[id] == t.orgs[id])
            && o.id == ids.orgId && o.ownerId == ids.ownerId
            && o.planId == DefaultPlanId && o.subscriptionStatus == DefaultSubscriptionStatus
            && o.featureOverrides == map[] && o.isActive && !o.isVerified
            && o.trialEndsAt.Some? && ValidDateTime(o.trialEndsAt.value)
            && o.trialEndsAt.value.micros == now.micros
            && DayNumber(o.trialEndsAt.value.date) == DayNumber(now.date) + TrialDays
            && o.slug == s.slug && r.result.value.slug == s.slug
            && o.email == Some(Lower(s.ownerEmail))
  {
  }

  /** The owner a signup appends: role `owner`, every permission, the
      lower-cased email and the hashed password. */
  lemma SignupOwnerRecord(t: Tenancy, s: Signup, ids: NewIds, hash: string -> string, now: DateTime)
    requires ValidDateTime(now) && InsertTenant(t, s, ids, hash, now).result.Success?
    ensures var r := InsertTenant(t, s, ids, hash, now);
            var u := r.store.users[|t.users|];
            && r.store.users[..|t.users|] == t.users
            && u.id == ids.ownerId && u.orgId == ids.orgId && u.email == Lower(s.ownerEmail)
            && u.role == "owner" && u.permissions == ["*"] && u.isActive
            && u.hashedPassword == hash(s.ownerPassword)
            && r.result.value.userEmail == u.email && r.result.value.role == u.role
  {
  }

  /** The usage record a signup writes: one user, every other counter 0, and
      a period from midnight on the first of `now`'s month to the last second
      of its last day. */
  lemma SignupUsageRecord(t: Tenancy, s: Signup, ids: NewIds, hash: string -> string, now: DateTime)
    requires ValidDateTime(now) && InsertTenant(t, s, ids, hash, now).result.Success?
    ensures var rec := InsertTenant(t, s, ids, hash, now).store.usage[ids.orgId];
            var d := now.date;
            && rec.orgId == ids.orgId
            && "user_count" in rec.counters && rec.counters["user_count"] == 1
            && (forall k :: k in UsageCounterKeys ==> k in rec.counters)
            && (forall k :: k in UsageCounterKeys && k != "user_count" ==> rec.counters[k] == 0)
            && rec.periodStart == DateTime(Date(d.year, d.month, 1), now.micros % MicrosPerSecond)
            && rec.periodEnd == DateTime(Date(d.year, d.month, DaysInMonth(d.year, d.month)),
                                         MicrosPerDay - MicrosPerSecond + now.micros % MicrosPerSecond)
  {
    PeriodEndIsLastSecondOfMonth(now);
  }

  /** `create_organization` once the slug is chosen: the subdomain check
      first, then the lower-cased email check; neither error writes
      anything. */
  function Register(t: Tenancy, s: Signup, ids: NewIds, hash: string -> string, now: DateTime, finalSlug: string)
    : (r: SignupOutcome)
    requires ValidDateTime(now)
    ensures r.result == Failure(SubdomainTaken) <==> SlugInUse(t.orgs, finalSlug)
    ensures r.result == Failure(EmailRegistered)
            <==> !SlugInUse(t.orgs, finalSlug) && EmailInUse(t.users, Lower(s.ownerEmail))
    ensures r.result == Failure(SubdomainTaken) || r.result == Failure(EmailRegistered) ==> r.store == t
    ensures !SlugInUse(t.orgs, finalSlug) && !EmailInUse(t.users, Lower(s.ownerEmail))
            ==> r == InsertTenant(t, s, ids, hash, now)
  {
    if SlugInUse(t.orgs, finalSlug) then SignupOutcome(t, Failure(SubdomainTaken))
    else if EmailInUse(t.users, Lower(s.ownerEmail)) then SignupOutcome(t, Failure(EmailRegistered))
    else InsertTenant(t, s, ids, hash, now)
  }

  /** `create_organization`. */
  function CreateOrganization(t: Tenancy, s: Signup, ids: NewIds, hash: string -> string, now: DateTime)
    : (r: SignupOutcome)
    requires ValidDateTime(now)
    ensures r.result == Failure(SubdomainTaken)
            <==> Present(s.slug) && SlugInUse(t.orgs, PyStrip(Lower(s.slug.value)))
    ensures r.result == Failure(EmailRegistered)
            <==> r.result != Failure(SubdomainTaken) && EmailInUse(t.users, Lower(s.ownerEmail))
    ensures r.result == Failure(SubdomainTaken) || r.result == Failure(EmailRegistered) ==> r.store == t
    ensures r.result != Failure(SubdomainTaken) && r.result != Failure(EmailRegistered)
            ==> r == InsertTenant(t, s, ids, hash, now)
  {
    Register(t, s, ids, hash, now, ChooseSlug(t.orgs, s.name, s.slug))
  }

  /** With no slug argument the loop has already found a free candidate, so
      "Subdomain already taken" cannot be returned on that path. */
  lemma AutoSlugNeverTaken(t: Tenancy, s: Signup, ids: NewIds, hash: string -> string, now: DateTime)
    requires ValidDateTime(now) && !Present(s.slug)
    ensures CreateOrganization(t, s, ids, hash, now).result != Failure(SubdomainTaken)
  {
  }

  /** A signup that passed the conflict checks fails only when the trial end
      or the billing period runs past year 9999. */
  lemma InsertTenantSucceedsIff(t: Tenancy, s: Signup, ids: NewIds, hash: string -> string, now: DateTime)
    requires ValidDateTime(now)
    ensures InsertTenant(t, s, ids, hash, now).result.Success? <==>
              DayNumber(now.date) + TrialDays <= MaxDayNumber && !(now.date.year == MaxYear && now.date.month == 12)
  {
    var trialFits := AddDaysAt(now, TrialDays).Some?;
    var periodFits := PeriodEnd(PeriodStart(now)).Some?;
    assert InsertTenant(t, s, ids, hash, now).result.Success? <==> trialFits && periodFits by {
      InsertTenantSteps(t, s, ids, hash, now);
    }
    assert trialFits <==> DayNumber(now.date) + TrialDays <= MaxDayNumber by {
      DayNumberRange(now.date);
    }
    assert periodFits <==> !(now.date.year == MaxYear && now.date.month == 12) by {
      PeriodEndIsLastSecondOfMonth(now);
    }
  }

  /** The two date steps a signup takes, and nothing else, can fail it. */
  lemma InsertTenantSteps(t: Tenancy, s: Signup, ids: NewIds, hash: string -> string, now: DateTime)
    requires ValidDateTime(now)
    ensures InsertTenant(t, s, ids, hash, now).result.Success? <==>
              AddDaysAt(now, TrialDays).Some? && PeriodEnd(PeriodStart(now)).Some?
  {
  }

  /** A tenant on `plan_free` with no overrides and a live subscription sees
      the free plan's features, and its user cap is two. */
  lemma FreshTenantLimits(t: Tenancy, orgId: string)
    requires orgId in t.orgs && t.orgs[orgId].planId == "plan_free"
    requires t.orgs[orgId].featureOverrides == map[] && t.orgs[orgId].subscriptionStatus == "trialing"
    requires orgId in t.usage && "user_count" in t.usage[orgId].counters && t.usage[orgId].counters["user_count"] == 1
    ensures GetPlanFeatures(t.orgs, orgId) == FreePlan.features
    ensures CheckLimit(t, orgId, "users") == Success(LimitCheck(true, 1, IntV(2), UsedOf))
  {
    FreeTenantFeatures(t.orgs, orgId);
    assert LimitKeys("users") == Some(("max_users", "user_count"));
    assert Get(GetPlanFeatures(t.orgs, orgId), "max_users", IntV(0)) == IntV(2) by {
      FreePlanCaps();
    }
    CapLimits(t, orgId, "users", 2);
  }

  /** A new tenant gets exactly the free plan's features, and may add a
      second user but not a third. */
  lemma NewTenantIsOnFreePlan(t: Tenancy, s: Signup, ids: NewIds, hash: string -> string, now: DateTime)
    requires ValidDateTime(now) && InsertTenant(t, s, ids, hash, now).result.Success?
    ensures var after := InsertTenant(t, s, ids, hash, now).store;
            && GetPlanFeatures(after.orgs, ids.orgId) == FreePlan.features
            && CheckLimit(after, ids.orgId, "users") == Success(LimitCheck(true, 1, IntV(2), UsedOf))
  {
    SignupOrgRecord(t, s, ids, hash, now);
    SignupUsageRecord(t, s, ids, hash, now);
    FreshTenantLimits(InsertTenant(t, s, ids, hash, now).store, ids.orgId);
  }

  /** Adding an organization without a slug leaves the stored slugs as they
      were. */
  lemma UsedSlugsIgnoreUnslugged(orgs: map<string, Org>, id: string, o: Org)
    requires id !in orgs && o.slug == None
    ensures UsedSlugs(orgs[id := o]) == UsedSlugs(orgs)
  {
    var after := orgs[id := o];
    forall x | x in UsedSlugs(after)
      ensures x in UsedSlugs(orgs)
    {
      var k :| k in after && after[k].slug == Some(x);
      assert k != id && after[k] == orgs[k];
    }
    forall x | x in UsedSlugs(orgs)
      ensures x in UsedSlugs(after)
    {
      var k :| k in orgs && orgs[k].slug == Some(x);
      assert k in after && after[k] == orgs[k];
    }
  }

  /** The slug loop only looks at the set of stored slugs. */
  lemma ChooseSlugFollowsUsedSlugs(o1: map<string, Org>, o2: map<string, Org>, name: string)
    requires UsedSlugs(o1) == UsedSlugs(o2)
    ensures ChooseSlug(o1, name, None) == ChooseSlug(o2, name, None)
  {
  }

  /** A successful signup adds one organization and changes no other. */
  lemma SignupOrgsMap(t: Tenancy, s: Signup, ids: NewIds, hash: string -> string, now: DateTime)
    requires ValidDateTime(now) && InsertTenant(t, s, ids, hash, now).result.Success?
    ensures var orgs := InsertTenant(t, s, ids, hash, now).store.orgs;
            && ids.orgId in orgs && orgs[ids.orgId].slug == s.slug
            && orgs == t.orgs[ids.orgId := orgs[ids.orgId]]
  {
  }

  /** The stored slug is the caller's argument, not the slug the loop chose:
      after an automatic-slug signup the stored slugs are unchanged, so the
      next signup with the same name picks the same slug again. */
  lemma AutoSlugNotRecorded(t: Tenancy, s: Signup, ids: NewIds, hash: string -> string, now: DateTime)
    requires ValidDateTime(now) && s.slug == None && ids.orgId !in t.orgs
    requires InsertTenant(t, s, ids, hash, now).result.Success?
    ensures var after := InsertTenant(t, s, ids, hash, now).store;
            && after.orgs[ids.orgId].slug == None
            && UsedSlugs(after.orgs) == UsedSlugs(t.orgs)
            && ChooseSlug(after.orgs, s.name, None) == ChooseSlug(t.orgs, s.name, None)
  {
    var orgs := InsertTenant(t, s, ids, hash, now).store.orgs;
    SignupOrgsMap(t, s, ids, hash, now);
    var o := orgs[ids.orgId];
    assert UsedSlugs(orgs) == UsedSlugs(t.orgs) by {
      UsedSlugsIgnoreUnslugged(t.orgs, ids.orgId, o);
    }
    ChooseSlugFollowsUsedSlugs(orgs, t.orgs, s.name);
  }

  /** An empty `slug` argument is falsy, so the loop picks the slug, yet the
      stored slug is the empty text, which later signups then count as a slug
      in use. */
  lemma EmptySlugStoredAsEmpty(t: Tenancy, s: Signup, ids: NewIds, hash: string -> string, now: DateTime)
    requires ValidDateTime(now) && s.slug == Some("")
    requires InsertTenant(t, s, ids, hash, now).result.Success?
    ensures !Present(s.slug)
    ensures var after := InsertTenant(t, s, ids, hash, now).store;
            && ids.orgId in after.orgs && after.orgs[ids.orgId].slug == Some("")
            && "" in UsedSlugs(after.orgs)
  {
    SignupOrgsMap(t, s, ids, hash, now);
  }

  // ---------------------------------------------------------------------
  // Login

  /** `find_one({"email": email, "is_active": True})`: the index of the first
      active user with that exact email, or `|users|`. */
  function FindActiveUser(users: seq<OrgUser>, email: string): (i: nat)
    ensures i <= |users|
    ensures i < |users| ==> users[i].email == email && users[i].isActive
    ensures forall j :: 0 <= j < i ==> !(users[j].email == email && users[j].isActive)
  {
    if users == [] then 0
    else if users[0].email == email && users[0].isActive then 0
    else 1 + FindActiveUser(users[1..], email)
  }

  /** The index of the first user with that id, or `|users|`. */
  function FirstWithId(users: seq<OrgUser>, id: string): (i: nat)
    ensures i <= |users|
    ensures i < |users| ==> users[i].id == id
    ensures forall j :: 0 <= j < i ==> users[j].id != id
  {
    if users == [] then 0
    else if users[0].id == id then 0
    else 1 + FirstWithId(users[1..], id)
  }

  /** `update_one({"id": id}, {"$set": {"last_login": now}})`: only the first
      user with that id changes, and only in its login time. */
  function SetLastLogin(users: seq<OrgUser>, id: string, now: DateTime): (r: seq<OrgUser>)
    ensures |r| == |users|
    ensures forall j :: 0 <= j < |users| && j != FirstWithId(users, id) ==> r[j] == users[j]
    ensures FirstWithId(users, id) < |users| ==>
              r[FirstWithId(users, id)] == users[FirstWithId(users, id)].(lastLogin := Some(now))
  {
    var i := FirstWithId(users, id);
    if i < |users| then users[i := users[i].(lastLogin := Some(now))] else users
  }

  /** The user (as read, before the login time is written) and the tenant. */
  datatype Session = Session(user: OrgUser, org: Org)

  /** `authenticate_org_user`; `verify(password, hash)` stands for bcrypt. */
  function AuthenticateOrgUser(t: Tenancy, email: string, password: string,
                               verify: (string, string) -> bool, now: DateTime): (r: (Tenancy, Option<Session>))
    ensures var i := FindActiveUser(t.users, Lower(email));
            r.1.Some? <==> i < |t.users| && verify(password, t.users[i].hashedPassword)
                           && t.users[i].orgId in t.orgs && t.orgs[t.users[i].orgId].isActive
    ensures r.1.None? ==> r.0 == t
    ensures r.1.Some? ==>
              var i := FindActiveUser(t.users, Lower(email));
              && r.1.value == Session(t.users[i], t.orgs[t.users[i].orgId])
              && r.0 == t.(users := SetLastLogin(t.users, t.users[i].id, now))
  {
    var i := FindActiveUser(t.users, Lower(email));
    if i == |t.users| then (t, None)
    else
      var user := t.users[i];
      if !verify(password, user.hashedPassword) then (t, None)
      else if user.orgId !in t.orgs || !t.orgs[user.orgId].isActive then (t, None)
      else (t.(users := SetLastLogin(t.users, user.id, now)), Some(Session(user, t.orgs[user.orgId])))
  }

  /** Signing up and then logging in, with the email in any letter case, gives
      the new owner and organization, provided the hash verifies. */
  lemma LoginAfterSignup(t: Tenancy, s: Signup, ids: NewIds, hash: string -> string, now: DateTime,
                         verify: (string, string) -> bool, email: string, later: DateTime)
    requires ValidDateTime(now) && !EmailInUse(t.users, Lower(s.ownerEmail))
    requires InsertTenant(t, s, ids, hash, now).result.Success?
    requires verify(s.ownerPassword, hash(s.ownerPassword))
    requires Lower(email) == Lower(s.ownerEmail)
    ensures var after := InsertTenant(t, s, ids, hash, now).store;
            var session := AuthenticateOrgUser(after, email, s.ownerPassword, verify, later).1;
            && session.Some?
            && session.value.user == after.users[|t.users|]
            && session.value.org == after.orgs[ids.orgId]
  {
    SignupOrgRecord(t, s, ids, hash, now);
    SignupOwnerRecord(t, s, ids, hash, now);
    var after := InsertTenant(t, s, ids, hash, now).store;
    assert after.users == t.users + [after.users[|t.users|]];
    FindActiveUserAfterAppend(t.users, after.users[|t.users|], Lower(email));
  }

  /** A user appended with an email no earlier user has is the one a lookup
      by that email finds. */
  lemma FindActiveUserAfterAppend(users: seq<OrgUser>, u: OrgUser, email: string)
    requires !EmailInUse(users, email) && u.email == email && u.isActive
    ensures FindActiveUser(users + [u], email) == |users|
  {
    var all := users + [u];
    assert all[|users|] == u;
    assert forall j :: 0 <= j < |users| ==> all[j] == users[j];
  }
}

=== FILE: plan_form.dfy ===
/** The plan editor of the platform console
    (frontend/src/pages/admin/PlanManagement.js): the form a plan opens
    into, the numeric coercion of its inputs, the submit guard with the
    plan-id derivation, and the price and cap captions of the plan cards.
    A plan document as the admin API returns it may lack any field; a
    missing field (or a stored `null`) is `None`. */
module PlanForm {
  import opened Wrappers
  import opened Text
  import opened Numerals
  import opened Slugs
  import opened Plans

  // ---------------------------------------------------------------------
  // Plan ids

  /** `` `plan_${name.toLowerCase().replace(/\s+/g, '_')}` ``. */
  function DerivedPlanId(name: string): string {
    "plan_" + ReplaceRuns(Lower(name), JsIsSpace, '_')
  }

  /** `editingPlan?.id || DerivedPlanId(name)`: an edit keeps the plan's own
      id unless it is empty. */
  function PayloadId(editingId: Option<string>, name: string): (r: string)
    ensures editingId.Some? && editingId.value != "" ==> r == editingId.value
    ensures editingId.None? || editingId == Some("") ==> r == DerivedPlanId(name)
  {
    if editingId.Some? && editingId.value != "" then editingId.value else DerivedPlanId(name)
  }

  /** A derived id starts with "plan_" and holds neither whitespace nor an
      upper-case ASCII letter. */
  lemma DerivedPlanIdShape(name: string)
    ensures |DerivedPlanId(name)| >= 5 && DerivedPlanId(name)[..5] == "plan_"
    ensures forall i :: 0 <= i < |DerivedPlanId(name)| ==>
              !JsIsSpace(DerivedPlanId(name)[i]) && !IsAsciiUpper(DerivedPlanId(name)[i])
  {
    var low := Lower(name);
    var tail := ReplaceRuns(low, JsIsSpace, '_');
    ReplaceRunsKeeps(low, JsIsSpace, '_', c => !JsIsSpace(c) && !IsAsciiUpper(c));
    var id := DerivedPlanId(name);
    assert id == "plan_" + tail;
    forall i | 0 <= i < |id|
      ensures !JsIsSpace(id[i]) && !IsAsciiUpper(id[i])
    {
      if i >= 5 {
        assert id[i] == tail[i - 5];
      }
    }
  }

  /** A name without whitespace or upper-case letters is copied into the id
      unchanged. */
  lemma DerivedPlanIdOfPlainName(name: string)
    requires forall i :: 0 <= i < |name| ==> !JsIsSpace(name[i]) && !IsAsciiUpper(name[i])
    ensures DerivedPlanId(name) == "plan_" + name
  {
    LowerNoop(name);
    ReplaceRunsNoop(name, JsIsSpace, '_');
  }

  /** Names of lower-case ASCII letters. */
  predicate LowerLetters(name: string) {
    forall i :: 0 <= i < |name| ==> 'a' <= name[i] <= 'z'
  }

  lemma LowerLettersGiveId(name: string, id: string)
    requires LowerLetters(name) && id == "plan_" + name
    ensures DerivedPlanId(name) == id
  {
    DerivedPlanIdOfPlainName(name);
  }

  /** The built-in plans are named by lower-case words and their ids are
      "plan_" and the name. */
  lemma DefaultPlanNames()
    ensures forall i :: 0 <= i < |DefaultPlans| ==>
              LowerLetters(DefaultPlans[i].name) && DefaultPlans[i].id == "plan_" + DefaultPlans[i].name
  {
  }

  /** Each built-in plan's id is the one the editor derives from its name, so
      creating a plan named like a built-in one proposes the built-in id. */
  lemma DefaultPlanIdDerivable(i: nat)
    requires i < |DefaultPlans|
    ensures DerivedPlanId(DefaultPlans[i].name) == DefaultPlans[i].id
  {
    DefaultPlanNames();
    LowerLettersGiveId(DefaultPlans[i].name, DefaultPlans[i].id);
  }

  // ---------------------------------------------------------------------
  // Numeric inputs

  /** `parseInt(value) || 0`: a number input that reads as NaN or 0 is 0. */
  function NumberInput(value: string): (r: int)
    ensures JsParseInt(value, Auto) == None ==> r == 0
    ensures JsParseInt(value, Auto).Some? ==> r == JsParseInt(value, Auto).value
  {
    ParseIntOr(value, Auto, 0)
  }

  /** An empty input is 0, and every rendered integer, "-1" included, reads
      back as itself. */
  lemma NumberInputReadsBack(n: int)
    ensures NumberInput("") == 0
    ensures NumberInput(IntString(n)) == n
  {
    JsParseIntNaN("", Auto);
    JsParseIntOfIntString(n, Auto);
  }

  /** The change handler: a checkbox stores its state, a number input its
      coerced value, anything else the text. */
  datatype Input = Checkbox(checked: bool) | Number(typed: string) | Typed(text: string)

  function InputValue(i: Input): (r: FeatureValue)
    ensures r != NoneV
    ensures i.Number? ==> r == IntV(NumberInput(i.typed))
  {
    match i
    case Checkbox(b) => BoolV(b)
    case Number(t) => IntV(NumberInput(t))
    case Typed(t) => TextV(t)
  }

  // ---------------------------------------------------------------------
  // The form

  /** The feature values a new plan starts with, and the fallbacks of an edit:
      10/2/1 and `qr_codes` on, every other flag off. */
  const FormFeatureDefaults: Features := map[
    "max_devices" := IntV(10),
    "max_users" := IntV(2),
    "max_companies" := IntV(1),
    "ai_support_bot" := BoolV(false),
    "qr_codes" := BoolV(true),
    "api_access" := BoolV(false),
    "custom_branding" := BoolV(false),
    "priority_support" := BoolV(false),
    "white_label" := BoolV(false),
    "export_reports" := BoolV(false),
    "osticket_integration" := BoolV(false),
    "engineer_portal" := BoolV(false)]

  /** The editor's fallbacks are the model's defaults except that `qr_codes`
      is on, as on the free plan. */
  lemma FormDefaultsVersusModel()
    ensures FormFeatureDefaults == PlanFeatureDefaults["qr_codes" := BoolV(true)]
    ensures FormFeatureDefaults["qr_codes"] == FreePlan.features["qr_codes"]
  {
  }

  /** `features?.[k] ?? d`: only an absent dictionary, an absent key or a
      stored `null` fall back. */
  function Nullish(stored: Option<Features>, k: string, d: FeatureValue): (r: FeatureValue)
    ensures d != NoneV ==> r != NoneV
  {
    if stored.Some? && k in stored.value && stored.value[k] != NoneV then stored.value[k] else d
  }

  /** The `features` of the edit form: the twelve editable keys, each taken
      from the stored plan or from its fallback. */
  function EditFeatures(stored: Option<Features>): (r: Features)
    ensures forall k :: k in r <==> k in FormFeatureDefaults
    ensures forall k :: k in r ==> r[k] != NoneV
  {
    map k | k in FormFeatureDefaults :: Nullish(stored, k, FormFeatureDefaults[k])
  }

  /** A stored value is kept even when it is falsy: an explicit 0 or `false`
      survives, where `||` would have put the fallback in. */
  lemma EditKeepsStoredValues(stored: Features, k: string)
    requires k in FormFeatureDefaults && k in stored && stored[k] != NoneV
    ensures EditFeatures(Some(stored))[k] == stored[k]
  {
  }

  lemma EditFillsMissingValues(stored: Option<Features>, k: string)
    requires k in FormFeatureDefaults
    requires stored.None? || k !in stored.value || stored.value[k] == NoneV
    ensures EditFeatures(stored)[k] == FormFeatureDefaults[k]
  {
  }

  /** A stored cap of 0 and a stored `qr_codes: false` come back as they are. */
  lemma ExplicitFalsyKept()
    ensures var e := EditFeatures(Some(map["max_devices" := IntV(0), "qr_codes" := BoolV(false)]));
            && "max_devices" in e && e["max_devices"] == IntV(0)
            && "qr_codes" in e && e["qr_codes"] == BoolV(false)
    ensures var e := EditFeatures(Some(map["max_devices" := IntV(0)]));
            "qr_codes" in e && e["qr_codes"] == BoolV(true)
  {
    var both: Features := map["max_devices" := IntV(0), "qr_codes" := BoolV(false)];
    var capOnly: Features := map["max_devices" := IntV(0)];
    FormKeys();
    assert EditFeatures(Some(both))["max_devices"] == IntV(0) by {
      EditKeepsStoredValues(both, "max_devices");
    }
    assert EditFeatures(Some(both))["qr_codes"] == BoolV(false) by {
      EditKeepsStoredValues(both, "qr_codes");
    }
    assert EditFeatures(Some(capOnly))["qr_codes"] == BoolV(true) by {
      EditFillsMissingValues(Some(capOnly), "qr_codes");
    }
  }

  lemma FormKeys()
    ensures "max_devices" in FormFeatureDefaults && "qr_codes" in FormFeatureDefaults
    ensures FormFeatureDefaults["qr_codes"] == BoolV(true)
  {
  }

  /** A plan without features opens on exactly the new-plan values. */
  lemma EditWithoutFeatures()
    ensures EditFeatures(None) == FormFeatureDefaults
  {
  }

  /** A plan as the admin API returns it. */
  datatype AdminPlan = AdminPlan(
    id: string,
    name: string,
    displayName: string,
    description: Option<string>,
    priceMonthly: Option<int>,
    priceYearly: Option<int>,
    isPopular: Option<bool>,
    isActive: Option<bool>,
    sortOrder: Option<int>,
    features: Option<Features>)

  /** A built-in plan as a stored document: it has no active flag. */
  function FromDefault(p: Plan): AdminPlan {
    AdminPlan(p.id, p.name, p.displayName, Some(p.description), Some(p.priceMonthly), Some(p.priceYearly),
              Some(p.isPopular), None, Some(p.sortOrder), Some(p.features))
  }

  /** The modal's `formData`. */
  datatype PlanFormData = PlanFormData(
    name: string,
    displayName: string,
    description: string,
    priceMonthly: int,
    priceYearly: int,
    isPopular: bool,
    isActive: bool,
    sortOrder: int,
    features: Features)

  /** `x || d` on an optional integer. */
  function IntOr(x: Option<int>, d: int): (r: int)
    ensures x.Some? && x.value != 0 ==> r == x.value
    ensures x.None? || x == Some(0) ==> r == d
  {
    if x.Some? && x.value != 0 then x.value else d
  }

  /** `handleOpenModal(plan)`: missing texts are empty, missing prices 0, a
      missing or zero sort order 1, and only an explicit `false` makes the
      plan inactive. */
  function OpenEditForm(a: AdminPlan): (r: PlanFormData)
    ensures r.name == a.name && r.displayName == a.displayName
    ensures r.isActive <==> a.isActive != Some(false)
    ensures r.isPopular <==> a.isPopular == Some(true)
    ensures r.description == a.description.GetOr("")
    ensures r.priceMonthly == a.priceMonthly.GetOr(0) && r.priceYearly == a.priceYearly.GetOr(0)
    ensures r.sortOrder == (if a.sortOrder.Some? && a.sortOrder.value != 0 then a.sortOrder.value else 1)
    ensures r.sortOrder != 0
    ensures r.features == EditFeatures(a.features)
  {
    PlanFormData(a.name, a.displayName,
                 if a.description.Some? then a.description.value else "",
                 IntOr(a.priceMonthly, 0), IntOr(a.priceYearly, 0),
                 a.isPopular == Some(true), a.isActive != Some(false),
                 IntOr(a.sortOrder, 1), EditFeatures(a.features))
  }

  /** `handleOpenModal()` for a new plan: empty names, free, active, last
      in sort order, the fallback features. */
  function NewPlanForm(planCount: nat): (r: PlanFormData)
    ensures r.name == "" && r.displayName == ""
    ensures r.sortOrder == planCount + 1
    ensures r.features == EditFeatures(None)
  {
    EditWithoutFeatures();
    PlanFormData("", "", "", 0, 0, false, true, planCount + 1, FormFeatureDefaults)
  }

  /** One input of the features block changes that feature and nothing
      else. */
  function ChangeFeature(f: PlanFormData, key: string, i: Input): (r: PlanFormData)
    ensures r.features.Keys == f.features.Keys + {key}
    ensures r.features[key] == InputValue(i)
    ensures forall k :: k in f.features && k != key ==> r.features[k] == f.features[k]
    ensures r.(features := f.features) == f
  {
    f.(features := f.features[key := InputValue(i)])
  }

  // ---------------------------------------------------------------------
  // Submit

  datatype PlanFormError = RequiredMissing

  /** The body sent to the server: the form and the id. */
  datatype PlanPayload = PlanPayload(id: string, form: PlanFormData)

  /** `handleSubmit`: name and display name are required. */
  function SubmitPlan(f: PlanFormData, editing: Option<AdminPlan>): (r: Result<PlanPayload, PlanFormError>)
    ensures r.Failure? <==> f.name == "" || f.displayName == ""
    ensures r.Success? ==> r.value.form == f
    ensures r.Success? && editing.Some? && editing.value.id != "" ==> r.value.id == editing.value.id
    ensures r.Success? && editing.None? ==> r.value.id == DerivedPlanId(f.name)
  {
    if f.name == "" || f.displayName == "" then Failure(RequiredMissing)
    else Success(PlanPayload(PayloadId(if editing.Some? then Some(editing.value.id) else None, f.name), f))
  }

  /** Opening a built-in plan and saving it untouched sends the plan back:
      same id, names, description, prices, flag and sort order, and every feature the
      plan lists with the value it has. */
  lemma EditDefaultPlanUnchanged(i: nat)
    requires i < |DefaultPlans|
    ensures var p := DefaultPlans[i];
            var r := SubmitPlan(OpenEditForm(FromDefault(p)), Some(FromDefault(p)));
            && r.Success?
            && r.value.id == p.id
            && r.value.form.name == p.name && r.value.form.displayName == p.displayName
            && r.value.form.description == p.description
            && r.value.form.priceMonthly == p.priceMonthly && r.value.form.priceYearly == p.priceYearly
            && r.value.form.isPopular == p.isPopular && r.value.form.sortOrder == p.sortOrder
            && r.value.form.isActive
  {
  }

  /** Every feature a built-in plan lists is one the form edits, and none is
      stored as `null`. */
  predicate Editable(features: Features) {
    forall k :: k in features ==> k in FormFeatureDefaults && features[k] != NoneV
  }

  lemma DefaultPlanFeaturesEditable(i: nat)
    requires i < |DefaultPlans|
    ensures Editable(DefaultPlans[i].features)
  {
    if i == 0 {
      assert Editable(FreePlan.features) by { FreePlanEditable(); }
    } else if i == 1 {
      assert Editable(ProPlan.features) by { ProPlanEditable(); }
    } else {
      assert Editable(EnterprisePlan.features) by { EnterprisePlanEditable(); }
    }
  }

  lemma FreePlanEditable()
    ensures Editable(FreePlan.features)
  {
  }

  lemma ProPlanEditable()
    ensures Editable(ProPlan.features)
  {
  }

  lemma EnterprisePlanEditable()
    ensures Editable(EnterprisePlan.features)
  {
  }

  /** The features of a built-in plan survive the edit form unchanged. */
  lemma EditDefaultPlanFeatures(i: nat, k: string)
    requires i < |DefaultPlans| && k in DefaultPlans[i].features
    ensures EditFeatures(Some(DefaultPlans[i].features))[k] == DefaultPlans[i].features[k]
  {
    DefaultPlanFeaturesEditable(i);
    EditKeepsStoredValues(DefaultPlans[i].features, k);
  }

  // ---------------------------------------------------------------------
  // Captions

  /** The cap line of a plan card. */
  datatype CapCaption = Unlimited | Shown(value: Option<FeatureValue>)

  /** `plan.features?.[key] === -1 ? 'Unlimited' : plan.features?.[key]`. */
  function CapText(features: Option<Features>, key: string): (r: CapCaption)
    ensures r == Unlimited <==> features.Some? && key in features.value && features.value[key] == IntV(-1)
    ensures r.Shown? && features.Some? && key in features.value ==> r.value == Some(features.value[key])
    ensures r.Shown? && (features.None? || key !in features.value) ==> r.value == None
  {
    if features.Some? && key in features.value then
      if features.value[key] == IntV(-1) then Unlimited else Shown(Some(features.value[key]))
    else Shown(None)
  }

  /** The enterprise caps read "Unlimited"; the free plan shows its numbers. */
  lemma DefaultPlanCaps()
    ensures CapText(Some(EnterprisePlan.features), "max_devices") == Unlimited
    ensures CapText(Some(EnterprisePlan.features), "max_users") == Unlimited
    ensures CapText(Some(FreePlan.features), "max_devices") == Shown(Some(IntV(10)))
    ensures CapText(Some(FreePlan.features), "max_users") == Shown(Some(IntV(2)))
  {
  }

  /** Typing -1 into a cap input makes that cap "Unlimited". */
  lemma TypedMinusOneIsUnlimited(f: PlanFormData, key: string)
    ensures CapText(Some(ChangeFeature(f, key, Number("-1")).features), key) == Unlimited
  {
    MinusOneReadsBack();
    var g := ChangeFeature(f, key, Number("-1"));
    assert key in g.features && g.features[key] == IntV(-1);
  }

  lemma MinusOneReadsBack()
    ensures NumberInput("-1") == -1
  {
    assert NatToString(1) == "1" by {
      assert DigitChar(1) == '1';
    }
    assert IntString(-1) == "-1";
    NumberInputReadsBack(-1);
  }

  /** The price line: "Free" for 0, otherwise the amount in rupees. */
  datatype PriceCaption = Free | Rupees(paise: int)

  function FormatPrice(paise: int): (r: PriceCaption)
    ensures r == Free <==> paise == 0
    ensures r.Rupees? ==> r.paise == paise
  {
    if paise == 0 then Free else Rupees(paise)
  }

  /** Only the free plan's prices read "Free". */
  lemma DefaultPlanPrices()
    ensures FormatPrice(FreePlan.priceMonthly) == Free && FormatPrice(FreePlan.priceYearly) == Free
    ensures FormatPrice(ProPlan.priceMonthly) == Rupees(99900)
    ensures FormatPrice(EnterprisePlan.priceYearly) == Rupees(2999900)
  {
  }
}

=== FILE: plans.dfy ===
/** The pricing plans of backend/models/saas.py: the `PlanFeatures` defaults
    and the hard-coded `DEFAULT_PLANS` table that feature gating reads. */
module Plans {
  import opened Wrappers

  /** A value of a feature dictionary.  Python's `bool` is a subtype of `int`
      (`True == 1`), which `AsNumber` spells out; `NoneV` is a stored `None`. */
  datatype FeatureValue = BoolV(b: bool) | IntV(i: int) | TextV(s: string) | NoneV {

    /** Python truthiness. */
    predicate Truthy() {
      match this
      case BoolV(b) => b
      case IntV(i) => i != 0
      case TextV(s) => s != ""
      case NoneV => false
    }

    /** The integer a value stands for in a numeric comparison, if any;
        comparing a string or `None` with an `int` raises `TypeError`. */
    function AsNumber(): (r: Option<int>)
      ensures r.Some? <==> BoolV? || IntV?
      ensures IntV? ==> r == Some(i)
      ensures BoolV? ==> r == Some(if b then 1 else 0)
    {
      match this
      case BoolV(b) => Some(if b then 1 else 0)
      case IntV(i) => Some(i)
      case TextV(_) => None
      case NoneV => None
    }
  }

  /** A feature dictionary. */
  type Features = map<string, FeatureValue>

  /** `d.get(k, default)`. */
  function Get(d: Features, k: string, default: FeatureValue): (r: FeatureValue)
    ensures k in d ==> r == d[k]
    ensures k !in d ==> r == default
  {
    if k in d then d[k] else default
  }

  datatype Plan = Plan(
    id: string,
    name: string,
    displayName: string,
    description: string,
    priceMonthly: int,
    priceYearly: int,
    features: Features,
    isPopular: bool,
    sortOrder: int)

  /** The field defaults of the `PlanFeatures` model. */
  const PlanFeatureDefaults: Features := map[
    "max_devices" := IntV(10),
    "max_users" := IntV(2),
    "max_companies" := IntV(1),
    "ai_support_bot" := BoolV(false),
    "qr_codes" := BoolV(false),
    "api_access" := BoolV(false),
    "custom_branding" := BoolV(false),
    "priority_support" := BoolV(false),
    "white_label" := BoolV(false),
    "export_reports" := BoolV(false),
    "osticket_integration" := BoolV(false),
    "engineer_portal" := BoolV(false)]

  const FreePlan := Plan("plan_free", "free", "Free", "Perfect for small teams getting started", 0, 0,
    map[
      "max_devices" := IntV(10),
      "max_users" := IntV(2),
      "max_companies" := IntV(1),
      "ai_support_bot" := BoolV(false),
      "qr_codes" := BoolV(true),
      "api_access" := BoolV(false),
      "custom_branding" := BoolV(false),
      "priority_support" := BoolV(false),
      "export_reports" := BoolV(false),
      "osticket_integration" := BoolV(false),
      "engineer_portal" := BoolV(false)],
    false, 1)

  const ProPlan := Plan("plan_pro", "pro", "Pro", "For growing businesses with more devices", 99900, 999900,
    map[
      "max_devices" := IntV(100),
      "max_users" := IntV(10),
      "max_companies" := IntV(5),
      "ai_support_bot" := BoolV(true),
      "qr_codes" := BoolV(true),
      "api_access" := BoolV(false),
      "custom_branding" := BoolV(false),
      "priority_support" := BoolV(true),
      "export_reports" := BoolV(true),
      "osticket_integration" := BoolV(true),
      "engineer_portal" := BoolV(true)],
    true, 2)

  const EnterprisePlan := Plan("plan_enterprise", "enterprise", "Enterprise", "For large organizations with advanced needs",
    299900, 2999900,
    map[
      "max_devices" := IntV(-1),
      "max_users" := IntV(-1),
      "max_companies" := IntV(-1),
      "ai_support_bot" := BoolV(true),
      "qr_codes" := BoolV(true),
      "api_access" := BoolV(true),
      "custom_branding" := BoolV(true),
      "priority_support" := BoolV(true),
      "white_label" := BoolV(true),
      "export_reports" := BoolV(true),
      "osticket_integration" := BoolV(true),
      "engineer_portal" := BoolV(true)],
    false, 3)

  /** `DEFAULT_PLANS`, in list order. */
  const DefaultPlans: seq<Plan> := [FreePlan, ProPlan, EnterprisePlan]

  /** Index of the first plan satisfying `matches`, or `|plans|`. */
  function FirstMatchIndex(plans: seq<Plan>, matches: Plan -> bool): (i: nat)
    ensures i <= |plans|
    ensures i < |plans| ==> matches(plans[i])
    ensures forall j :: 0 <= j < i ==> !matches(plans[j])
  {
    if plans == [] || matches(plans[0]) then 0 else 1 + FirstMatchIndex(plans[1..], matches)
  }

  /** `next((p for p in plans if matches(p)), plans[0])`. */
  function FirstPlanWhere(plans: seq<Plan>, matches: Plan -> bool): (r: Plan)
    requires |plans| > 0
    ensures r in plans
    ensures (exists i :: 0 <= i < |plans| && matches(plans[i])) ==> matches(r)
    ensures (forall i :: 0 <= i < |plans| ==> !matches(plans[i])) ==> r == plans[0]
  {
    var i := FirstMatchIndex(plans, matches);
    if i < |plans| then plans[i] else plans[0]
  }

  /** The plan a stored `plan_id` selects: the first with that id, else the
      first plan. */
  function PlanById(planId: string): (r: Plan)
    ensures r in DefaultPlans
    ensures planId in {"plan_free", "plan_pro", "plan_enterprise"} ==> r.id == planId
    ensures planId !in {"plan_free", "plan_pro", "plan_enterprise"} ==> r == DefaultPlans[0]
  {
    assert DefaultPlans[0].id == "plan_free" && DefaultPlans[1].id == "plan_pro"
           && DefaultPlans[2].id == "plan_enterprise";
    FirstPlanWhere(DefaultPlans, (p: Plan) => p.id == planId)
  }

  /** The plan an expired tenant is downgraded to: the first named "free". */
  function FreePlanByName(): (r: Plan)
    ensures r.name == "free"
  {
    FirstPlanWhere(DefaultPlans, (p: Plan) => p.name == "free")
  }

  /** Both fallbacks name the same plan: the first entry is the free plan, so
      looking the free plan up by name and an unknown id both give it. */
  lemma FallbacksAgree(unknownId: string)
    requires unknownId !in {"plan_free", "plan_pro", "plan_enterprise"}
    ensures PlanById(unknownId) == FreePlanByName() == DefaultPlans[0] == PlanById("plan_free")
    ensures DefaultPlans[0].id == "plan_free" && DefaultPlans[0].name == "free"
  {
    var r := FreePlanByName();
    assert r in DefaultPlans && r.name == "free";
  }

  /** The table's shape: three plans, distinct ids, sort orders 1, 2, 3 in
      list order. */
  lemma DefaultPlansShape()
    ensures |DefaultPlans| == 3
    ensures forall i, j :: 0 <= i < j < |DefaultPlans| ==> DefaultPlans[i].id != DefaultPlans[j].id
    ensures forall i :: 0 <= i < |DefaultPlans| ==> DefaultPlans[i].sortOrder == i + 1
  {
  }

  /** Numeric caps (devices / users / companies): free 10/2/1, pro 100/10/5,
      enterprise unlimited (-1) on all three. */
  lemma PlanCaps()
    ensures FreePlan.features["max_devices"] == IntV(10) && FreePlan.features["max_users"] == IntV(2)
            && FreePlan.features["max_companies"] == IntV(1)
    ensures ProPlan.features["max_devices"] == IntV(100) && ProPlan.features["max_users"] == IntV(10)
            && ProPlan.features["max_companies"] == IntV(5)
    ensures forall k :: k in {"max_devices", "max_users", "max_companies"} ==> EnterprisePlan.features[k] == IntV(-1)
  {
    FreePlanCaps();
    ProPlanCaps();
    EnterprisePlanCaps();
  }

  lemma FreePlanCaps()
    ensures FreePlan.features["max_devices"] == IntV(10) && FreePlan.features["max_users"] == IntV(2)
            && FreePlan.features["max_companies"] == IntV(1)
  {
  }

  lemma ProPlanCaps()
    ensures ProPlan.features["max_devices"] == IntV(100) && ProPlan.features["max_users"] == IntV(10)
            && ProPlan.features["max_companies"] == IntV(5)
  {
  }

  lemma EnterprisePlanCaps()
    ensures forall k :: k in {"max_devices", "max_users", "max_companies"} ==> EnterprisePlan.features[k] == IntV(-1)
  {
  }

  /** The ids of the table select its plans. */
  lemma PlanByKnownId()
    ensures PlanById("plan_free") == FreePlan
    ensures PlanById("plan_pro") == ProPlan
    ensures PlanById("plan_enterprise") == EnterprisePlan
  {
    var f, p, e := PlanById("plan_free"), PlanById("plan_pro"), PlanById("plan_enterprise");
    assert f in [FreePlan, ProPlan, EnterprisePlan] && f.id == "plan_free";
    assert p in [FreePlan, ProPlan, EnterprisePlan] && p.id == "plan_pro";
    assert e in [FreePlan, ProPlan, EnterprisePlan] && e.id == "plan_enterprise";
  }

  /** The ticketing integration is a paid feature; only enterprise lists
      `white_label`, so the others fall to the `False` default. */
  lemma PlanFlags()
    ensures !Get(FreePlan.features, "osticket_integration", BoolV(false)).Truthy()
    ensures Get(ProPlan.features, "osticket_integration", BoolV(false)).Truthy()
    ensures Get(EnterprisePlan.features, "osticket_integration", BoolV(false)).Truthy()
    ensures "white_label" !in FreePlan.features && "white_label" !in ProPlan.features
    ensures Get(EnterprisePlan.features, "white_label", BoolV(false)) == BoolV(true)
  {
  }

  /** The model defaults are 10/2/1 with every flag off, while the free plan
      switches `qr_codes` on. */
  lemma ModelDefaultsVersusFreePlan()
    ensures PlanFeatureDefaults["max_devices"] == IntV(10) && PlanFeatureDefaults["max_users"] == IntV(2)
            && PlanFeatureDefaults["max_companies"] == IntV(1)
    ensures forall k :: k in PlanFeatureDefaults && k !in {"max_devices", "max_users", "max_companies"}
                        ==> PlanFeatureDefaults[k] == BoolV(false)
    ensures PlanFeatureDefaults["qr_codes"] != FreePlan.features["qr_codes"]
  {
  }
}

=== FILE: record_pages.dfy ===
/** The search filters and submit handlers of the record pages:
      - frontend/src/pages/org/OrgLicenses.js (an organisation's licences),
      - frontend/src/pages/org/OrgAMCContracts.js (its AMC contracts),
      - frontend/src/pages/admin/Licenses.js (every licence, for the admin),
      - frontend/src/pages/org/OrgDevices.js (an organisation's devices).
    A record field the API may omit is an `Option`; a form field is the text
    of its input.  `parseFloat` on a cost is not modelled: a cost that is
    converted keeps its text. */
module RecordPages {
  import opened Wrappers
  import opened Text
  import opened Numerals
  import opened ExpiryStatus

  // ---------------------------------------------------------------------
  // Filtering

  /** `xs.filter(keep)`. */
  function Filter<T(!new)>(xs: seq<T>, keep: T -> bool): (r: seq<T>)
    ensures |r| <= |xs|
    ensures forall x :: x in r <==> x in xs && keep(x)
  {
    if xs == [] then []
    else (if keep(xs[0]) then [xs[0]] else []) + Filter(xs[1..], keep)
  }

  /** Filtering a concatenation filters each part in place: the kept
      elements come out in the order of the input. */
  lemma {:induction false} FilterAppend<T(!new)>(a: seq<T>, b: seq<T>, keep: T -> bool)
    ensures Filter(a + b, keep) == Filter(a, keep) + Filter(b, keep)
  {
    if a == [] {
      assert a + b == b;
    } else {
      assert (a + b)[0] == a[0];
      assert (a + b)[1..] == a[1..] + b;
      FilterAppend(a[1..], b, keep);
    }
  }

  /** A filter that keeps every element returns the list unchanged, order
      included. */
  lemma {:induction false} FilterKeepsAll<T(!new)>(xs: seq<T>, keep: T -> bool)
    requires forall i :: 0 <= i < |xs| ==> keep(xs[i])
    ensures Filter(xs, keep) == xs
  {
    if xs != [] {
      FilterKeepsAll(xs[1..], keep);
    }
  }

  /** `field?.toLowerCase().includes(q)`, where `q` is already lower case: a
      missing field does not match. */
  predicate FieldHas(field: Option<string>, q: string) {
    field.Some? && Contains(Lower(field.value), q)
  }

  /** `field && field.toLowerCase().includes(q)`: an empty field is falsy and
      does not match either. */
  predicate TruthyFieldHas(field: Option<string>, q: string) {
    field.Some? && field.value != "" && Contains(Lower(field.value), q)
  }

  /** Lower-casing the query again changes nothing. */
  lemma LowerQueryStable(q: string)
    ensures Lower(Lower(q)) == Lower(q)
    ensures Lower(q) == "" <==> q == ""
  {
    LowerIdempotent(q);
  }

  // ---------------------------------------------------------------------
  // org/OrgLicenses.js

  /** The fields of a licence the organisation's search reads. */
  datatype OrgLicense = OrgLicense(softwareName: Option<string>, vendor: Option<string>)

  predicate OrgLicenseMatches(l: OrgLicense, searchQuery: string) {
    FieldHas(l.softwareName, Lower(searchQuery)) || TruthyFieldHas(l.vendor, Lower(searchQuery))
  }

  function OrgLicenseKeep(searchQuery: string): OrgLicense -> bool {
    l => OrgLicenseMatches(l, searchQuery)
  }

  /** `filteredLicenses`. */
  function FilterOrgLicenses(ls: seq<OrgLicense>, searchQuery: string): (r: seq<OrgLicense>)
    ensures |r| <= |ls|
    ensures forall l :: l in r <==> l in ls && OrgLicenseMatches(l, searchQuery)
  {
    Filter(ls, OrgLicenseKeep(searchQuery))
  }

  /** The search ignores case, and an empty search keeps every licence that
      has a name or a non-empty vendor. */
  lemma OrgLicenseSearch(l: OrgLicense, searchQuery: string)
    ensures OrgLicenseMatches(l, searchQuery) == OrgLicenseMatches(l, Lower(searchQuery))
    ensures searchQuery == "" ==>
              (OrgLicenseMatches(l, searchQuery) <==> l.softwareName.Some? || (l.vendor.Some? && l.vendor.value != ""))
  {
    LowerQueryStable(searchQuery);
    if searchQuery == "" {
      if l.softwareName.Some? {
        ContainsEmpty(Lower(l.softwareName.value));
      }
      if l.vendor.Some? {
        ContainsEmpty(Lower(l.vendor.value));
      }
    }
  }

  /** An empty search shows the whole list when every licence is named. */
  lemma EmptySearchShowsNamedLicenses(ls: seq<OrgLicense>)
    requires forall i :: 0 <= i < |ls| ==> ls[i].softwareName.Some?
    ensures FilterOrgLicenses(ls, "") == ls
  {
    forall i | 0 <= i < |ls|
      ensures OrgLicenseKeep("")(ls[i])
    {
      OrgLicenseSearch(ls[i], "");
    }
    FilterKeepsAll(ls, OrgLicenseKeep(""));
  }

  // ---------------------------------------------------------------------
  // Submit coercions

  /** What happens to an optional cost: it is sent as a number, removed, or
      sent as the text typed. */
  datatype CostField = Removed | AsNumber(text: string) | AsText(text: string)

  /** The licence pages: a filled-in cost is converted, an empty one removed. */
  function LicenseCost(text: string): (r: CostField)
    ensures r == Removed <==> text == ""
    ensures r != Removed ==> r == AsNumber(text)
  {
    if text != "" then AsNumber(text) else Removed
  }

  /** The contract page: a filled-in value is converted, an empty one is sent
      as it is. */
  function ContractValue(text: string): (r: CostField)
    ensures r != Removed
    ensures r.AsText? <==> text == ""
    ensures r.text == text
  {
    if text != "" then AsNumber(text) else AsText(text)
  }

  /** `parseInt(text) || d`. */
  function IntOrDefault(text: string, d: int): (r: int)
    requires d != 0
    ensures r != 0
    ensures JsParseInt(text, Auto).Some? && JsParseInt(text, Auto).value != 0 ==> r == JsParseInt(text, Auto).value
    ensures JsParseInt(text, Auto) == None || JsParseInt(text, Auto) == Some(0) ==> r == d
  {
    ParseIntOr(text, Auto, d)
  }

  /** A blank field, a 0 and text that is no number all fall to the default;
      any other rendered integer, negative ones included, is kept. */
  lemma IntOrDefaultReadsBack(n: int, d: int)
    requires d != 0
    ensures IntOrDefault("", d) == d
    ensures IntOrDefault(IntString(n), d) == if n == 0 then d else n
  {
    JsParseIntNaN("", Auto);
    JsParseIntOfIntString(n, Auto);
  }

  datatype FormError = RequiredMissing

  /** The organisation's licence form. */
  datatype OrgLicenseForm = OrgLicenseForm(
    softwareName: string,
    vendor: string,
    licenseType: string,
    startDate: string,
    endDate: string,
    seats: string,
    purchaseCost: string)

  datatype OrgLicensePayload = OrgLicensePayload(form: OrgLicenseForm, seats: int, purchaseCost: CostField)

  /** `handleSubmit` of OrgLicenses.js: name and start date are required;
      seats become `parseInt(seats) || 1`. */
  function SubmitOrgLicense(f: OrgLicenseForm): (r: Result<OrgLicensePayload, FormError>)
    ensures r.Failure? <==> f.softwareName == "" || f.startDate == ""
    ensures r.Success? ==> r.value.form == f && r.value.seats != 0
    ensures r.Success? ==> (r.value.purchaseCost == Removed <==> f.purchaseCost == "")
  {
    if f.softwareName == "" || f.startDate == "" then Failure(RequiredMissing)
    else Success(OrgLicensePayload(f, IntOrDefault(f.seats, 1), LicenseCost(f.purchaseCost)))
  }

  /** Seats are never sent as 0, but a negative count goes through. */
  lemma OrgSeatsCoerced(f: OrgLicenseForm, n: int)
    requires f.softwareName != "" && f.startDate != ""
    ensures SubmitOrgLicense(f.(seats := "")).value.seats == 1
    ensures SubmitOrgLicense(f.(seats := IntString(n))).value.seats == if n == 0 then 1 else n
  {
    IntOrDefaultReadsBack(n, 1);
  }

  // ---------------------------------------------------------------------
  // org/OrgAMCContracts.js

  /** The field of a contract the search reads. */
  datatype OrgContract = OrgContract(name: Option<string>)

  predicate ContractMatches(c: OrgContract, searchQuery: string) {
    FieldHas(c.name, Lower(searchQuery))
  }

  function ContractKeep(searchQuery: string): OrgContract -> bool {
    c => ContractMatches(c, searchQuery)
  }

  /** `filteredContracts`. */
  function FilterContracts(cs: seq<OrgContract>, searchQuery: string): (r: seq<OrgContract>)
    ensures |r| <= |cs|
    ensures forall c :: c in r <==> c in cs && ContractMatches(c, searchQuery)
  {
    Filter(cs, ContractKeep(searchQuery))
  }

  /** The search ignores case; an empty one keeps exactly the named
      contracts. */
  lemma ContractSearch(c: OrgContract, searchQuery: string)
    ensures ContractMatches(c, searchQuery) == ContractMatches(c, Lower(searchQuery))
    ensures searchQuery == "" ==> (ContractMatches(c, searchQuery) <==> c.name.Some?)
  {
    LowerQueryStable(searchQuery);
    if searchQuery == "" && c.name.Some? {
      ContainsEmpty(Lower(c.name.value));
    }
  }

  datatype ContractForm = ContractForm(name: string, vendor: string, startDate: string, endDate: string, contractValue: string)

  datatype ContractPayload = ContractPayload(form: ContractForm, contractValue: CostField)

  /** `handleSubmit` of OrgAMCContracts.js: name, start and end date are
      required. */
  function SubmitContract(f: ContractForm): (r: Result<ContractPayload, FormError>)
    ensures r.Failure? <==> f.name == "" || f.startDate == "" || f.endDate == ""
    ensures r.Success? ==> r.value.form == f && r.value.contractValue != Removed && r.value.contractValue.text == f.contractValue
  {
    if f.name == "" || f.startDate == "" || f.endDate == "" then Failure(RequiredMissing)
    else Success(ContractPayload(f, ContractValue(f.contractValue)))
  }

  /** The two organisation pages treat a blank amount differently: the
      licence page removes it, the contract page sends the empty text. */
  lemma BlankAmountsDiffer()
    ensures LicenseCost("") == Removed
    ensures ContractValue("") == AsText("")
  {
  }

  // ---------------------------------------------------------------------
  // admin/Licenses.js

  /** The fields of a licence the admin search reads. */
  datatype AdminLicense = AdminLicense(softwareName: Option<string>, vendor: Option<string>, companyName: Option<string>)

  /** The admin search reads `software_name` without `?.`: the name is
      required here. */
  predicate AdminLicenseMatches(l: AdminLicense, searchQuery: string)
    requires l.softwareName.Some?
  {
    var q := Lower(searchQuery);
    Contains(Lower(l.softwareName.value), q) || TruthyFieldHas(l.vendor, q) || TruthyFieldHas(l.companyName, q)
  }

  function AdminLicenseKeep(searchQuery: string): AdminLicense -> bool {
    (l: AdminLicense) => l.softwareName.Some? && AdminLicenseMatches(l, searchQuery)
  }

  /** `filteredLicenses` of the admin page: `None` when a licence without
      `software_name` makes `toLowerCase` throw, which it does whatever the
      query. */
  function FilterAdminLicenses(ls: seq<AdminLicense>, searchQuery: string): (r: Option<seq<AdminLicense>>)
    ensures r.None? <==> exists i :: 0 <= i < |ls| && ls[i].softwareName.None?
    ensures r.Some? ==> forall l :: l in r.value <==> l in ls && AdminLicenseMatches(l, searchQuery)
  {
    if exists i :: 0 <= i < |ls| && ls[i].softwareName.None? then None
    else Some(Filter(ls, AdminLicenseKeep(searchQuery)))
  }

  /** Whatever the organisation's search finds, the admin search finds too:
      it reads the same two fields and the company name besides. */
  lemma AdminSearchExtendsOrgSearch(l: AdminLicense, searchQuery: string)
    requires l.softwareName.Some?
    ensures OrgLicenseMatches(OrgLicense(l.softwareName, l.vendor), searchQuery) ==> AdminLicenseMatches(l, searchQuery)
    ensures TruthyFieldHas(l.companyName, Lower(searchQuery)) ==> AdminLicenseMatches(l, searchQuery)
  {
  }

  /** The admin's licence form. */
  datatype AdminLicenseForm = AdminLicenseForm(
    companyId: string,
    softwareName: string,
    vendor: string,
    licenseType: string,
    startDate: string,
    endDate: string,
    seats: string,
    purchaseCost: string,
    renewalCost: string,
    renewalReminderDays: string)

  datatype AdminLicensePayload = AdminLicensePayload(
    form: AdminLicenseForm,
    endDate: Option<string>,
    seats: int,
    renewalReminderDays: int,
    purchaseCost: CostField,
    renewalCost: CostField)

  const DefaultReminderDays := 30

  /** `handleSubmit` of admin/Licenses.js: company, name and start date are
      required; empty costs are removed; seats default to 1 and the reminder
      to 30 days; a perpetual licence is sent without an end date. */
  function SubmitAdminLicense(f: AdminLicenseForm): (r: Result<AdminLicensePayload, FormError>)
    ensures r.Failure? <==> f.companyId == "" || f.softwareName == "" || f.startDate == ""
    ensures r.Success? ==> r.value.form == f
    ensures r.Success? ==> (r.value.endDate.None? <==> f.licenseType == "perpetual")
    ensures r.Success? && r.value.endDate.Some? ==> r.value.endDate.value == f.endDate
    ensures r.Success? ==> r.value.seats != 0 && r.value.renewalReminderDays != 0
    ensures r.Success? ==> (r.value.purchaseCost == Removed <==> f.purchaseCost == "")
    ensures r.Success? ==> (r.value.renewalCost == Removed <==> f.renewalCost == "")
  {
    if f.companyId == "" || f.softwareName == "" || f.startDate == "" then Failure(RequiredMissing)
    else
      Success(AdminLicensePayload(
        f,
        if f.licenseType == "perpetual" then None else Some(f.endDate),
        IntOrDefault(f.seats, 1),
        IntOrDefault(f.renewalReminderDays, DefaultReminderDays),
        LicenseCost(f.purchaseCost),
        LicenseCost(f.renewalCost)))
  }

  /** A reminder left blank, or set to 0, is sent as 30 days. */
  lemma ReminderDefault(f: AdminLicenseForm)
    requires f.companyId != "" && f.softwareName != "" && f.startDate != ""
    requires f.renewalReminderDays == "" || f.renewalReminderDays == "0"
    ensures SubmitAdminLicense(f).value.renewalReminderDays == DefaultReminderDays
  {
    IntOrDefaultReadsBack(0, DefaultReminderDays);
    assert IntString(0) == "0";
  }

  /** A saved perpetual licence has no end date, and its row shows
      "Perpetual" whatever day count an end date would give. */
  lemma PerpetualSavedAndShown(f: AdminLicenseForm, daysLeft: Option<int>)
    requires SubmitAdminLicense(f).Success? && f.licenseType == "perpetual"
    ensures SubmitAdminLicense(f).value.endDate == None
    ensures AdminExpiryCell(f.licenseType, daysLeft) == Perpetual
  {
  }

  /** The expiry summary the admin page fetches, by list length. */
  datatype ExpirySummary = ExpirySummary(expiring7Days: nat, expiring30Days: nat, expired: nat)

  /** The attention alert: a summary with a licence expiring within seven
      days or already expired. */
  predicate ShowsAttentionAlert(summary: Option<ExpirySummary>) {
    summary.Some? && (summary.value.expiring7Days > 0 || summary.value.expired > 0)
  }

  /** The "Expiring Soon" card: `(expiring_7_days?.length || 0) +
      (expiring_30_days?.length || 0)`. */
  function ExpiringSoonCount(summary: Option<ExpirySummary>): (r: nat)
    ensures summary == None ==> r == 0
    ensures summary.Some? ==> r >= summary.value.expiring7Days && r >= summary.value.expiring30Days
  {
    if summary == None then 0 else summary.value.expiring7Days + summary.value.expiring30Days
  }

  /** The alert and the "Expiring Soon" card count different lists: the
      alert is raised exactly when the card counts more than the 30-day list
      or something has expired, so a card showing only 30-day licences comes
      without an alert. */
  lemma AlertVersusSoonCard(summary: Option<ExpirySummary>)
    ensures ShowsAttentionAlert(summary) <==>
              summary.Some? && (ExpiringSoonCount(summary) > summary.value.expiring30Days || summary.value.expired > 0)
    ensures ExpiringSoonCount(summary) > 0 && !ShowsAttentionAlert(summary) ==>
              ExpiringSoonCount(summary) == summary.value.expiring30Days
  {
  }

  // ---------------------------------------------------------------------
  // org/OrgDevices.js

  /** The fields of a device the filters read. */
  datatype OrgDevice = OrgDevice(
    brand: Option<string>,
    model: Option<string>,
    serialNumber: Option<string>,
    assetTag: Option<string>,
    status: Option<string>)

  /** The device filter: the status filter (when one is chosen) first, then
      the search over brand, model, serial number and asset tag. */
  predicate DeviceMatches(d: OrgDevice, filterStatus: string, searchQuery: string) {
    if filterStatus != "" && d.status != Some(filterStatus) then false
    else if searchQuery == "" then true
    else
      var q := Lower(searchQuery);
      FieldHas(d.brand, q) || FieldHas(d.model, q) || FieldHas(d.serialNumber, q) || FieldHas(d.assetTag, q)
  }

  function DeviceKeep(filterStatus: string, searchQuery: string): OrgDevice -> bool {
    d => DeviceMatches(d, filterStatus, searchQuery)
  }

  /** `filteredDevices`. */
  function FilterDevices(ds: seq<OrgDevice>, filterStatus: string, searchQuery: string): (r: seq<OrgDevice>)
    ensures |r| <= |ds|
    ensures forall d :: d in r <==> d in ds && DeviceMatches(d, filterStatus, searchQuery)
  {
    Filter(ds, DeviceKeep(filterStatus, searchQuery))
  }

  /** A device of another status is hidden whatever the search; with no
      search the status filter alone decides; the search ignores case. */
  lemma DeviceFilterOrder(d: OrgDevice, filterStatus: string, searchQuery: string)
    ensures filterStatus != "" && d.status != Some(filterStatus) ==> !DeviceMatches(d, filterStatus, searchQuery)
    ensures searchQuery == "" ==>
              (DeviceMatches(d, filterStatus, searchQuery) <==> filterStatus == "" || d.status == Some(filterStatus))
    ensures DeviceMatches(d, filterStatus, searchQuery) == DeviceMatches(d, filterStatus, Lower(searchQuery))
  {
    LowerQueryStable(searchQuery);
  }

  /** With neither filter set, every device is listed, in order. */
  lemma NoFiltersListAll(ds: seq<OrgDevice>)
    ensures FilterDevices(ds, "", "") == ds
  {
    FilterKeepsAll(ds, DeviceKeep("", ""));
  }

  datatype DeviceForm = DeviceForm(
    deviceType: string,
    brand: string,
    model: string,
    serialNumber: string,
    assetTag: string,
    purchaseDate: string,
    warrantyEnd: string,
    status: string)

  /** `handleSubmit` of OrgDevices.js: brand, model and serial number are
      required; the form is sent as it is. */
  function SubmitDevice(f: DeviceForm): (r: Result<DeviceForm, FormError>)
    ensures r.Failure? <==> f.brand == "" || f.model == "" || f.serialNumber == ""
    ensures r.Success? ==> r.value == f
  {
    if f.brand == "" || f.model == "" || f.serialNumber == "" then Failure(RequiredMissing)
    else Success(f)
  }
}

=== FILE: signup.dfy ===
/** The self-service sign-up form (frontend/src/pages/public/SignupPage.js):
    the subdomain cleaner, the name-to-subdomain suggestion, the
    availability check's guard, the two step validations and the submit
    guard.  The availability request itself is a parameter (its answer);
    toasts are modelled by which check failed. */
module Signup {
  import opened Wrappers
  import opened Text
  import opened Slugs

  // ---------------------------------------------------------------------
  // The form

  datatype Form = Form(
    organizationName: string,
    subdomain: string,
    ownerName: string,
    ownerEmail: string,
    ownerPassword: string,
    industry: string)

  /** The form and the tri-state `subdomainAvailable` (`null` is `None`). */
  datatype Page = Page(form: Form, available: Option<bool>)

  /** `value.toLowerCase().replace(/[^a-z0-9-]/g, '')`. */
  function CleanSubdomain(s: string): (r: string)
    ensures |r| <= |s|
    ensures AllSlugChars(r)
  {
    if s == [] then []
    else
      var c := LowerChar(s[0]);
      (if IsSlugChar(c) then [c] else []) + CleanSubdomain(s[1..])
  }

  /** Text of slug characters is left as it is, hyphen runs included. */
  lemma {:induction false} CleanSubdomainKeepsSlugChars(s: string)
    requires AllSlugChars(s)
    ensures CleanSubdomain(s) == s
  {
    if s != [] {
      assert LowerChar(s[0]) == s[0];
      CleanSubdomainKeepsSlugChars(s[1..]);
    }
  }

  /** Cleaning twice removes nothing more. */
  lemma CleanSubdomainIdempotent(s: string)
    ensures CleanSubdomain(CleanSubdomain(s)) == CleanSubdomain(s)
  {
    CleanSubdomainKeepsSlugChars(CleanSubdomain(s));
  }

  /** Unlike `generateSlug`, the cleaner does not collapse hyphens or strip
      them from the ends. */
  lemma CleanerKeepsHyphens()
    ensures CleanSubdomain("-a--b-") == "-a--b-"
  {
    var s := "-a--b-";
    assert AllSlugChars(s);
    CleanSubdomainKeepsSlugChars(s);
  }

  /** A suggested slug passes the cleaner unchanged. */
  lemma SuggestionIsClean(name: string)
    ensures CleanSubdomain(GenerateSlugJs(name)) == GenerateSlugJs(name)
  {
    CleanSubdomainKeepsSlugChars(GenerateSlugJs(name));
  }

  /** The subdomain after the organisation name changes from `oldName` to
      `newName`: the suggestion follows the name while the subdomain is
      still the old suggestion or empty; a subdomain typed by hand stays. */
  function SyncSubdomain(oldName: string, newName: string, subdomain: string): (r: string)
    ensures subdomain == GenerateSlugJs(oldName) || subdomain == "" ==> r == GenerateSlugJs(newName)
    ensures subdomain != GenerateSlugJs(oldName) && subdomain != "" ==> r == subdomain
  {
    if subdomain == GenerateSlugJs(oldName) then GenerateSlugJs(newName)
    else if subdomain == "" then GenerateSlugJs(newName)
    else subdomain
  }

  /** `handleChange(e)`: one field changes; a name edit also updates the
      subdomain, and a subdomain edit is cleaned and resets availability. */
  datatype Edit = EditOrganizationName(value: string) | EditSubdomain(value: string)
                | EditOwnerName(value: string) | EditOwnerEmail(value: string)
                | EditOwnerPassword(value: string) | EditIndustry(value: string)

  function HandleChange(p: Page, e: Edit): (r: Page)
    ensures e.EditSubdomain? ==> r.available == None
    ensures !e.EditSubdomain? ==> r.available == p.available
    ensures !e.EditOrganizationName? && !e.EditSubdomain? ==> r.form.subdomain == p.form.subdomain
  {
    var f := p.form;
    if e.EditOrganizationName? then
      var sub := SyncSubdomain(f.organizationName, e.value, f.subdomain);
      Page(f.(organizationName := e.value, subdomain := sub), p.available)
    else if e.EditSubdomain? then Page(f.(subdomain := CleanSubdomain(e.value)), None)
    else if e.EditOwnerName? then Page(f.(ownerName := e.value), p.available)
    else if e.EditOwnerEmail? then Page(f.(ownerEmail := e.value), p.available)
    else if e.EditOwnerPassword? then Page(f.(ownerPassword := e.value), p.available)
    else Page(f.(industry := e.value), p.available)
  }

  /** Whatever is typed, the subdomain field only ever holds `[a-z0-9-]`. */
  lemma HandleChangeKeepsSubdomainClean(p: Page, e: Edit)
    requires AllSlugChars(p.form.subdomain)
    ensures AllSlugChars(HandleChange(p, e).form.subdomain)
  {
    if e.EditOrganizationName? {
      var f := p.form;
      var r := SyncSubdomain(f.organizationName, e.value, f.subdomain);
      assert r == f.subdomain || r == GenerateSlugJs(e.value);
    }
  }

  /** A subdomain that was following the name keeps following it. */
  lemma SuggestionKeepsFollowing(p: Page, newName: string)
    requires p.form.subdomain == GenerateSlugJs(p.form.organizationName)
    ensures var q := HandleChange(p, EditOrganizationName(newName));
            q.form.subdomain == GenerateSlugJs(q.form.organizationName)
  {
  }

  // ---------------------------------------------------------------------
  // The availability check

  /** What the availability endpoint said: an answer, or a failed request. */
  datatype Response = Answered(available: bool) | RequestFailed

  /** The outcome of `checkSubdomain(subdomain)`: no request and the
      availability reset, with a length error only for a non-empty input;
      otherwise the availability the response gives (a failed request
      counts as unavailable). */
  datatype CheckOutcome = Skipped(showsLengthError: bool) | Checked(available: bool)

  const MinSubdomainLength := 4

  function CheckSubdomain(subdomain: string, response: Response): (r: CheckOutcome)
    ensures r.Skipped? <==> |subdomain| < MinSubdomainLength
    ensures r.Skipped? ==> (r.showsLengthError <==> subdomain != "")
    ensures r.Checked? ==> (r.available <==> response == Answered(true))
  {
    if |subdomain| < MinSubdomainLength then Skipped(subdomain != "")
    else if response.Answered? then Checked(response.available)
    else Checked(false)
  }

  /** `subdomainAvailable` after the check. */
  function AvailabilityAfter(c: CheckOutcome): Option<bool> {
    match c
    case Skipped(_) => None
    case Checked(b) => Some(b)
  }

  /** Only a long enough subdomain the endpoint called available is ever
      marked available. */
  lemma AvailableOnlyWhenConfirmed(subdomain: string, response: Response)
    ensures AvailabilityAfter(CheckSubdomain(subdomain, response)) == Some(true) <==>
              |subdomain| >= MinSubdomainLength && response == Answered(true)
  {
  }

  // ---------------------------------------------------------------------
  // Validation

  datatype Step1Error = OrganizationNameBlank | SubdomainTooShort | SubdomainTaken | IndustryMissing

  /** `validateStep1()`, checks in the page's order. */
  function ValidateStep1(p: Page): (r: Result<(), Step1Error>)
    ensures r.Success? <==>
              && JsTrim(p.form.organizationName) != ""
              && |p.form.subdomain| >= MinSubdomainLength
              && p.available != Some(false)
              && p.form.industry != ""
    ensures r == Failure(OrganizationNameBlank) <==> JsTrim(p.form.organizationName) == ""
    ensures r == Failure(SubdomainTooShort) <==>
              JsTrim(p.form.organizationName) != "" && |p.form.subdomain| < MinSubdomainLength
    ensures r == Failure(SubdomainTaken) <==>
              && JsTrim(p.form.organizationName) != "" && |p.form.subdomain| >= MinSubdomainLength
              && p.available == Some(false)
    ensures r == Failure(IndustryMissing) <==>
              && JsTrim(p.form.organizationName) != "" && |p.form.subdomain| >= MinSubdomainLength
              && p.available != Some(false) && p.form.industry == ""
  {
    if JsTrim(p.form.organizationName) == "" then Failure(OrganizationNameBlank)
    else if p.form.subdomain == "" || |p.form.subdomain| < MinSubdomainLength then Failure(SubdomainTooShort)
    else if p.available == Some(false) then Failure(SubdomainTaken)
    else if p.form.industry == "" then Failure(IndustryMissing)
    else Success(())
  }

  /** The pattern `\S+@\S+\.\S+` matches with its `@` at `at` and its `.` at
      `dot` (one non-space character on each outer side is enough). */
  predicate EmailMatchAt(s: string, at: int, dot: int) {
    && 1 <= at && at + 1 < dot && dot + 1 < |s|
    && s[at] == '@' && s[dot] == '.'
    && !JsIsSpace(s[at - 1]) && !JsIsSpace(s[dot + 1])
    && (forall k :: at < k < dot ==> !JsIsSpace(s[k]))
  }

  /** `/\S+@\S+\.\S+/.test(s)`: the pattern is not anchored, so a match
      anywhere in `s` will do. */
  predicate LooksLikeEmail(s: string) {
    exists at, dot :: 0 <= at < |s| && 0 <= dot < |s| && EmailMatchAt(s, at, dot)
  }

  const MinPasswordLength := 8

  datatype Step2Error = OwnerNameBlank | EmailBlank | EmailInvalid | PasswordTooShort

  /** `validateStep2()`, checks in the page's order. */
  function ValidateStep2(f: Form): (r: Result<(), Step2Error>)
    ensures r.Success? <==>
              && JsTrim(f.ownerName) != ""
              && LooksLikeEmail(f.ownerEmail)
              && |f.ownerPassword| >= MinPasswordLength
    ensures r == Failure(EmailInvalid) ==> JsTrim(f.ownerEmail) != "" && !LooksLikeEmail(f.ownerEmail)
  {
    if JsTrim(f.ownerName) == "" then Failure(OwnerNameBlank)
    else if JsTrim(f.ownerEmail) == "" then Failure(EmailBlank)
    else if !LooksLikeEmail(f.ownerEmail) then Failure(EmailInvalid)
    else if |f.ownerPassword| < MinPasswordLength then Failure(PasswordTooShort)
    else
      EmailNotBlank(f.ownerEmail);
      Success(())
  }

  /** Text the pattern matches is never blank, so the blank-email check only
      chooses the message. */
  lemma EmailNotBlank(s: string)
    requires LooksLikeEmail(s)
    ensures JsTrim(s) != ""
  {
    TrimEmptyIffAllSpace(s, JsIsSpace);
  }

  /** Two addresses the pattern accepts, one it rejects, and one it accepts
      only because it is not anchored. */
  lemma EmailExamples()
    ensures LooksLikeEmail("a@b.co")
    ensures !LooksLikeEmail("a@b")
    ensures LooksLikeEmail("x y@b.c")
  {
    var s := "a@b.co";
    assert EmailMatchAt(s, 1, 3);
    var t := "x y@b.c";
    assert EmailMatchAt(t, 3, 5);
  }

  /** `handleSubmit`: step 2 must pass and the subdomain must have been
      confirmed available (`=== true`, so an unchecked `null` blocks). */
  predicate CanSubmit(p: Page) {
    ValidateStep2(p.form).Success? && p.available == Some(true)
  }

  /** Step 1 lets an unchecked subdomain through; the submit does not. */
  lemma UncheckedPassesStep1ButNotSubmit(p: Page)
    requires p.available == None
    requires JsTrim(p.form.organizationName) != "" && |p.form.subdomain| >= MinSubdomainLength
    requires p.form.industry != ""
    ensures ValidateStep1(p).Success?
    ensures !CanSubmit(p)
  {
  }

  /** Editing the subdomain always blocks the submit until a new check
      answers. */
  lemma SubdomainEditBlocksSubmit(p: Page, v: string)
    ensures !CanSubmit(HandleChange(p, EditSubdomain(v)))
  {
  }
}

=== FILE: slugs.dfy ===
/** Tenant slugs: the back end's `generate_slug` (backend/services/saas_service.py)
    and the sign-up page's `generateSlug` (frontend/src/pages/public/SignupPage.js)
    run the same five regular-expression steps; they differ in which
    characters count as whitespace and in how the final hyphens are removed. */
module Slugs {
  import opened Text

  predicate IsHyphen(c: char) { c == '-' }

  predicate IsSlugChar(c: char) {
    IsAsciiLower(c) || IsAsciiDigit(c) || c == '-'
  }

  /** No two adjacent copies of `c`. */
  predicate NoDoubled(s: string, c: char) {
    forall i, j :: 0 <= i < |s| && 0 <= j < |s| && j == i + 1 ==> !(s[i] == c && s[j] == c)
  }

  predicate AllSlugChars(s: string) {
    forall i :: 0 <= i < |s| ==> IsSlugChar(s[i])
  }

  /** The shape every generated slug has: only `[a-z0-9-]`, no "--", no hyphen
      at either end. */
  predicate IsSlug(s: string) {
    AllSlugChars(s) && NoDoubled(s, '-') && (s != [] ==> s[0] != '-' && s[|s| - 1] != '-')
  }

  /** `re.sub(r'[^a-z0-9\s-]', '', s)`, where `\s` is `ws`. */
  function KeepSlugChars(s: string, ws: char -> bool): string {
    if s == [] then []
    else if IsSlugChar(s[0]) || ws(s[0]) then [s[0]] + KeepSlugChars(s[1..], ws)
    else KeepSlugChars(s[1..], ws)
  }

  /** What survives the filter is a slug character or whitespace. */
  lemma {:induction false} KeepSlugCharsShape(s: string, ws: char -> bool)
    ensures forall i :: 0 <= i < |KeepSlugChars(s, ws)| ==>
              IsSlugChar(KeepSlugChars(s, ws)[i]) || ws(KeepSlugChars(s, ws)[i])
  {
    if s != [] {
      KeepSlugCharsShape(s[1..], ws);
    }
  }

  /** Any property every input character has, every kept character has. */
  lemma {:induction false} KeepSlugCharsKeeps(s: string, ws: char -> bool, q: char -> bool)
    requires forall i :: 0 <= i < |s| ==> q(s[i])
    ensures forall i :: 0 <= i < |KeepSlugChars(s, ws)| ==> q(KeepSlugChars(s, ws)[i])
  {
    if s != [] {
      KeepSlugCharsKeeps(s[1..], ws, q);
    }
  }

  /** Input made only of slug characters and whitespace passes unchanged. */
  lemma {:induction false} KeepSlugCharsNoop(s: string, ws: char -> bool)
    requires forall i :: 0 <= i < |s| ==> IsSlugChar(s[i]) || ws(s[i])
    ensures KeepSlugChars(s, ws) == s
  {
    if s != [] {
      KeepSlugCharsNoop(s[1..], ws);
    }
  }

  /** `re.sub('[p]+', c, s)`: every maximal run of characters satisfying `p`
      becomes the single character `c`. */
  function ReplaceRuns(s: string, p: char -> bool, c: char): string
    decreases |s|
  {
    if s == [] then []
    else if p(s[0]) then [c] + ReplaceRuns(TrimStart(s[1..], p), p, c)
    else [s[0]] + ReplaceRuns(s[1..], p, c)
  }

  /** A property that `c` and every character outside the runs have, every
      output character has. */
  lemma {:induction false} ReplaceRunsKeeps(s: string, p: char -> bool, c: char, q: char -> bool)
    requires q(c)
    requires forall i :: 0 <= i < |s| ==> p(s[i]) || q(s[i])
    ensures forall i :: 0 <= i < |ReplaceRuns(s, p, c)| ==> q(ReplaceRuns(s, p, c)[i])
    decreases |s|
  {
    if s != [] {
      if p(s[0]) {
        var t := TrimStart(s[1..], p);
        assert forall k :: 0 <= k < |t| ==> t[k] == s[1..][|s[1..]| - |t| + k];
        ReplaceRunsKeeps(t, p, c, q);
      } else {
        ReplaceRunsKeeps(s[1..], p, c, q);
      }
    }
  }

  /** Input without a run passes unchanged. */
  lemma {:induction false} ReplaceRunsNoop(s: string, p: char -> bool, c: char)
    requires forall i :: 0 <= i < |s| ==> !p(s[i])
    ensures ReplaceRuns(s, p, c) == s
    decreases |s|
  {
    if s != [] {
      ReplaceRunsNoop(s[1..], p, c);
    }
  }

  /** When `c` itself belongs to the runs, the output never holds two `c` in a
      row. */
  lemma {:induction false} ReplaceRunsNoDoubled(s: string, p: char -> bool, c: char)
    requires p(c)
    ensures NoDoubled(ReplaceRuns(s, p, c), c)
    decreases |s|
  {
    if s != [] {
      if p(s[0]) {
        ReplaceRunsNoDoubled(TrimStart(s[1..], p), p, c);
      } else {
        ReplaceRunsNoDoubled(s[1..], p, c);
      }
    }
  }

  /** `re.sub(r'[\s_]+', '-', s)`, where `\s` is `ws`. */
  function Hyphenate(s: string, ws: char -> bool): string {
    ReplaceRuns(s, c => ws(c) || c == '_', '-')
  }

  /** Text without whitespace and '_' has nothing to hyphenate. */
  lemma HyphenateNoop(s: string, ws: char -> bool)
    requires forall i :: 0 <= i < |s| ==> !ws(s[i]) && s[i] != '_'
    ensures Hyphenate(s, ws) == s
  {
    ReplaceRunsNoop(s, c => ws(c) || c == '_', '-');
  }

  /** A character outside the runs is copied. */
  lemma HyphenateCons(x: char, s: string, ws: char -> bool)
    requires !ws(x) && x != '_'
    ensures Hyphenate([x] + s, ws) == [x] + Hyphenate(s, ws)
  {
    assert ([x] + s)[1..] == s;
  }

  /** A run of one blank or '_' becomes one hyphen. */
  lemma HyphenateBlank(m: char, s: string, ws: char -> bool)
    requires ws(m) || m == '_'
    requires s == [] || (!ws(s[0]) && s[0] != '_')
    ensures Hyphenate([m] + s, ws) == ['-'] + Hyphenate(s, ws)
  {
    assert ([m] + s)[1..] == s;
    TrimStartNoop(s, c => ws(c) || c == '_');
  }

  /** `re.sub('-+', '-', s)`. */
  function CollapseHyphens(s: string): string {
    ReplaceRuns(s, IsHyphen, '-')
  }

  /** Steps one to four, shared by both implementations: lower-case, trim
      `ws`, drop characters outside `[a-z0-9\s-]`, turn runs of whitespace or
      '_' into '-', collapse runs of '-'. */
  function SlugCore(name: string, ws: char -> bool): string {
    CollapseHyphens(Hyphenate(KeepSlugChars(Trim(Lower(name), ws), ws), ws))
  }

  lemma SlugCoreShape(name: string, ws: char -> bool)
    ensures AllSlugChars(SlugCore(name, ws)) && NoDoubled(SlugCore(name, ws), '-')
  {
    var kept := KeepSlugChars(Trim(Lower(name), ws), ws);
    KeepSlugCharsShape(Trim(Lower(name), ws), ws);
    var spaced := Hyphenate(kept, ws);
    ReplaceRunsKeeps(kept, c => ws(c) || c == '_', '-', IsSlugChar);
    ReplaceRunsKeeps(spaced, IsHyphen, '-', IsSlugChar);
    ReplaceRunsNoDoubled(spaced, IsHyphen, '-');
  }

  /** Trimming hyphens off the shared result leaves a slug. */
  lemma TrimHyphensGivesSlug(s: string)
    requires AllSlugChars(s) && NoDoubled(s, '-')
    ensures IsSlug(Trim(s, IsHyphen))
  {
    var k := |s| - |TrimStart(s, IsHyphen)|;
    TrimIsSlice(s, IsHyphen);
    SliceKeeps(s, k, k + |Trim(s, IsHyphen)|);
  }

  /** A slice of text with only slug characters and no "--" has the same. */
  lemma SliceKeeps(s: string, i: nat, j: nat)
    requires i <= j <= |s| && AllSlugChars(s) && NoDoubled(s, '-')
    ensures AllSlugChars(s[i..j]) && NoDoubled(s[i..j], '-')
  {
    assert forall k :: 0 <= k < j - i ==> s[i..j][k] == s[i + k];
  }

  /** `generate_slug(name)`: the shared steps with Python's whitespace, then
      `strip('-')`. */
  function GenerateSlug(name: string): (r: string)
    ensures IsSlug(r)
    ensures Alnum(r) == Alnum(Lower(name))
  {
    var core := SlugCore(name, PyIsSpace);
    SlugCoreShape(name, PyIsSpace);
    TrimHyphensGivesSlug(core);
    WhitespaceHasNoAlnum();
    AlnumSlugCore(name, PyIsSpace);
    AlnumTrim(core, IsHyphen);
    Trim(core, IsHyphen)
  }

  /** The `.replace(/^-|-$/g, '')` step: one leading and one trailing hyphen
      are removed (a lone "-" is removed once). */
  function StripEdgeHyphens(s: string): string {
    var a := if s != [] && s[0] == '-' then s[1..] else s;
    if a != [] && a[|a| - 1] == '-' then a[..|a| - 1] else a
  }

  /** On text without "--", removing one hyphen at each end removes them all. */
  lemma StripEdgeHyphensIsTrim(s: string)
    requires NoDoubled(s, '-')
    ensures StripEdgeHyphens(s) == Trim(s, IsHyphen)
  {
    var a := if s != [] && s[0] == '-' then s[1..] else s;
    if s != [] && s[0] == '-' {
      TrimStartNoop(s[1..], IsHyphen);
    } else {
      TrimStartNoop(s, IsHyphen);
    }
    assert TrimStart(s, IsHyphen) == a;
    if a != [] && a[|a| - 1] == '-' {
      TrimEndNoop(a[..|a| - 1], IsHyphen);
    } else {
      TrimEndNoop(a, IsHyphen);
    }
  }

  /** `generateSlug(name)` of the sign-up page: the shared steps with
      JavaScript's whitespace, then the edge-hyphen replace. */
  function GenerateSlugJs(name: string): (r: string)
    ensures IsSlug(r)
    ensures Alnum(r) == Alnum(Lower(name))
  {
    var core := SlugCore(name, JsIsSpace);
    SlugCoreShape(name, JsIsSpace);
    StripEdgeHyphensIsTrim(core);
    TrimHyphensGivesSlug(core);
    WhitespaceHasNoAlnum();
    AlnumSlugCore(name, JsIsSpace);
    AlnumStripEdgeHyphens(core);
    StripEdgeHyphens(core)
  }

  lemma SlugCharNotSpace(c: char)
    requires IsSlugChar(c)
    ensures !PyIsSpace(c) && !JsIsSpace(c) && c != '_'
  {
  }

  lemma LowerNoop(s: string)
    requires forall i :: 0 <= i < |s| ==> !IsAsciiUpper(s[i])
    ensures Lower(s) == s
  {
  }

  lemma {:induction false} CollapseNoop(s: string)
    requires NoDoubled(s, '-')
    ensures CollapseHyphens(s) == s
    decreases |s|
  {
    if s != [] {
      var t := s[1..];
      assert forall k :: 0 <= k < |t| ==> t[k] == s[k + 1];
      assert NoDoubled(t, '-');
      CollapseNoop(t);
      if s[0] == '-' {
        assert t == [] || t[0] != '-';
        TrimStartNoop(t, IsHyphen);
      }
    }
  }

  /** A slug is its own slug: generating again changes nothing. */
  lemma GenerateSlugFixesSlugs(s: string)
    requires IsSlug(s)
    ensures GenerateSlug(s) == s
  {
    LowerNoop(s);
    if s != [] {
      SlugCharNotSpace(s[0]);
      SlugCharNotSpace(s[|s| - 1]);
    }
    TrimNoop(s, PyIsSpace);
    forall i | 0 <= i < |s|
      ensures !PyIsSpace(s[i]) && s[i] != '_'
    {
      SlugCharNotSpace(s[i]);
    }
    KeepSlugCharsNoop(s, PyIsSpace);
    HyphenateNoop(s, PyIsSpace);
    CollapseNoop(s);
    assert SlugCore(s, PyIsSpace) == s;
    TrimNoop(s, IsHyphen);
  }

  /** `generate_slug` is idempotent. */
  lemma GenerateSlugIdempotent(name: string)
    ensures GenerateSlug(GenerateSlug(name)) == GenerateSlug(name)
  {
    GenerateSlugFixesSlugs(GenerateSlug(name));
  }

  // ---------------------------------------------------------------------
  // What a slug keeps of the name

  /** The letters and digits of `s`, in order. */
  function Alnum(s: string): (r: string)
    ensures |r| <= |s|
    ensures forall i :: 0 <= i < |r| ==> IsAlnum(r[i])
  {
    if s == [] then [] else (if IsAlnum(s[0]) then [s[0]] else []) + Alnum(s[1..])
  }

  lemma {:induction false} AlnumAppend(a: string, b: string)
    ensures Alnum(a + b) == Alnum(a) + Alnum(b)
  {
    if a == [] {
      assert a + b == b;
    } else {
      assert (a + b)[0] == a[0];
      assert (a + b)[1..] == a[1..] + b;
      AlnumAppend(a[1..], b);
    }
  }

  /** A character class without letters or digits. */
  predicate NoAlnum(p: char -> bool) {
    forall c: char :: p(c) ==> !IsAlnum(c)
  }

  lemma {:induction false} AlnumTrimStart(s: string, p: char -> bool)
    requires NoAlnum(p)
    ensures Alnum(TrimStart(s, p)) == Alnum(s)
  {
    if s != [] && p(s[0]) {
      AlnumTrimStart(s[1..], p);
    }
  }

  lemma {:induction false} AlnumTrimEnd(s: string, p: char -> bool)
    requires NoAlnum(p)
    ensures Alnum(TrimEnd(s, p)) == Alnum(s)
  {
    if s != [] && p(s[|s| - 1]) {
      var n := |s| - 1;
      AlnumTrimEnd(s[..n], p);
      assert s == s[..n] + [s[n]];
      AlnumAppend(s[..n], [s[n]]);
    }
  }

  /** Trimming characters that are not letters or digits keeps them all. */
  lemma AlnumTrim(s: string, p: char -> bool)
    requires NoAlnum(p)
    ensures Alnum(Trim(s, p)) == Alnum(s)
  {
    AlnumTrimStart(s, p);
    AlnumTrimEnd(TrimStart(s, p), p);
  }

  /** The filter only drops characters outside `[a-z0-9]`. */
  lemma {:induction false} AlnumKeepSlugChars(s: string, ws: char -> bool)
    ensures Alnum(KeepSlugChars(s, ws)) == Alnum(s)
  {
    if s != [] {
      AlnumKeepSlugChars(s[1..], ws);
      if IsSlugChar(s[0]) || ws(s[0]) {
        var t := [s[0]] + KeepSlugChars(s[1..], ws);
        assert t[0] == s[0] && t[1..] == KeepSlugChars(s[1..], ws);
      }
    }
  }

  /** Replacing runs of non-alphanumerics by a non-alphanumeric keeps every
      letter and digit. */
  lemma {:induction false} AlnumReplaceRuns(s: string, p: char -> bool, c: char)
    requires NoAlnum(p) && !IsAlnum(c)
    ensures Alnum(ReplaceRuns(s, p, c)) == Alnum(s)
    decreases |s|
  {
    if s != [] {
      if p(s[0]) {
        var t := TrimStart(s[1..], p);
        AlnumReplaceRuns(t, p, c);
        AlnumTrimStart(s[1..], p);
        var r := [c] + ReplaceRuns(t, p, c);
        assert r[0] == c && r[1..] == ReplaceRuns(t, p, c);
      } else {
        AlnumReplaceRuns(s[1..], p, c);
        var r := [s[0]] + ReplaceRuns(s[1..], p, c);
        assert r[0] == s[0] && r[1..] == ReplaceRuns(s[1..], p, c);
      }
    }
  }

  /** The shared steps keep the letters and digits of the lower-cased name. */
  lemma AlnumSlugCore(name: string, ws: char -> bool)
    requires NoAlnum(ws)
    ensures Alnum(SlugCore(name, ws)) == Alnum(Lower(name))
  {
    var t := Trim(Lower(name), ws);
    AlnumTrim(Lower(name), ws);
    var kept := KeepSlugChars(t, ws);
    AlnumKeepSlugChars(t, ws);
    AlnumReplaceRuns(kept, c => ws(c) || c == '_', '-');
    AlnumReplaceRuns(Hyphenate(kept, ws), IsHyphen, '-');
  }

  lemma WhitespaceHasNoAlnum()
    ensures NoAlnum(PyIsSpace) && NoAlnum(JsIsSpace) && NoAlnum(IsHyphen)
  {
  }

  lemma AlnumStripEdgeHyphens(s: string)
    ensures Alnum(StripEdgeHyphens(s)) == Alnum(s)
  {
    var a := if s != [] && s[0] == '-' then s[1..] else s;
    if s != [] && s[0] == '-' {
      assert s == [s[0]] + s[1..];
      AlnumAppend([s[0]], s[1..]);
    }
    if a != [] && a[|a| - 1] == '-' {
      var n := |a| - 1;
      assert a == a[..n] + [a[n]];
      AlnumAppend(a[..n], [a[n]]);
    }
  }

  // ---------------------------------------------------------------------
  // A worked name

  lemma {:induction false} KeepSlugCharsAppend(a: string, b: string, ws: char -> bool)
    ensures KeepSlugChars(a + b, ws) == KeepSlugChars(a, ws) + KeepSlugChars(b, ws)
  {
    if a == [] {
      assert a + b == b;
    } else {
      assert (a + b)[0] == a[0];
      assert (a + b)[1..] == a[1..] + b;
      KeepSlugCharsAppend(a[1..], b, ws);
    }
  }

  /** Leading characters of `p` in front of text that does not start with
      one are all trimmed. */
  lemma {:induction false} TrimStartPrefix(run: string, s: string, p: char -> bool)
    requires forall i :: 0 <= i < |run| ==> p(run[i])
    requires s == [] || !p(s[0])
    ensures TrimStart(run + s, p) == s
  {
    if run == [] {
      assert run + s == s;
      TrimStartNoop(s, p);
    } else {
      assert (run + s)[0] == run[0];
      assert (run + s)[1..] == run[1..] + s;
      TrimStartPrefix(run[1..], s, p);
    }
  }

  /** A whole run of blanks and '_' becomes one hyphen. */
  lemma HyphenateRun(run: string, s: string, ws: char -> bool)
    requires run != [] && forall i :: 0 <= i < |run| ==> ws(run[i]) || run[i] == '_'
    requires s == [] || (!ws(s[0]) && s[0] != '_')
    ensures Hyphenate(run + s, ws) == ['-'] + Hyphenate(s, ws)
  {
    var p := c => ws(c) || c == '_';
    assert (run + s)[0] == run[0];
    assert (run + s)[1..] == run[1..] + s;
    TrimStartPrefix(run[1..], s, p);
  }

  lemma AcmeLower(name: string)
    requires name == "Acme IT & Co."
    ensures Lower(name) == "acme it & co."
  {
    var l := Lower(name);
    assert forall i :: 0 <= i < 13 ==> l[i] == "acme it & co."[i];
  }

  /** The filter drops the ampersand and the full stop. */
  lemma AcmeKept(s: string, ws: char -> bool)
    requires s == "acme it & co."
    requires ws(' ') && !ws('&') && !ws('.')
    ensures KeepSlugChars(s, ws) == "acme it  co"
  {
    var a, amp, b, dot := s[..8], s[8..9], s[9..12], s[12..];
    assert s == a + amp + b + dot;
    KeepSlugCharsAppend(a + amp + b, dot, ws);
    KeepSlugCharsAppend(a + amp, b, ws);
    KeepSlugCharsAppend(a, amp, ws);
    KeepSlugCharsNoop(a, ws);
    KeepSlugCharsNoop(b, ws);
    assert amp == ['&'] && amp[1..] == [];
    assert KeepSlugChars(amp, ws) == [];
    assert dot == ['.'] && dot[1..] == [];
    assert KeepSlugChars(dot, ws) == [];
    assert KeepSlugChars(s, ws) == a + b;
  }

  /** The letters of the example are not whitespace. */
  predicate NotSpaceInAcme(ws: char -> bool) {
    !ws('a') && !ws('c') && !ws('m') && !ws('e') && !ws('i') && !ws('t') && !ws('o')
  }

  /** A word without blanks or '_' is copied. */
  lemma {:induction false} HyphenateWord(w: string, s: string, ws: char -> bool)
    requires forall i :: 0 <= i < |w| ==> !ws(w[i]) && w[i] != '_'
    ensures Hyphenate(w + s, ws) == w + Hyphenate(s, ws)
  {
    if w == [] {
      assert w + s == s;
    } else {
      HyphenateWord(w[1..], s, ws);
      assert w + s == [w[0]] + (w[1..] + s);
      HyphenateCons(w[0], w[1..] + s, ws);
      assert w + Hyphenate(s, ws) == [w[0]] + (w[1..] + Hyphenate(s, ws));
    }
  }

  /** The part after the first word: each run of spaces becomes one
      hyphen. */
  lemma AcmeHyphenatedTail(u: string, ws: char -> bool)
    requires u == " it  co"
    requires ws(' ') && NotSpaceInAcme(ws)
    ensures Hyphenate(u, ws) == "-it-co"
  {
    var co := u[5..];
    HyphenateNoop(co, ws);
    assert u[3..] == u[3..5] + co;
    HyphenateRun(u[3..5], co, ws);
    assert u[1..] == u[1..3] + u[3..];
    HyphenateWord(u[1..3], u[3..], ws);
    assert u == u[..1] + u[1..];
    HyphenateRun(u[..1], u[1..], ws);
  }

  /** Each run of spaces becomes one hyphen. */
  lemma AcmeHyphenated(t: string, ws: char -> bool)
    requires t == "acme it  co"
    requires ws(' ') && NotSpaceInAcme(ws)
    ensures Hyphenate(t, ws) == "acme-it-co"
  {
    AcmeHyphenatedTail(t[4..], ws);
    assert t == t[..4] + t[4..];
    HyphenateWord(t[..4], t[4..], ws);
  }

  /** The steps shared by both implementations, on the name "Acme IT & Co.":
      the ampersand and the full stop are dropped, and each run of spaces
      becomes one hyphen. */
  lemma AcmeSlugCore(name: string, ws: char -> bool)
    requires name == "Acme IT & Co."
    requires ws(' ') && NotSpaceInAcme(ws) && !ws('&') && !ws('.')
    ensures SlugCore(name, ws) == "acme-it-co"
  {
    AcmeLower(name);
    var lower := Lower(name);
    TrimNoop(lower, ws);
    AcmeKept(lower, ws);
    var kept := KeepSlugChars(lower, ws);
    AcmeHyphenated(kept, ws);
    var spaced := Hyphenate(kept, ws);
    CollapseNoop(spaced);
  }

  /** `generate_slug("Acme IT & Co.")` is "acme-it-co". */
  lemma AcmeSlug(name: string)
    requires name == "Acme IT & Co."
    ensures GenerateSlug(name) == "acme-it-co"
  {
    AcmeSlugCore(name, PyIsSpace);
    TrimNoop(SlugCore(name, PyIsSpace), IsHyphen);
  }

  /** The sign-up page suggests the same subdomain for that name. */
  lemma AcmeSlugJs(name: string)
    requires name == "Acme IT & Co."
    ensures GenerateSlugJs(name) == "acme-it-co"
  {
    AcmeSlugCore(name, JsIsSpace);
    StripEdgeHyphensNoop(SlugCore(name, JsIsSpace));
  }

  // ---------------------------------------------------------------------
  // Back end versus front end

  /** Python and JavaScript agree on whether `c` is whitespace. */
  predicate SameSpace(c: char) {
    PyIsSpace(c) == JsIsSpace(c)
  }

  /** Predicates that agree on every character of `s`. */
  predicate AgreeOn(s: string, p: char -> bool, q: char -> bool) {
    forall i :: 0 <= i < |s| ==> p(s[i]) == q(s[i])
  }

  lemma {:induction false} TrimStartAgree(s: string, p: char -> bool, q: char -> bool)
    requires AgreeOn(s, p, q)
    ensures TrimStart(s, p) == TrimStart(s, q)
    decreases |s|
  {
    if s != [] {
      TrimStartAgree(s[1..], p, q);
    }
  }

  lemma {:induction false} TrimEndAgree(s: string, p: char -> bool, q: char -> bool)
    requires AgreeOn(s, p, q)
    ensures TrimEnd(s, p) == TrimEnd(s, q)
    decreases |s|
  {
    if s != [] {
      TrimEndAgree(s[..|s| - 1], p, q);
    }
  }

  lemma TrimAgree(s: string, p: char -> bool, q: char -> bool)
    requires AgreeOn(s, p, q)
    ensures Trim(s, p) == Trim(s, q)
  {
    TrimStartAgree(s, p, q);
    var a := TrimStart(s, p);
    AgreeOnSuffix(s, |s| - |a|, p, q);
    TrimEndAgree(a, p, q);
  }

  /** Predicates that agree on a string agree on each of its suffixes. */
  lemma AgreeOnSuffix(s: string, k: nat, p: char -> bool, q: char -> bool)
    requires AgreeOn(s, p, q) && k <= |s|
    ensures AgreeOn(s[k..], p, q)
  {
    assert forall i :: 0 <= i < |s| - k ==> s[k..][i] == s[k + i];
  }

  /** Any property every character has survives trimming. */
  lemma TrimKeeps(s: string, ws: char -> bool, q: char -> bool)
    requires forall i :: 0 <= i < |s| ==> q(s[i])
    ensures forall i :: 0 <= i < |Trim(s, ws)| ==> q(Trim(s, ws)[i])
  {
    var k := |s| - |TrimStart(s, ws)|;
    TrimIsSlice(s, ws);
    SliceKeepsAll(s, k, k + |Trim(s, ws)|, q);
  }

  lemma {:induction false} KeepAgree(s: string, p: char -> bool, q: char -> bool)
    requires AgreeOn(s, p, q)
    ensures KeepSlugChars(s, p) == KeepSlugChars(s, q)
    decreases |s|
  {
    if s != [] {
      KeepAgree(s[1..], p, q);
    }
  }

  lemma {:induction false} ReplaceRunsAgree(s: string, p: char -> bool, q: char -> bool, c: char)
    requires AgreeOn(s, p, q)
    ensures ReplaceRuns(s, p, c) == ReplaceRuns(s, q, c)
    decreases |s|
  {
    if s != [] {
      var rest := s[1..];
      AgreeOnSuffix(s, 1, p, q);
      if p(s[0]) {
        TrimStartAgree(rest, p, q);
        var t := TrimStart(rest, p);
        AgreeOnSuffix(rest, |rest| - |t|, p, q);
        ReplaceRunsAgree(t, p, q, c);
      } else {
        ReplaceRunsAgree(rest, p, q, c);
      }
    }
  }

  lemma HyphenateAgree(s: string, p: char -> bool, q: char -> bool)
    requires AgreeOn(s, p, q)
    ensures Hyphenate(s, p) == Hyphenate(s, q)
  {
    ReplaceRunsAgree(s, c => p(c) || c == '_', c => q(c) || c == '_', '-');
  }

  /** Case folding and trimming agree, and what they leave still holds only
      characters on which the languages agree. */
  lemma TrimmedAgree(name: string)
    requires forall i :: 0 <= i < |name| ==> SameSpace(name[i])
    ensures Trim(Lower(name), PyIsSpace) == Trim(Lower(name), JsIsSpace)
    ensures forall i :: 0 <= i < |Trim(Lower(name), PyIsSpace)| ==> SameSpace(Trim(Lower(name), PyIsSpace)[i])
  {
    var l := Lower(name);
    assert AgreeOn(l, PyIsSpace, JsIsSpace);
    TrimAgree(l, PyIsSpace, JsIsSpace);
    TrimKeeps(l, PyIsSpace, SameSpace);
  }

  /** The four shared steps give the same text in both languages. */
  lemma SlugCoreAgree(name: string)
    requires forall i :: 0 <= i < |name| ==> SameSpace(name[i])
    ensures SlugCore(name, PyIsSpace) == SlugCore(name, JsIsSpace)
  {
    TrimmedAgree(name);
    var t := Trim(Lower(name), PyIsSpace);
    KeepAgree(t, PyIsSpace, JsIsSpace);
    KeepSlugCharsKeeps(t, PyIsSpace, SameSpace);
    HyphenateAgree(KeepSlugChars(t, PyIsSpace), PyIsSpace, JsIsSpace);
  }

  /** On names in which the two languages agree about whitespace, the sign-up
      page suggests exactly the slug the back end would generate. */
  lemma SlugsAgree(name: string)
    requires forall i :: 0 <= i < |name| ==> SameSpace(name[i])
    ensures GenerateSlugJs(name) == GenerateSlug(name)
  {
    SlugCoreAgree(name);
    SlugCoreShape(name, JsIsSpace);
    StripEdgeHyphensIsTrim(SlugCore(name, JsIsSpace));
  }

  /** The characters Python counts as whitespace and JavaScript does not:
      the separators U+001C..U+001F and NEXT LINE (U+0085). */
  predicate PythonOnlySpace(c: char) {
    28 <= c as int <= 31 || c as int == 0x85
  }

  /** An alphanumeric slug character. */
  predicate IsAlnum(c: char) {
    IsAsciiLower(c) || IsAsciiDigit(c)
  }

  /** Lower-case alphanumerics around a separator survive case folding and
      trimming in both languages. */
  lemma SeparatorTrimmed(x: char, m: char, y: char, ws: char -> bool)
    requires IsAlnum(x) && IsAlnum(y) && !IsAsciiUpper(m) && !ws(x) && !ws(y)
    ensures Trim(Lower([x, m, y]), ws) == [x, m, y]
  {
    assert Lower([x, m, y]) == [x, m, y];
    TrimNoop([x, m, y], ws);
  }

  lemma SeparatorKeptByPythonFilter(x: char, m: char, y: char)
    requires IsAlnum(x) && IsAlnum(y) && PythonOnlySpace(m)
    ensures KeepSlugChars([x, m, y], PyIsSpace) == [x, m, y]
  {
    assert [x, m, y][1..] == [m, y] && [m, y][1..] == [y];
    assert KeepSlugChars([y], PyIsSpace) == [y];
    assert KeepSlugChars([m, y], PyIsSpace) == [m, y];
  }

  lemma SeparatorDroppedByJsFilter(x: char, m: char, y: char)
    requires IsAlnum(x) && IsAlnum(y) && PythonOnlySpace(m)
    ensures KeepSlugChars([x, m, y], JsIsSpace) == [x, y]
  {
    assert [x, m, y][1..] == [m, y] && [m, y][1..] == [y];
    assert KeepSlugChars([y], JsIsSpace) == [y];
    assert KeepSlugChars([m, y], JsIsSpace) == [y];
  }

  lemma SeparatorHyphenated(x: char, m: char, y: char)
    requires IsAlnum(x) && IsAlnum(y) && PythonOnlySpace(m)
    ensures Hyphenate([x, m, y], PyIsSpace) == [x, '-', y]
  {
    SlugCharNotSpace(x);
    SlugCharNotSpace(y);
    assert PyIsSpace(m);
    HyphenateSeparator(x, m, y, PyIsSpace);
  }

  /** A single blank between two other characters becomes a hyphen. */
  lemma HyphenateSeparator(x: char, m: char, y: char, ws: char -> bool)
    requires !ws(x) && x != '_' && !ws(y) && y != '_' && ws(m)
    ensures Hyphenate([x, m, y], ws) == [x, '-', y]
  {
    var my := [m] + [y];
    assert [x] + my == [x, m, y];
    HyphenateOne(y, ws);
    HyphenateBlank(m, [y], ws);
    HyphenateCons(x, my, ws);
  }

  lemma HyphenateOne(y: char, ws: char -> bool)
    requires !ws(y) && y != '_'
    ensures Hyphenate([y], ws) == [y]
  {
    HyphenateNoop([y], ws);
  }

  lemma HyphenBetweenAlnumsStays(x: char, y: char)
    requires IsAlnum(x) && IsAlnum(y)
    ensures CollapseHyphens([x, '-', y]) == [x, '-', y]
  {
    CollapseNoop([x, '-', y]);
  }

  lemma AlnumPairStays(x: char, y: char)
    requires IsAlnum(x) && IsAlnum(y)
    ensures CollapseHyphens(Hyphenate([x, y], JsIsSpace)) == [x, y]
  {
    HyphenateNoop([x, y], JsIsSpace);
    CollapseNoop([x, y]);
  }

  /** Python treats the middle character as whitespace: the shared steps turn
      it into a hyphen. */
  lemma SeparatorHyphenatedByPython(x: char, m: char, y: char)
    requires IsAlnum(x) && IsAlnum(y) && PythonOnlySpace(m)
    ensures SlugCore([x, m, y], PyIsSpace) == [x, '-', y]
  {
    SeparatorTrimmed(x, m, y, PyIsSpace);
    SeparatorKeptByPythonFilter(x, m, y);
    SeparatorHyphenated(x, m, y);
    HyphenBetweenAlnumsStays(x, y);
  }

  /** JavaScript does not, and the filter drops the character. */
  lemma SeparatorDroppedByJavaScript(x: char, m: char, y: char)
    requires IsAlnum(x) && IsAlnum(y) && PythonOnlySpace(m)
    ensures SlugCore([x, m, y], JsIsSpace) == [x, y]
  {
    SeparatorTrimmed(x, m, y, JsIsSpace);
    SeparatorDroppedByJsFilter(x, m, y);
    AlnumPairStays(x, y);
  }

  /** What the back end makes of such a name. */
  lemma SeparatorSlugPython(x: char, m: char, y: char)
    requires IsAlnum(x) && IsAlnum(y) && PythonOnlySpace(m)
    ensures GenerateSlug([x, m, y]) == [x, '-', y]
  {
    SeparatorHyphenatedByPython(x, m, y);
    TrimNoop([x, '-', y], IsHyphen);
  }

  /** What the sign-up page makes of it. */
  lemma SeparatorSlugJs(x: char, m: char, y: char)
    requires IsAlnum(x) && IsAlnum(y) && PythonOnlySpace(m)
    ensures GenerateSlugJs([x, m, y]) == [x, y]
  {
    assert SlugCore([x, m, y], JsIsSpace) == [x, y] by {
      SeparatorDroppedByJavaScript(x, m, y);
    }
    assert StripEdgeHyphens([x, y]) == [x, y] by {
      StripEdgeHyphensNoop([x, y]);
    }
  }

  /** Text that neither starts nor ends with a hyphen loses nothing. */
  lemma StripEdgeHyphensNoop(s: string)
    requires s != [] ==> s[0] != '-' && s[|s| - 1] != '-'
    ensures StripEdgeHyphens(s) == s
  {
  }

  /** Between two alphanumerics, a character only Python counts as whitespace
      (such as U+001C) makes the sign-up page suggest a different slug from
      the one the back end generates: "a\U{1c}b" becomes "a-b" on the server
      and "ab" in the browser. */
  lemma SlugsDisagreeOnSeparator(x: char, m: char, y: char)
    requires IsAlnum(x) && IsAlnum(y) && PythonOnlySpace(m)
    ensures GenerateSlug([x, m, y]) == [x, '-', y]
    ensures GenerateSlugJs([x, m, y]) == [x, y]
    ensures GenerateSlug([x, m, y]) != GenerateSlugJs([x, m, y])
  {
    SeparatorSlugPython(x, m, y);
    SeparatorSlugJs(x, m, y);
  }



}

=== FILE: subscriptions.dfy ===
/** The webhook-driven subscription transitions of the tenant service
    (backend/services/saas_service.py, `update_subscription_status` and the
    three `handle_*` functions): each is a map-to-map transition of the
    `organizations` collection that touches one document, and only its
    status, plan, subscription id and `updated_at`. */
module Subscriptions {
  import opened Wrappers
  import opened Plans
  import opened Tenants
  import opened Calendar
  import opened FeatureGate

  /** The documents agree on every field `update_subscription_status` leaves
      alone. */
  predicate SameApartFromSubscription(a: Org, b: Org) {
    a.(planId := b.planId, subscriptionId := b.subscriptionId,
       subscriptionStatus := b.subscriptionStatus, updatedAt := b.updatedAt) == b
  }

  /** `update_subscription_status`: a `$set` of the status and the time, plus
      the plan and the subscription id when they are truthy.  An id that
      matches no document updates nothing. */
  function UpdateSubscriptionStatus(orgs: map<string, Org>, orgId: string, status: string,
                                    planId: Option<string>, subscriptionId: Option<string>,
                                    now: DateTime): (r: map<string, Org>)
    ensures r.Keys == orgs.Keys
    ensures forall k :: k in orgs && k != orgId ==> r[k] == orgs[k]
    ensures orgId in orgs ==>
              && r[orgId].subscriptionStatus == status
              && r[orgId].updatedAt == now
              && r[orgId].planId == (if Present(planId) then planId.value else orgs[orgId].planId)
              && r[orgId].subscriptionId == (if Present(subscriptionId) then subscriptionId else orgs[orgId].subscriptionId)
              && SameApartFromSubscription(orgs[orgId], r[orgId])
  {
    if orgId !in orgs then orgs
    else
      var o := orgs[orgId];
      var planned := if Present(planId) then o.(planId := planId.value) else o;
      var linked := if Present(subscriptionId) then planned.(subscriptionId := subscriptionId) else planned;
      orgs[orgId := linked.(subscriptionStatus := status, updatedAt := now)]
  }

  /** The `notes` entry of a subscription payload: missing, JSON `null`, or an
      object whose values are strings or `null`. */
  datatype Notes = NotesAbsent | NotesNull | NotesObject(entries: map<string, Option<string>>)

  datatype SubscriptionData = SubscriptionData(notes: Notes, id: Option<string>)

  /** `None.get(...)` raises `AttributeError` when `notes` is `null`. */
  datatype WebhookError = NotesNotAnObject

  const DefaultPaidPlan := "plan_pro"

  /** `subscription_data.get("notes", {}).get("plan_id", "plan_pro")`. */
  function ActivatedPlanId(notes: Notes): (r: Result<Option<string>, WebhookError>)
    ensures r.Failure? <==> notes == NotesNull
    ensures notes.NotesAbsent? ==> r == Success(Some(DefaultPaidPlan))
    ensures notes.NotesObject? && "plan_id" !in notes.entries ==> r == Success(Some(DefaultPaidPlan))
    ensures notes.NotesObject? && "plan_id" in notes.entries ==> r == Success(notes.entries["plan_id"])
  {
    match notes
    case NotesAbsent => Success(Some(DefaultPaidPlan))
    case NotesNull => Failure(NotesNotAnObject)
    case NotesObject(entries) =>
      Success(if "plan_id" in entries then entries["plan_id"] else Some(DefaultPaidPlan))
  }

  /** `handle_subscription_activated`. */
  function HandleSubscriptionActivated(orgs: map<string, Org>, orgId: string, data: SubscriptionData,
                                       now: DateTime): (r: Result<map<string, Org>, WebhookError>)
    ensures r.Failure? <==> data.notes == NotesNull
    ensures r.Success? ==> r.value.Keys == orgs.Keys
    ensures r.Success? ==> forall k :: k in orgs && k != orgId ==> r.value[k] == orgs[k]
    ensures r.Success? && orgId in orgs ==>
              && r.value[orgId].subscriptionStatus == "active"
              && r.value[orgId].updatedAt == now
              && (data.notes.NotesAbsent? ==> r.value[orgId].planId == DefaultPaidPlan)
              && (data.notes.NotesObject? && "plan_id" !in data.notes.entries ==> r.value[orgId].planId == DefaultPaidPlan)
              && (data.notes.NotesObject? && "plan_id" in data.notes.entries ==>
                    r.value[orgId].planId == (if Present(data.notes.entries["plan_id"]) then data.notes.entries["plan_id"].value
                                              else orgs[orgId].planId))
              && r.value[orgId].subscriptionId == (if Present(data.id) then data.id else orgs[orgId].subscriptionId)
              && SameApartFromSubscription(orgs[orgId], r.value[orgId])
  {
    match ActivatedPlanId(data.notes)
    case Failure(e) => Failure(e)
    case Success(planId) => Success(UpdateSubscriptionStatus(orgs, orgId, "active", planId, data.id, now))
  }

  /** `handle_subscription_cancelled`. */
  function HandleSubscriptionCancelled(orgs: map<string, Org>, orgId: string, now: DateTime): (r: map<string, Org>)
    ensures r.Keys == orgs.Keys
    ensures forall k :: k in orgs && k != orgId ==> r[k] == orgs[k]
    ensures orgId in orgs ==>
              && r[orgId].subscriptionStatus == "cancelled" && r[orgId].planId == DefaultPlanId
              && r[orgId].subscriptionId == orgs[orgId].subscriptionId
              && r[orgId].updatedAt == now
              && SameApartFromSubscription(orgs[orgId], r[orgId])
  {
    UpdateSubscriptionStatus(orgs, orgId, "cancelled", Some(DefaultPlanId), None, now)
  }

  /** `handle_payment_failed`. */
  function HandlePaymentFailed(orgs: map<string, Org>, orgId: string, now: DateTime): (r: map<string, Org>)
    ensures r.Keys == orgs.Keys
    ensures forall k :: k in orgs && k != orgId ==> r[k] == orgs[k]
    ensures orgId in orgs ==>
              && r[orgId].subscriptionStatus == "past_due" && r[orgId].planId == orgs[orgId].planId
              && r[orgId].subscriptionId == orgs[orgId].subscriptionId
              && r[orgId].updatedAt == now
              && SameApartFromSubscription(orgs[orgId], r[orgId])
  {
    UpdateSubscriptionStatus(orgs, orgId, "past_due", None, None, now)
  }

  /** Replaying a webhook changes nothing further. */
  lemma UpdateIsIdempotent(orgs: map<string, Org>, orgId: string, status: string,
                           planId: Option<string>, subscriptionId: Option<string>, now: DateTime)
    ensures var once := UpdateSubscriptionStatus(orgs, orgId, status, planId, subscriptionId, now);
            UpdateSubscriptionStatus(once, orgId, status, planId, subscriptionId, now) == once
  {
  }

  /** A missing, `null` or empty plan id or subscription id leaves the stored
      one in place. */
  lemma FalsyArgumentsKeepStoredValues(orgs: map<string, Org>, orgId: string, status: string,
                                       planId: Option<string>, subscriptionId: Option<string>, now: DateTime)
    requires orgId in orgs && !Present(planId) && !Present(subscriptionId)
    ensures var r := UpdateSubscriptionStatus(orgs, orgId, status, planId, subscriptionId, now);
            r[orgId] == orgs[orgId].(subscriptionStatus := status, updatedAt := now)
  {
  }

  /** After a cancellation the tenant gets the free plan's features, with its
      overrides still laid over them (the status is not "expired"). */
  lemma CancelledGetsFreePlan(orgs: map<string, Org>, orgId: string, now: DateTime)
    requires orgId in orgs
    ensures GetPlanFeatures(HandleSubscriptionCancelled(orgs, orgId, now), orgId)
            == FreePlan.features + orgs[orgId].featureOverrides
  {
    var after := HandleSubscriptionCancelled(orgs, orgId, now);
    assert PlanById(after[orgId].planId) == FreePlan;
    assert after[orgId].featureOverrides == orgs[orgId].featureOverrides;
  }

  /** An activation without notes puts the tenant on the pro plan. */
  lemma ActivationWithoutNotesGetsPro(orgs: map<string, Org>, orgId: string, id: Option<string>, now: DateTime)
    requires orgId in orgs
    ensures var r := HandleSubscriptionActivated(orgs, orgId, SubscriptionData(NotesAbsent, id), now);
            r.Success? && GetPlanFeatures(r.value, orgId) == ProPlan.features + orgs[orgId].featureOverrides
  {
    var after := HandleSubscriptionActivated(orgs, orgId, SubscriptionData(NotesAbsent, id), now).value;
    assert PlanById(after[orgId].planId) == ProPlan;
    assert after[orgId].featureOverrides == orgs[orgId].featureOverrides;
  }

  /** A failed payment does not change what a tenant whose subscription had
      not expired may use. */
  lemma PaymentFailedKeepsFeatures(orgs: map<string, Org>, orgId: string, now: DateTime)
    requires orgId in orgs ==> orgs[orgId].subscriptionStatus != "expired"
    ensures GetPlanFeatures(HandlePaymentFailed(orgs, orgId, now), orgId) == GetPlanFeatures(orgs, orgId)
  {
    var after := HandlePaymentFailed(orgs, orgId, now);
    if orgId in orgs {
      assert after[orgId].planId == orgs[orgId].planId;
      assert after[orgId].featureOverrides == orgs[orgId].featureOverrides;
    }
  }
}

=== FILE: tenants.dfy ===
/** The tenant documents of the multi-tenant back end (backend/models/saas.py)
    and the three collections the tenant service reads and writes:
    `organizations` keyed by id, `org_users` in insertion order (a lookup
    returns the first match), and `usage_records` keyed by org id.
    Timestamps are `DateTime` values of module Calendar. */
module Tenants {
  import opened Wrappers
  import opened Plans
  import opened Calendar

  /** An organization document. */
  datatype Org = Org(
    id: string,
    name: string,
    slug: Option<string>,
    ownerId: string,
    email: Option<string>,
    phone: Option<string>,
    industry: Option<string>,
    companySize: Option<string>,
    planId: string,
    subscriptionId: Option<string>,
    subscriptionStatus: string,
    trialEndsAt: Option<DateTime>,
    featureOverrides: Features,
    isActive: bool,
    isVerified: bool,
    createdAt: DateTime,
    updatedAt: DateTime)

  /** A user of an organization. */
  datatype OrgUser = OrgUser(
    id: string,
    orgId: string,
    name: string,
    email: string,
    phone: Option<string>,
    hashedPassword: string,
    role: string,
    permissions: seq<string>,
    isActive: bool,
    emailVerified: bool,
    lastLogin: Option<DateTime>,
    createdAt: DateTime)

  /** A usage record: the `<type>_count` counters (and
      `ai_chats_this_month`) as a map, since `$inc` may add new ones. */
  datatype UsageRecord = UsageRecord(
    id: string,
    orgId: string,
    counters: map<string, int>,
    periodStart: DateTime,
    periodEnd: DateTime,
    updatedAt: DateTime)

  datatype Tenancy = Tenancy(
    orgs: map<string, Org>,
    users: seq<OrgUser>,
    usage: map<string, UsageRecord>)

  /** The subscription fields an `Organization` starts with. */
  const DefaultPlanId := "plan_free"
  const DefaultSubscriptionStatus := "trialing"

  /** The counters of a fresh `UsageRecord`. */
  const UsageCounterKeys: seq<string> := ["device_count", "user_count", "company_count", "ai_chats_this_month"]

  function ZeroCounters(): (r: map<string, int>)
    ensures r.Keys == set k | k in UsageCounterKeys
    ensures forall k :: k in r ==> r[k] == 0
  {
    map k | k in UsageCounterKeys :: 0
  }

  /** Python truthiness of an optional string: present and not empty. */
  predicate Present(o: Option<string>) {
    o.Some? && o.value != ""
  }

  /** `{"field": value}` lookups over the collections. */
  predicate SlugInUse(orgs: map<string, Org>, slug: string) {
    exists id :: id in orgs && orgs[id].slug == Some(slug)
  }

  predicate EmailInUse(users: seq<OrgUser>, email: string) {
    exists i :: 0 <= i < |users| && users[i].email == email
  }

  /** `add_org_filter`: the query with its `org_id` entry set to the tenant. */
  function AddOrgFilter(query: map<string, string>, orgId: string): (r: map<string, string>)
    ensures "org_id" in r && r["org_id"] == orgId
    ensures r.Keys == query.Keys + {"org_id"}
    ensures forall k :: k in query && k != "org_id" ==> r[k] == query[k]
  {
    query["org_id" := orgId]
  }
}

=== FILE: text.dfy ===
/** Character classes and string operations that the Python back end and the
    JavaScript front end both use: case folding, whitespace trimming,
    substring search and lexicographic comparison.

    Case mapping is modelled on ASCII only (see README, "Left out").  The two
    languages disagree on what counts as whitespace, so both sets are
    spelled out. */
module Text {

  predicate IsAsciiUpper(c: char) { 'A' <= c <= 'Z' }

  predicate IsAsciiLower(c: char) { 'a' <= c <= 'z' }

  predicate IsAsciiDigit(c: char) { '0' <= c <= '9' }

  /** `str.lower()` / `String.prototype.toLowerCase()` restricted to ASCII letters. */
  function LowerChar(c: char): (r: char)
    ensures !IsAsciiUpper(r)
    ensures IsAsciiUpper(c) ==> IsAsciiLower(r) && r as int == c as int + 32
    ensures !IsAsciiUpper(c) ==> r == c
  {
    if IsAsciiUpper(c) then (c as int + 32) as char else c
  }

  function Lower(s: string): (r: string)
    ensures |r| == |s|
    ensures forall i :: 0 <= i < |s| ==> r[i] == LowerChar(s[i])
  {
    if s == [] then [] else [LowerChar(s[0])] + Lower(s[1..])
  }

  lemma LowerIdempotent(s: string)
    ensures Lower(Lower(s)) == Lower(s)
  {
  }

  /** Python's `str.isspace()`, which is also what `\s` and `str.strip()` use:
      includes the ASCII separators U+001C..U+001F and U+0085. */
  predicate PyIsSpace(c: char) {
    var n := c as int;
    (9 <= n <= 13) || (28 <= n <= 32) || n == 0x85 || n == 0xA0 || n == 0x1680
    || (0x2000 <= n <= 0x200A) || n == 0x2028 || n == 0x2029 || n == 0x202F
    || n == 0x205F || n == 0x3000
  }

  /** ECMAScript WhiteSpace plus LineTerminator, the set matched by `\s` and
      removed by `String.prototype.trim()`; includes U+FEFF, excludes
      U+001C..U+001F and U+0085. */
  predicate JsIsSpace(c: char) {
    var n := c as int;
    (9 <= n <= 13) || n == 32 || n == 0xA0 || n == 0x1680
    || (0x2000 <= n <= 0x200A) || n == 0x2028 || n == 0x2029 || n == 0x202F
    || n == 0x205F || n == 0x3000 || n == 0xFEFF
  }

  /** The two whitespace sets agree everywhere except on these characters. */
  lemma WhitespaceSetsDiffer(c: char)
    ensures PyIsSpace(c) != JsIsSpace(c) <==> (28 <= c as int <= 31 || c as int == 0x85 || c as int == 0xFEFF)
  {
  }

  function TrimStart(s: string, ws: char -> bool): (r: string)
    ensures |r| <= |s| && r == s[|s| - |r|..]
    ensures r != [] ==> !ws(r[0])
    ensures forall i :: 0 <= i < |s| - |r| ==> ws(s[i])
  {
    if s != [] && ws(s[0]) then TrimStart(s[1..], ws) else s
  }

  function TrimEnd(s: string, ws: char -> bool): (r: string)
    ensures |r| <= |s| && r == s[..|r|]
    ensures r != [] ==> !ws(r[|r| - 1])
    ensures forall i :: |r| <= i < |s| ==> ws(s[i])
  {
    if s != [] && ws(s[|s| - 1]) then TrimEnd(s[..|s| - 1], ws) else s
  }

  /** Removes the leading and trailing characters of `s` that satisfy `ws`. */
  function Trim(s: string, ws: char -> bool): (r: string)
    ensures |r| <= |s|
    ensures r != [] ==> !ws(r[0]) && !ws(r[|r| - 1])
  {
    TrimEnd(TrimStart(s, ws), ws)
  }

  /** What `Trim` keeps is a piece of `s` with only whitespace around it. */
  lemma TrimOccurs(s: string, ws: char -> bool)
    ensures exists k :: OccursAt(s, Trim(s, ws), k) && (forall i :: 0 <= i < k ==> ws(s[i]))
                        && (forall i :: k + |Trim(s, ws)| <= i < |s| ==> ws(s[i]))
  {
    var a := TrimStart(s, ws);
    var b := TrimEnd(a, ws);
    var k := |s| - |a|;
    assert b == Trim(s, ws);
    assert OccursAt(s, b, k);
    forall i | k + |b| <= i < |s|
      ensures ws(s[i])
    {
      assert s[i] == a[i - k];
    }
  }

  /** What `Trim` keeps is the slice of `s` after its leading whitespace. */
  lemma TrimIsSlice(s: string, ws: char -> bool)
    ensures var k := |s| - |TrimStart(s, ws)|;
            k + |Trim(s, ws)| <= |s| && Trim(s, ws) == s[k..k + |Trim(s, ws)|]
  {
    var a := TrimStart(s, ws);
    var k := |s| - |a|;
    var b := TrimEnd(a, ws);
    assert b == a[..|b|] && a == s[k..];
    assert s[k..][..|b|] == s[k..k + |b|];
  }

  /** A property of every character of `s` holds on every slice of it. */
  lemma SliceKeepsAll(s: string, i: nat, j: nat, q: char -> bool)
    requires i <= j <= |s|
    requires forall k :: 0 <= k < |s| ==> q(s[k])
    ensures forall k :: 0 <= k < j - i ==> q(s[i..j][k])
  {
    assert forall k :: 0 <= k < j - i ==> s[i..j][k] == s[i + k];
  }

  /** `str.strip()` with no argument. */
  function PyStrip(s: string): string { Trim(s, PyIsSpace) }

  /** `String.prototype.trim()`. */
  function JsTrim(s: string): string { Trim(s, JsIsSpace) }

  lemma TrimStartNoop(s: string, ws: char -> bool)
    requires s == [] || !ws(s[0])
    ensures TrimStart(s, ws) == s
  {
  }

  lemma TrimEndNoop(s: string, ws: char -> bool)
    requires s == [] || !ws(s[|s| - 1])
    ensures TrimEnd(s, ws) == s
  {
  }

  /** A string with no whitespace at either end is its own trim. */
  lemma TrimNoop(s: string, ws: char -> bool)
    requires s == [] || (!ws(s[0]) && !ws(s[|s| - 1]))
    ensures Trim(s, ws) == s
  {
    TrimStartNoop(s, ws);
    TrimEndNoop(s, ws);
  }

  /** Trimming twice removes nothing more. */
  lemma TrimIdempotent(s: string, ws: char -> bool)
    ensures Trim(Trim(s, ws), ws) == Trim(s, ws)
  {
    TrimNoop(Trim(s, ws), ws);
  }

  /** A string that trims to nothing consists of whitespace only. */
  lemma TrimEmptyIffAllSpace(s: string, ws: char -> bool)
    ensures Trim(s, ws) == [] <==> forall i :: 0 <= i < |s| ==> ws(s[i])
  {
    var a := TrimStart(s, ws);
    var b := TrimEnd(a, ws);
  }

  /** `needle` occurs as a contiguous piece of `hay` (`includes` / `in`). */
  predicate Contains(hay: string, needle: string) {
    exists i :: 0 <= i <= |hay| && OccursAt(hay, needle, i)
  }

  /** `needle` occurs in `hay` starting at index `i`. */
  predicate OccursAt(hay: string, needle: string, i: int) {
    0 <= i <= |hay| - |needle| && hay[i..i + |needle|] == needle
  }

  lemma ContainsEmpty(hay: string)
    ensures Contains(hay, [])
  {
    assert OccursAt(hay, [], 0);
  }

  /** `s.replace(c, rep)` in Python: every occurrence of `c` is replaced. */
  function ReplaceChar(s: string, c: char, rep: string): (r: string)
    ensures c !in s ==> r == s
    ensures c !in rep ==> c !in r
  {
    if s == [] then []
    else (if s[0] == c then rep else [s[0]]) + ReplaceChar(s[1..], c, rep)
  }

  /** One step of the replacement. */
  lemma ReplaceCharStep(s: string, c: char, rep: string)
    requires s != []
    ensures ReplaceChar(s, c, rep) == (if s[0] == c then rep else [s[0]]) + ReplaceChar(s[1..], c, rep)
  {
  }

  /** Replacing distributes over concatenation. */
  lemma {:induction false} ReplaceCharAppend(a: string, b: string, c: char, rep: string)
    ensures ReplaceChar(a + b, c, rep) == ReplaceChar(a, c, rep) + ReplaceChar(b, c, rep)
  {
    if a != [] {
      var head := if a[0] == c then rep else [a[0]];
      var ab := a + b;
      assert ab[0] == a[0] && ab[1..] == a[1..] + b;
      ReplaceCharStep(ab, c, rep);
      ReplaceCharStep(a, c, rep);
      ReplaceCharAppend(a[1..], b, c, rep);
      var x, y := ReplaceChar(a[1..], c, rep), ReplaceChar(b, c, rep);
      assert head + (x + y) == (head + x) + y;
    } else {
      assert a + b == b;
    }
  }

  /** A prefix without the character passes through unchanged. */
  lemma ReplaceCharAfterClean(a: string, b: string, c: char, rep: string)
    requires c !in a
    ensures ReplaceChar(a + b, c, rep) == a + ReplaceChar(b, c, rep)
  {
    ReplaceCharAppend(a, b, c, rep);
  }

  /** Lexicographic order on code points, the order in which MongoDB compares
      two strings. */
  predicate LexLe(a: string, b: string)
    decreases |a|
  {
    if a == [] then true
    else if b == [] then false
    else if a[0] != b[0] then a[0] < b[0]
    else LexLe(a[1..], b[1..])
  }

  lemma {:induction false} LexLeTotal(a: string, b: string)
    ensures LexLe(a, b) || LexLe(b, a)
    decreases |a|
  {
    if a != [] && b != [] && a[0] == b[0] {
      LexLeTotal(a[1..], b[1..]);
    }
  }

  /** On two strings of the same length that share a prefix of length `k`
      the comparison is decided by the rest. */
  lemma {:induction false} LexLeCommonPrefix(p: string, a: string, b: string)
    ensures LexLe(p + a, p + b) == LexLe(a, b)
    decreases |p|
  {
    if p != [] {
      assert (p + a)[1..] == p[1..] + a;
      assert (p + b)[1..] == p[1..] + b;
      LexLeCommonPrefix(p[1..], a, b);
    } else {
      assert p + a == a && p + b == b;
    }
  }

  /** With equal-length heads that differ, the heads decide the order. */
  lemma {:induction false} LexLeHeadsDiffer(x: string, a: string, y: string, b: string)
    requires |x| == |y| && x != y
    ensures LexLe(x + a, y + b) == LexLe(x, y)
    decreases |x|
  {
    assert x != [] && y != [];
    assert (x + a)[0] == x[0] && (y + b)[0] == y[0];
    if x[0] == y[0] {
      assert (x + a)[1..] == x[1..] + a;
      assert (y + b)[1..] == y[1..] + b;
      LexLeHeadsDiffer(x[1..], a, y[1..], b);
    }
  }
  /** `s.split(sep)` with a one-character separator: the pieces between
      separators, always at least one. */
  function Split(s: string, sep: char): (r: seq<string>)
    ensures |r| >= 1
    ensures forall i :: 0 <= i < |r| ==> sep !in r[i]
  {
    if s == [] then [""]
    else
      var rest := Split(s[1..], sep);
      if s[0] == sep then [""] + rest else [[s[0]] + rest[0]] + rest[1..]
  }

  /** `parts.join(sep)`. */
  function Join(parts: seq<string>, sep: char): string
    requires |parts| >= 1
  {
    if |parts| == 1 then parts[0] else parts[0] + [sep] + Join(parts[1..], sep)
  }

  /** Joining the pieces with the separator gives back the text. */
  lemma {:induction false} JoinSplit(s: string, sep: char)
    ensures Join(Split(s, sep), sep) == s
  {
    if s != [] {
      var rest := Split(s[1..], sep);
      JoinSplit(s[1..], sep);
      if s[0] == sep {
        assert ([""] + rest)[1..] == rest;
      } else {
        var r := [[s[0]] + rest[0]] + rest[1..];
        if |rest| > 1 {
          assert r[1..] == rest[1..];
          assert Join(rest, sep) == rest[0] + [sep] + Join(rest[1..], sep);
        }
      }
    }
  }

  /** The number of occurrences of `c` in `s`. */
  function Count(s: string, c: char): nat {
    if s == [] then 0 else (if s[0] == c then 1 else 0) + Count(s[1..], c)
  }

  /** There is one piece more than there are separators. */
  lemma {:induction false} SplitCount(s: string, sep: char)
    ensures |Split(s, sep)| == Count(s, sep) + 1
  {
    if s != [] {
      SplitCount(s[1..], sep);
    }
  }

  /** Trimming keeps only characters of the original. */
  lemma TrimKeepsAbsence(s: string, ws: char -> bool, c: char)
    requires c !in s
    ensures c !in Trim(s, ws)
  {
    TrimOccurs(s, ws);
    var t := Trim(s, ws);
    var k :| OccursAt(s, t, k);
    forall i | 0 <= i < |t|
      ensures t[i] != c
    {
      assert t[i] == s[k + i];
    }
  }
}

=== FILE: warranty.dfy ===
/** Warranty date logic of the back end (backend/utils/helpers.py and the
    copies at the top of backend/server.py): the 30-days-per-month part
    expiry, the inclusive date-only `is_warranty_active` / `days_until_expiry`
    of helpers.py, and the older server.py `is_warranty_active`, which
    compares a wall-clock instant with midnight of the expiry date.  "Today"
    and "now" are parameters. */
module Warranty {
  import opened Wrappers
  import opened Text
  import opened Numerals
  import opened Calendar

  /** `calculate_warranty_expiry` raises: `fromisoformat` rejects the text
      (`ValueError`) or the sum leaves years 1..9999 (`OverflowError`). */
  datatype ExpiryError = InvalidIsoDate | DateOverflow

  /** `replaced_date.replace('Z', '+00:00')`: a UTC designator becomes an
      offset `fromisoformat` understands. */
  function ZuluAsOffset(s: string): (r: string)
    ensures 'Z' !in r
    ensures 'Z' !in s ==> r == s
  {
    ReplaceChar(s, 'Z', "+00:00")
  }

  /** `calculate_warranty_expiry(replaced_date, warranty_months)`: the
      `YYYY-MM-DD` rendering of the parsed date plus `30 * months` days.  The
      time of day and the UTC offset never move the date. */
  function CalculateWarrantyExpiry(replacedDate: string, months: int): (r: Result<string, ExpiryError>)
    ensures r == Failure(InvalidIsoDate) <==> ParseIsoDateTime(ZuluAsOffset(replacedDate)).None?
    ensures r.Success? <==>
              && ParseIsoDateTime(ZuluAsOffset(replacedDate)).Some?
              && 0 <= DayNumber(ParseIsoDateTime(ZuluAsOffset(replacedDate)).value) + 30 * months <= MaxDayNumber
    ensures r.Success? ==>
              && ParseYmd(r.value).Some?
              && DayNumber(ParseYmd(r.value).value)
                 == DayNumber(ParseIsoDateTime(ZuluAsOffset(replacedDate)).value) + 30 * months
  {
    match ParseIsoDateTime(ZuluAsOffset(replacedDate))
    case None => Failure(InvalidIsoDate)
    case Some(d) =>
      match AddDays(d, 30 * months)
      case None => Failure(DateOverflow)
      case Some(e) =>
        ParseYmdOfFormat(e);
        Success(FormatDate(e))
  }

  /** Zero months gives the replacement date's own rendering. */
  lemma ExpiryOfZeroMonths(replacedDate: string)
    requires ParseIsoDateTime(ZuluAsOffset(replacedDate)).Some?
    ensures CalculateWarrantyExpiry(replacedDate, 0)
            == Success(FormatDate(ParseIsoDateTime(ZuluAsOffset(replacedDate)).value))
  {
    AddZeroDays(ParseIsoDateTime(ZuluAsOffset(replacedDate)).value);
  }

  /** More months never give an earlier expiry, as a date and as the string
      the dashboard compares. */
  lemma ExpiryMonotone(replacedDate: string, m1: int, m2: int)
    requires m1 <= m2
    requires CalculateWarrantyExpiry(replacedDate, m1).Success?
    requires CalculateWarrantyExpiry(replacedDate, m2).Success?
    ensures LexLe(CalculateWarrantyExpiry(replacedDate, m1).value, CalculateWarrantyExpiry(replacedDate, m2).value)
  {
    var d := ParseIsoDateTime(ZuluAsOffset(replacedDate)).value;
    var e1, e2 := AddDays(d, 30 * m1).value, AddDays(d, 30 * m2).value;
    FormatDateOrder(e1, e2);
  }

  /** A rendered date has no 'Z' in it. */
  lemma NoZuluInRendering(d: Date)
    requires ValidDate(d)
    ensures 'Z' !in FormatDate(d)
  {
    var s := FormatDate(d);
    forall i | 0 <= i < |s|
      ensures s[i] != 'Z'
    {
      if i != 4 && i != 7 {
        assert IsDigitIn(s[i], 10);
      }
    }
  }

  /** Replacing 'Z' in a stamped date touches only the time part. */
  lemma ZuluOfStamped(d: Date, sep: char, time: string)
    requires ValidDate(d) && sep != 'Z'
    ensures ZuluAsOffset(FormatDate(d) + [sep] + time) == FormatDate(d) + ([sep] + ZuluAsOffset(time))
  {
    var date := FormatDate(d);
    var head := date + [sep];
    var z := ZuluAsOffset(time);
    assert ZuluAsOffset(head + time) == head + z by {
      NoZuluInStampHead(d, sep);
      ReplaceCharAfterClean(head, time, 'Z', "+00:00");
    }
    assert head + z == date + ([sep] + z);
  }

  /** The date and separator of a stamp have no 'Z' to replace. */
  lemma NoZuluInStampHead(d: Date, sep: char)
    requires ValidDate(d) && sep != 'Z'
    ensures 'Z' !in FormatDate(d) + [sep]
  {
    NoZuluInRendering(d);
  }

  /** A time of day, with a `Z` or an offset, after a `YYYY-MM-DD` date is
      dropped: the expiry is that of the bare date. */
  lemma TimeOfDayIgnored(d: Date, sep: char, time: string, months: int)
    requires ValidDate(d) && sep != 'Z'
    requires IsoTime(ZuluAsOffset(time))
    ensures CalculateWarrantyExpiry(FormatDate(d) + [sep] + time, months)
            == CalculateWarrantyExpiry(FormatDate(d), months)
  {
    var date := FormatDate(d);
    var rest := [sep] + ZuluAsOffset(time);
    assert ZuluAsOffset(date + [sep] + time) == date + rest by {
      ZuluOfStamped(d, sep, time);
    }
    assert ZuluAsOffset(date) == date by {
      NoZuluInRendering(d);
    }
    assert ParseIsoDateTime(date + rest) == ParseIsoDateTime(date) by {
      assert rest[1..] == ZuluAsOffset(time);
      ParseIsoWithTime(date, rest);
    }
  }

  // ---------------------------------------------------------------------
  // helpers.py: date-only comparisons against today's date in IST

  /** `is_warranty_active(expiry_date)` of helpers.py: the text parses with
      `%Y-%m-%d` and today is not after it (inclusive on the expiry day);
      anything that fails to parse is inactive. */
  function IsWarrantyActive(expiryDate: string, today: Date): (r: bool)
    requires ValidDate(today)
    ensures r <==> ParseYmd(expiryDate).Some? && DayNumber(today) <= DayNumber(ParseYmd(expiryDate).value)
  {
    match ParseYmd(expiryDate)
    case None => false
    case Some(e) =>
      DayNumberOrder(e, today);
      !DateLt(e, today)
  }

  const ParseFailureDays := -9999

  /** `days_until_expiry(expiry_date)`: how many days from today to the
      expiry date, or -9999 when the text does not parse. */
  function DaysUntilExpiry(expiryDate: string, today: Date): (r: int)
    requires ValidDate(today)
    ensures ParseYmd(expiryDate).None? ==> r == ParseFailureDays
    ensures ParseYmd(expiryDate).Some? ==> AddDays(today, r) == ParseYmd(expiryDate)
  {
    DaysTo(ParseYmd(expiryDate), today)
  }

  /** The day count to an expiry date that may have failed to parse. */
  function DaysTo(expiry: Option<Date>, today: Date): (r: int)
    requires ValidDate(today) && (expiry.Some? ==> ValidDate(expiry.value))
    ensures expiry.None? ==> r == ParseFailureDays
    ensures expiry.Some? ==> AddDays(today, r) == expiry
  {
    if expiry.None? then ParseFailureDays
    else
      var n := DayNumber(expiry.value) - DayNumber(today);
      AddDaysToward(today, expiry.value, n);
      n
  }

  /** The two helpers agree: a warranty is active exactly when its day count
      is not negative (a parse failure is inactive and -9999). */
  lemma ActiveIffDaysNotNegative(expiryDate: string, today: Date)
    requires ValidDate(today)
    ensures IsWarrantyActive(expiryDate, today) <==> DaysUntilExpiry(expiryDate, today) >= 0
  {
    if ParseYmd(expiryDate).Some? {
      var e := ParseYmd(expiryDate).value;
      assert AddDays(today, DaysUntilExpiry(expiryDate, today)) == Some(e);
    }
  }

  /** The empty string and other malformed text are never active. */
  lemma MalformedIsInactive(today: Date)
    requires ValidDate(today)
    ensures !IsWarrantyActive("", today)
    ensures !IsWarrantyActive("not-a-date", today)
    ensures DaysUntilExpiry("", today) == ParseFailureDays
  {
    ParseYmdRejectsShort("");
    var s := "not-a-date";
    assert s[..4][0] == 'n' && !IsDigitIn('n', 10);
  }

  /** The sentinel is also a real answer: a date 9999 days ago gives the same
      -9999 as text that does not parse. */
  lemma SentinelIsAmbiguous(today: Date, past: Date)
    requires ValidDate(today) && ValidDate(past)
    requires DayNumber(past) == DayNumber(today) - 9999
    ensures DaysUntilExpiry(FormatDate(past), today) == DaysUntilExpiry("", today)
  {
    ParseYmdOfFormat(past);
    ParseYmdRejectsShort("");
  }

  // ---------------------------------------------------------------------
  // server.py: `datetime.now() <= strptime(expiry)`, a naive instant against
  // midnight at the start of the expiry date

  /** `is_warranty_active(expiry_date)` of server.py. */
  function ServerIsWarrantyActive(expiryDate: string, now: DateTime): (r: bool)
    requires ValidDateTime(now)
    ensures r <==> && ParseYmd(expiryDate).Some?
                   && (|| DayNumber(now.date) < DayNumber(ParseYmd(expiryDate).value)
                       || (now.date == ParseYmd(expiryDate).value && now.micros == 0))
  {
    match ParseYmd(expiryDate)
    case None => false
    case Some(e) => DateTimeLe(now, Midnight(e))
  }

  /** The server.py check never says active when helpers.py says expired. */
  lemma ServerActiveImpliesActive(expiryDate: string, now: DateTime)
    requires ValidDateTime(now)
    ensures ServerIsWarrantyActive(expiryDate, now) ==> IsWarrantyActive(expiryDate, now.date)
  {
  }

  /** On the expiry day itself, after midnight, the two checks disagree. */
  lemma VariantsDisagreeOnExpiryDay(e: Date, now: DateTime)
    requires ValidDate(e) && ValidDateTime(now)
    requires now.date == e && now.micros > 0
    ensures IsWarrantyActive(FormatDate(e), now.date)
    ensures !ServerIsWarrantyActive(FormatDate(e), now)
  {
    ParseYmdOfFormat(e);
  }

  /** On every other day they agree. */
  lemma VariantsAgreeOffExpiryDay(expiryDate: string, now: DateTime)
    requires ValidDateTime(now)
    requires ParseYmd(expiryDate).Some? ==> ParseYmd(expiryDate).value != now.date
    ensures ServerIsWarrantyActive(expiryDate, now) == IsWarrantyActive(expiryDate, now.date)
  {
    if ParseYmd(expiryDate).Some? {
      DayNumberOrder(ParseYmd(expiryDate).value, now.date);
    }
  }
}

=== FILE: warranty_page.dfy ===
/** The search form of the public warranty page
    (frontend/src/pages/public/OrgWarrantyPage.js): which query is sent and
    which message a failed lookup shows.  The request itself is a
    parameter: its answer is given as an HTTP status, or none when no
    response came back. */
module WarrantyPage {
  import opened Wrappers
  import opened Text

  /** `handleSearch`: a query that trims to nothing sends no request;
      otherwise the trimmed query is sent. */
  function SearchRequest(searchQuery: string): (r: Option<string>)
    ensures r.None? <==> forall i :: 0 <= i < |searchQuery| ==> JsIsSpace(searchQuery[i])
    ensures r.Some? ==> r.value == JsTrim(searchQuery) && r.value != ""
  {
    TrimEmptyIffAllSpace(searchQuery, JsIsSpace);
    if JsTrim(searchQuery) == "" then None else Some(JsTrim(searchQuery))
  }

  /** A query that was sent is sent again unchanged when it is searched for
      a second time: it has no whitespace to trim at its ends. */
  lemma SentQueryIsTrimmed(searchQuery: string)
    requires SearchRequest(searchQuery).Some?
    ensures SearchRequest(SearchRequest(searchQuery).value) == SearchRequest(searchQuery)
  {
    TrimIdempotent(searchQuery, JsIsSpace);
  }

  /** The two messages of a failed lookup. */
  datatype SearchError = DeviceNotFound | TryAgain

  /** `error.response?.status === 404`: only a 404 answer says the device
      was not found; every other failure, a missing response included, asks
      to try again. */
  function ErrorMessage(status: Option<int>): (r: SearchError)
    ensures r == DeviceNotFound <==> status == Some(404)
  {
    if status == Some(404) then DeviceNotFound else TryAgain
  }
}

=== FILE: wrappers.dfy ===
/** Failure-carrying wrappers shared by every module of the model.
    `Option` stands for a Python `None` / JavaScript `undefined` value, and
    `Result` for an operation that either returns or raises / responds with an
    error. */
module Wrappers {

  datatype Option<+T> = None | Some(value: T) {

    function GetOr(default: T): T {
      match this
      case Some(v) => v
      case None => default
    }
  }

  datatype Result<+R, +E> = Success(value: R) | Failure(error: E) {

    predicate IsFailure() {
      Failure?
    }

    function ToOption(): Option<R> {
      match this
      case Success(v) => Some(v)
      case Failure(_) => None
    }
  }
}
